=== FILE: README.md ===
# FlowAnalyzer in Dafny

A model of the pure core of FlowAnalyzer, a tool that turns a packet capture
into HTTP request/response pairs. It also splits large captures into
balanced batches. Three pieces are modelled.

- **HTTP reconstruction and the store**, in `FlowAnalyzer/FlowAnalyzer.py`:
  - tshark prints one row per HTTP packet;
  - `parse_packet_data` picks the fields of a row;
  - `extract_http_file_data` turns the hex message into a header and a body;
  - the body is dechunked (chunked transfer coding, section 7.1 of RFC 9112) and gunzipped, both best effort;
  - the rows are stored with `INSERT OR REPLACE` into a requests table and a responses table, keyed by frame number;
  - `generate_http_dict_pairs` joins each request with the responses that answer it, then lists the orphan responses;
  - `_is_cache_valid` decides whether a database built earlier can be reused.
- **Record decoding**, in `FlowAnalyzer/PacketParser.py`: `process_row` reads one tab-separated line into a request or response record, or nothing. `process_batch` keeps the records of a batch of lines.
- **The capture splitter**, in `FlowAnalyzer/PcapSplitter.py`:
  - TCP packets are grouped into bidirectional flows under a canonical key;
  - the flows are spread over `min(default_chunks, #flows)` buckets by the greedy Longest-Processing-Time rule;
  - each bucket is written as `batch_<i>.pcap`.

Modules, one per file:

| module | file | contents |
|---|---|---|
| `Common` | `common.dfy` | `Option`, `Result`, bytes, the foreign `Library` (gzip, unquote, float), strip, sequence folds and their lemmas |
| `Numerals` | `numerals.dfy` | positional numerals: value and shortest digits |
| `Text` | `text.dfy` | `int(s)`, `str(n)`, `str.split` |
| `Hex` | `hex.dfy` | chunk-size numerals, `binascii.unhexlify`, `bytes.fromhex`, `hexlify` |
| `Http` | `http.dfy` | `split_http_headers`, `dechunck_http_response` (function and cursor-loop method), `extract_http_file_data`, the repository's extraction scenarios |
| `PacketParser` | `packet_parser.dfy` | `process_row`, `process_batch` and the writer's side of a record line |
| `Cache` | `cache.dfy` | `_is_cache_valid` and the metadata row |
| `Ingest` | `ingest.dfy` | `parse_packet_data`, row routing, upsert, the batched ingest loop |
| `Pairing` | `pairing.dfy` | the LEFT JOIN and orphan queries |
| `Sorting` | `sorting.dfy` | Python's stable `sort(key=...)` |
| `Splitter` | `splitter.dfy` | `get_stream_key`, grouping, LPT assignment, writing, `split` |

Foreign calls are fields of a `Library` value, passed as a parameter. They are `gzip.decompress`, `urllib.parse.unquote` and `float()`. Exceptions are the error values of `Option`/`Result`. The filesystem, sqlite, tshark and dpkt are replaced by their inputs:
- the capture's existence, size and mtime;
- the rows tshark prints;
- the packets dpkt reads.

## Model

| member | source | states |
|---|---|---|
| Http.SplitHeaders | FlowAnalyzer/FlowAnalyzer.py:377-384 | header + body is the payload; the header ends right after the first CRLFCRLF if there is one, else after the first LFLF, else it is empty |
| Http.SplitHeadersAt | FlowAnalyzer/FlowAnalyzer.py:378-380 | a header ending at its only CRLFCRLF is split off any body unchanged |
| Http.HeaderBlockSplit | FlowAnalyzer/FlowAnalyzer.py:378-380 | a block of CR-free header lines closed by an empty line is split off any body |
| Http.Find | FlowAnalyzer/FlowAnalyzer.py:378 | `find` returns the first occurrence at or after the start, and none only when there is none |
| Http.FindByteFirst | FlowAnalyzer/FlowAnalyzer.py:398 | the LF found is the first at or after the cursor; none is found only when none is there |
| Http.FindByteAt | FlowAnalyzer/FlowAnalyzer.py:398 | conversely, the first LF at or after the cursor is the one found |
| Http.SkipCrLf | FlowAnalyzer/FlowAnalyzer.py:432-435 | skipping after a chunk passes only CR and LF bytes and stops at the end or at the first byte that is neither |
| Http.StepAt | FlowAnalyzer/FlowAnalyzer.py:396-401 | one pass of the loop from a cursor: a whole chunk is non-empty and the next cursor lies past it; a partial chunk is shorter than what remains |
| Http.Dechunk | FlowAnalyzer/FlowAnalyzer.py:387-437 | a decoded body is never longer than the input; empty input decodes to empty output |
| Http.DechunkHttpResponse | FlowAnalyzer/FlowAnalyzer.py:387-437 | the cursor loop with its chunk list computes exactly the recursive definition, so its output is never longer than its input |
| Http.NextChunk | FlowAnalyzer/FlowAnalyzer.py:396-410 | the inner loop that skips blank size lines reaches the same pass as the definition |
| Http.ReadChunk | FlowAnalyzer/FlowAnalyzer.py:411-435 | parsing a size line and reading its chunk, with the CR/LF-skipping loop, agrees with the definition |
| Http.DechunkRoundTrip | FlowAnalyzer/FlowAnalyzer.py:389-437 | non-empty chunks written as hex size, CRLF, data, CRLF, then `0\r\n\r\n` and anything at all, decode to the concatenated chunks |
| Http.DechunkBody | FlowAnalyzer/FlowAnalyzer.py:389-437 | any body sent as one chunk (none if empty) and the last chunk comes back unchanged |
| Http.LastChunkAt | FlowAnalyzer/FlowAnalyzer.py:415-417 | decoding stops at the first zero-size chunk and ignores what follows |
| Http.DechunkUnterminated | FlowAnalyzer/FlowAnalyzer.py:396-437 | chunks that end without a last chunk still decode to their concatenation |
| Http.DechunkTruncated | FlowAnalyzer/FlowAnalyzer.py:423-426 | a chunk cut short after whole chunks contributes what remains, and decoding stops |
| Http.TruncatedChunk | FlowAnalyzer/FlowAnalyzer.py:423-426 | a size line announcing more bytes than follow yields those bytes |
| Http.BlankLineSkipped | FlowAnalyzer/FlowAnalyzer.py:406-409 | a CRLF at the cursor is skipped |
| Http.DechunkRejects | FlowAnalyzer/FlowAnalyzer.py:398-413 | a body starting with a byte that is neither white space nor a hex digit is never dechunked (unsigned sizes only; see Left out) |
| Http.DechunkOrKeep | FlowAnalyzer/FlowAnalyzer.py:454-455 | a failed dechunk leaves the body as split; a successful one replaces it |
| Http.GunzipOrKeep | FlowAnalyzer/FlowAnalyzer.py:457-460 | decompression is attempted only behind 0x1f 0x8b, and a failure keeps the body |
| Http.ExtractHttpFileData | FlowAnalyzer/FlowAnalyzer.py:440-471 | empty or non-hex input gives two empty byte strings; otherwise the header is the split header, and the body is dechunked when that succeeds (kept when it raises), then gunzipped when the result starts with the gzip magic and decompresses |
| Http.ExtractMessage | FlowAnalyzer/FlowAnalyzer.py:446-462 | the hex text of a header block and a body gives back that header and the decoded body |
| Http.ExtractPlain | FlowAnalyzer/FlowAnalyzer.py:453-462 | a body that is neither chunked nor gzip comes back unchanged |
| Http.ExtractChunked | FlowAnalyzer/FlowAnalyzer.py:453-462 | a chunked body closed by the last chunk comes back as the concatenated chunks |
| Http.ExtractGzip | FlowAnalyzer/FlowAnalyzer.py:457-462 | a body behind the gzip magic that decompresses comes back decompressed |
| Http.ScenarioBasicExtraction | tests/test_parser.py:24-32 | `HTTP/1.1 200 OK` with body "Simple Body" gives that header and body |
| Http.ScenarioChunkedDecoding | tests/test_parser.py:34-43 | body `5\r\nHello\r\n0\r\n\r\n` gives "Hello" |
| Http.ScenarioGzipDecompression | tests/test_parser.py:9-22 | a gzip body gives the header and the decompressed content |
| Hex.ParseChunkSizeAccepts | FlowAnalyzer/FlowAnalyzer.py:413 | `int(size_line, 16)` accepts exactly the non-empty runs of hex digits (unsigned) |
| Hex.ParseChunkSizeValue | FlowAnalyzer/FlowAnalyzer.py:413 | an accepted line reads as the base-16 value of its digits |
| Hex.ParseChunkSizeOfSizeLine | FlowAnalyzer/FlowAnalyzer.py:413 | reading a sender's size line gives the size back |
| Numerals.ValueOfDigits | FlowAnalyzer/FlowAnalyzer.py:413 | the shortest digit string of a number reads back as that number |
| Hex.Unhexlify | FlowAnalyzer/PacketParser.py:44-45 | `binascii.unhexlify` succeeds exactly on even-length all-hex text, with half as many bytes |
| Hex.UnhexlifyHexlify | FlowAnalyzer/PacketParser.py:44-45 | unhexlify inverts hexlify |
| Hex.FromHexExtendsUnhexlify | FlowAnalyzer/FlowAnalyzer.py:448 | `bytes.fromhex` accepts all that unhexlify accepts, with the same bytes |
| Hex.FromHexHexlify | FlowAnalyzer/FlowAnalyzer.py:448 | `bytes.fromhex` inverts hexlify |
| Text.ParseInt | FlowAnalyzer/PacketParser.py:39 | `int(s)` succeeds only on optionally signed decimal digits inside white space, and always on plain digits |
| Text.ParseIntOfIntToString | FlowAnalyzer/PacketParser.py:39 | `int(str(n)) == n` |
| Text.Split | FlowAnalyzer/PacketParser.py:34 | `split("\t")` gives tab-free pieces that join back to the line |
| Text.SplitJoinWith | FlowAnalyzer/PacketParser.py:34 | splitting tab-joined tab-free pieces gives the pieces back |
| PacketParser.HexFieldOfHexlify | FlowAnalyzer/PacketParser.py:44-45 | a hex column printed from some bytes (empty for no bytes) reads back as those bytes |
| PacketParser.StatusCodeOfText | FlowAnalyzer/PacketParser.py:54-57 | a printed status code reads back as itself, and an empty status column, on which `int()` raises, reads as 0 |
| PacketParser.RequestInOfText | FlowAnalyzer/PacketParser.py:48-53 | a missing or empty field 6 reads as request_in 0, and a printed request_in reads back as itself |
| PacketParser.ReadFieldsOfColumns | FlowAnalyzer/PacketParser.py:39-45 | columns 1-4 printed from a record (frame, timestamp, header hex, body hex) read back as that record's fields |
| PacketParser.ProcessRow | FlowAnalyzer/PacketParser.py:34-36 | fewer than six columns give None |
| PacketParser.ProcessRowRequest | FlowAnalyzer/PacketParser.py:50-51 | exactly the "req" lines whose columns parse give a request record, with `full_uri` field 5 and no request_in |
| PacketParser.ProcessRowResponse | FlowAnalyzer/PacketParser.py:52-68 | exactly the "rep" lines whose columns and request_in parse give a response record, with the status-code fallback and an empty URI |
| PacketParser.ProcessRowOtherType | FlowAnalyzer/PacketParser.py:69-71 | any other type gives None |
| PacketParser.ProcessRowOfFormatRow | FlowAnalyzer/PacketParser.py:21-75 | a record printed in the column layout process_row documents (lines 23-31) parses back to itself |
| PacketParser.ColumnsHaveNoTab | FlowAnalyzer/PacketParser.py:34 | no printed column of a printable record holds a tab |
| PacketParser.ProcessBatch | FlowAnalyzer/PacketParser.py:9-18 | the batch result is never longer than the batch |
| PacketParser.ProcessBatchAppend | FlowAnalyzer/PacketParser.py:13-18 | a batch split in two gives the two results concatenated |
| PacketParser.ProcessBatchMembers | FlowAnalyzer/PacketParser.py:13-18 | a record is in the result exactly when some line gives it |
| PacketParser.ProcessBatchLoop | FlowAnalyzer/PacketParser.py:9-18 | the loop keeps the non-None results in line order |
| Ingest.Payload | FlowAnalyzer/FlowAnalyzer.py:367-372 | the message is the first non-empty of fields 2, 4 and 6, and empty only when all three are |
| Ingest.ParsePacketData | FlowAnalyzer/FlowAnalyzer.py:351-374 | a parsed row has eight fields, frame `int(field 3)`, timestamp `float(field 5)` and the payload |
| Ingest.ParsePacketDataRequestIn | FlowAnalyzer/FlowAnalyzer.py:363 | an empty request_in field makes a packet answer its own frame |
| Ingest.ParsePacketDataAccepts | FlowAnalyzer/FlowAnalyzer.py:362-365 | which rows parse: eight fields, integer frame, integer or empty request_in, float timestamp |
| Ingest.RouteRow | FlowAnalyzer/FlowAnalyzer.py:292-311 | a stored row parsed; a non-empty status code sends it to responses, an empty one to requests |
| Ingest.RouteRowStored | FlowAnalyzer/FlowAnalyzer.py:292-311 | a row is stored exactly when it is non-empty, parses and carries a message; field 0 alone picks the table |
| Ingest.UpsertAllKeys | FlowAnalyzer/FlowAnalyzer.py:315-329 | after `INSERT OR REPLACE` the keys are the old ones and those inserted |
| Ingest.UpsertAllLastWins | FlowAnalyzer/FlowAnalyzer.py:315-329 | the last row inserted for a key is the one kept |
| Ingest.UpsertAllKeeps | FlowAnalyzer/FlowAnalyzer.py:315-329 | a row whose key nobody inserts stays |
| Ingest.UpsertAllKeyed | FlowAnalyzer/FlowAnalyzer.py:223-224 | every row stays under its own frame number, as under the PRIMARY KEY |
| Ingest.BufferStep | FlowAnalyzer/FlowAnalyzer.py:313-319 | flushing the 5000-row buffer early or late gives the same table |
| Ingest.IngestRequestKeys | FlowAnalyzer/FlowAnalyzer.py:289-329 | a frame is in the requests table exactly when some row stores a request under it |
| Ingest.IngestResponseKeys | FlowAnalyzer/FlowAnalyzer.py:289-329 | a frame is in the responses table exactly when some row stores a response under it |
| Ingest.IngestKeyed | FlowAnalyzer/FlowAnalyzer.py:289-329 | each stored row sits under its own frame number, so no frame appears twice |
| Ingest.IngestLastRequestWins | FlowAnalyzer/FlowAnalyzer.py:314-327 | of several request rows for one frame, the last one is stored |
| Ingest.IngestLastResponseWins | FlowAnalyzer/FlowAnalyzer.py:317-329 | of several response rows for one frame, the last one is stored |
| Ingest.StreamToDb | FlowAnalyzer/FlowAnalyzer.py:279-336 | the loop with its two 5000-row buffers builds exactly the tables of the fold, then writes the metadata row |
| Cache.CacheValidWritten | FlowAnalyzer/FlowAnalyzer.py:170-202 | the database is reused exactly when it is a non-empty file, the capture can be stat-ed, and the stored row is what ingest writes for this filter and this capture, within 0.1 s on the mtime |
| Cache.MetaWritten | FlowAnalyzer/FlowAnalyzer.py:334-336 | the metadata row records the filter and describes the capture |
| Cache.FreshCacheValid | FlowAnalyzer/FlowAnalyzer.py:170-202 | a database just built is reused for the same filter and an untouched capture |
| Cache.OtherFilterInvalid | FlowAnalyzer/FlowAnalyzer.py:192 | any other filter forces a rebuild |
| Cache.ChangedCaptureInvalid | FlowAnalyzer/FlowAnalyzer.py:192 | a changed size, or an mtime moved by 0.1 s or more, forces a rebuild |
| Cache.WithinTolerance | FlowAnalyzer/FlowAnalyzer.py:191-193 | an mtime moved by less than 0.1 s still matches |
| Pairing.Ascending | FlowAnalyzer/FlowAnalyzer.py:90 | `ORDER BY frame_num ASC`: the keys, each once, in increasing order |
| Pairing.PairsOf | FlowAnalyzer/FlowAnalyzer.py:89-106 | the LEFT JOIN gives a request one row per answering response, or one row when none answers, each holding that request |
| Pairing.OrphanPairs | FlowAnalyzer/FlowAnalyzer.py:110-119 | one request-less pair per orphan response |
| Pairing.PairedMembers | FlowAnalyzer/FlowAnalyzer.py:84-106 | (request, response) is yielded exactly when both are stored and the response's request_in is the request's frame |
| Pairing.UnansweredMembers | FlowAnalyzer/FlowAnalyzer.py:96-106 | (request, None) is yielded exactly when no stored response answers the request |
| Pairing.OrphanMembers | FlowAnalyzer/FlowAnalyzer.py:108-119 | (None, response) is yielded exactly when the response's request_in names no stored request |
| Pairing.RequestMultiplicity | FlowAnalyzer/FlowAnalyzer.py:84-106 | each stored request is yielded once per response answering it, or exactly once when none does; no other request frame is yielded |
| Pairing.NoEmptyPair | FlowAnalyzer/FlowAnalyzer.py:84-119 | no pair is empty |
| Pairing.EachResponseOnce | FlowAnalyzer/FlowAnalyzer.py:84-119 | every stored response is yielded exactly once, joined or orphaned |
| Pairing.RequestsAscend | FlowAnalyzer/FlowAnalyzer.py:84-106 | the requests come in non-decreasing frame order |
| Pairing.OrphansLast | FlowAnalyzer/FlowAnalyzer.py:93-119 | every joined row precedes every orphan |
| Pairing.IngestedPairs | FlowAnalyzer/FlowAnalyzer.py:289-329 | on tables built by the ingest, each response is yielded once, requests ascend, and each request is yielded once per answer or once alone |
| Sorting.SortByFacts | FlowAnalyzer/PcapSplitter.py:93 | `sorted(key=...)` is an ordered, stable permutation of its input |
| Sorting.SortedHead | FlowAnalyzer/PcapSplitter.py:101-102 | after the stable sort, `buckets[0]` is the first bucket of least total in the list as it was |
| Splitter.KeyLessOrder | FlowAnalyzer/PcapSplitter.py:28 | Python's tuple comparison on the keys is a strict total order |
| Splitter.StreamKey | FlowAnalyzer/PcapSplitter.py:19-28 | the key is one of the two orientations and no greater than either |
| Splitter.StreamKeySymmetric | FlowAnalyzer/PcapSplitter.py:25-28 | both directions of a conversation get the same key |
| Splitter.GroupFacts | FlowAnalyzer/PcapSplitter.py:66-80 | the flows have distinct keys, each holds exactly its packets in capture order, and every TCP packet is covered |
| Splitter.GroupConserves | FlowAnalyzer/PcapSplitter.py:66-80 | the flows' packets are a permutation of the TCP packets; only non-TCP packets are dropped |
| Splitter.GroupEmpty | FlowAnalyzer/PcapSplitter.py:82-87 | there are no flows exactly when no packet is IPv4/TCP |
| Splitter.GroupBytes | FlowAnalyzer/PcapSplitter.py:77-78 | the flow sizes add up to the bytes of the TCP packets |
| Splitter.BySizeDescending | FlowAnalyzer/PcapSplitter.py:93 | the flows in non-increasing size, a permutation, ties in the order of the input |
| Splitter.GroupFirstSeen | FlowAnalyzer/PcapSplitter.py:66-80 | the flows come in the order their first packet was read, the insertion order of the `streams` dict |
| Splitter.SortedStreamsFirstSeen | FlowAnalyzer/PcapSplitter.py:66-93 | in `sorted_streams`, flows of equal size come in the order their first packet was read |
| Sorting.StableTies | FlowAnalyzer/PcapSplitter.py:93 | after the stable sort, elements with equal keys keep any strict order the input had |
| Splitter.InitialFacts | FlowAnalyzer/PcapSplitter.py:97 | the starting buckets are numbered 0 .. n-1, hold no flow, and have equal totals that match their (empty) contents |
| Splitter.PlaceChooses | FlowAnalyzer/PcapSplitter.py:99-106 | the flow goes to the first bucket of least total, whose total grows by the flow's size; the others stay |
| Splitter.PlaceBalanced | FlowAnalyzer/PcapSplitter.py:99-106 | one greedy step keeps the spread of totals within any bound the flow's size respects |
| Splitter.AssignBalanced | FlowAnalyzer/PcapSplitter.py:99-106 | the whole loop keeps that spread bound |
| Splitter.AssignConsistent | FlowAnalyzer/PcapSplitter.py:99-106 | each running total stays the size of its bucket's flows |
| Splitter.GreedyBuckets | FlowAnalyzer/PcapSplitter.py:93-106 | the assignment loop computes the buckets of the fold |
| Splitter.BalanceIndices | FlowAnalyzer/PcapSplitter.py:97-106 | the buckets keep the indices 0 .. n-1, each once |
| Splitter.BalanceShares | FlowAnalyzer/PcapSplitter.py:99-106 | every flow lands in exactly one bucket |
| Splitter.BalanceTotals | FlowAnalyzer/PcapSplitter.py:99-106 | each total is its bucket's bytes, and the totals sum to all flows' bytes |
| Splitter.BalanceSpread | FlowAnalyzer/PcapSplitter.py:99-106 | no two totals differ by more than the largest flow |
| Splitter.ByIndex | FlowAnalyzer/PcapSplitter.py:113 | after `sort(key=index)` the buckets are numbered 0, 1, 2, ... in list order |
| Splitter.BatchNamesDistinct | FlowAnalyzer/PcapSplitter.py:116 | different batches get different file names |
| Splitter.ThresholdInBytes | FlowAnalyzer/PcapSplitter.py:45-46 | size/MiB < threshold_mb exactly when size < threshold_mb * 1048576 |
| Splitter.SplitOutcomes | FlowAnalyzer/PcapSplitter.py:42-90 | missing file, unsplit, no TCP streams and no buckets, each exactly when the source takes that exit |
| Splitter.BatchesNamed | FlowAnalyzer/PcapSplitter.py:113-117 | the outputs are `batch_0.pcap`, `batch_1.pcap`, ... in list order |
| Splitter.WrittenPackets | FlowAnalyzer/PcapSplitter.py:115-123 | the written files' records, concatenated in file order, are the buckets' flows' packets, concatenated in bucket order |
| Splitter.BucketFlowsInCaptureOrder | FlowAnalyzer/PcapSplitter.py:66-80 | every flow placed in a bucket is non-empty and holds exactly its own packets of the capture, in capture order |
| Splitter.BatchFiles | FlowAnalyzer/PcapSplitter.py:113-123 | file i is batch_i.pcap and holds the flows of the bucket numbered i, in assignment order, each flow's packets in capture order |
| Splitter.BatchesConserve | FlowAnalyzer/PcapSplitter.py:115-123 | together the outputs hold every flow's packets exactly once |
| Splitter.SplitBatches | FlowAnalyzer/PcapSplitter.py:42-123 | a split capture gives min(default_chunks, #flows) files named in index order, whose records are a permutation of the TCP records read |

## Left out

- The subprocess running tshark, CSV field limits, the tshark path lookup and `exit(-1)` are I/O. The ingest is a fold over the rows tshark would print.
- sqlite connections, PRAGMAs, table and index creation, and removing the old database are plumbing. Tables are maps from frame number to row, and the metadata row is a value.
- Errors that sqlite or the process raise during ingest are not modelled. Only the per-row exceptions, which the loop swallows, are.
- The `.json` to `.db` path handling and the existence checks in `__init__`, `check_db_file` and `get_json_data` are filesystem glue.
- Logging, prints and timing are left out.
- `gzip.decompress`, `urllib.parse.unquote` and `float()` are uninterpreted functions in `Common.Library`. Float rounding is not modelled: mtimes are exact reals.
- Cache.CacheValid: the capture's stat and the metadata query are inputs. sqlite's own failures are the single `QueryFailed` outcome.
- Cache.Meta: the `pcap_path` column that ingest writes (FlowAnalyzer/FlowAnalyzer.py:336) is not modelled, because `_is_cache_valid` never reads it and so it is not part of the cache key.
- Hex.ParseChunkSize: only unsigned hex digits are modelled. Python's `int(x, 16)` also accepts a sign, a `0x` prefix and underscores. With a negative size such as body `-3\n`, the cursor moves backwards and the source loop never ends (FlowAnalyzer/FlowAnalyzer.py:420-432). That divergence is recorded here, not modelled.
- Http.DechunkRejects: because of the unsigned-size restriction above, a body opening with `+` (or `-` with a zero size), which `int(x, 16)` parses, counts as rejected here while the source dechunks it.
- Chunk extensions (`;name=value` after the size) are not stripped, because the code does not strip them: `int()` raises and the body is kept as split.
- Text.ParseInt: underscores and non-ASCII Unicode digits, which Python's `int()` accepts, are not modelled.
- Pairing.Pairs: SQL does not order several responses of one request, nor the orphans. The model lists both by ascending response frame, and the lemmas state membership, the number of rows of each request and of each response, and request order, but not the order among the responses of one request.
- NULL columns (`or b""`) cannot arise from this ingest, which always stores bytes and text. They are not modelled.
- The repository's parser tests call `PacketParser.extract_http_file_data`, which `PacketParser.py` does not define. Their scenarios are stated for `FlowAnalyzer.extract_http_file_data`, with the hex passed as text, which is what that function takes.
- Splitter: dpkt reading and Ethernet/IPv4/TCP decoding become the `tcp` field of a `Packet` (None for anything else). Packets dpkt fails to decode are such packets too.
- Splitter: writing a pcap file is modelled as the records written, in order. `os.makedirs` and `os.path.join(output_dir, ...)` are left out, so file names are the base names.
- Splitter: the buckets hold the flows themselves rather than their keys. `streams[key]` is the flow's packet list, so what is written is the same.
- Splitter.Split: the unsplit result `[pcap_file]` is the `Unsplit` outcome.
- Splitter.Split: the MB threshold is compared in exact arithmetic, not in floating point.
- Concurrency: there is none in the code.

=== FILE: cache.dfy ===
/**
 * The cache check of FlowAnalyzer._is_cache_valid (FlowAnalyzer.py:170-202):
 * a database built earlier is reused only when the metadata row written at
 * the end of ingest still describes the capture file and display filter.
 */
module Cache {
  import opened Common

  /** The meta_info row: the display filter, and the capture's mtime and size when ingest ended. */
  datatype Meta = Meta(filter: string, pcapMtime: real, pcapSize: int)

  /** What os.path.getmtime / os.path.getsize report for the capture file. */
  datatype FileStat = FileStat(mtime: real, size: int)

  /** The outcome of `SELECT ... FROM meta_info LIMIT 1`. */
  datatype MetaQuery =
    | MetaRow(meta: Meta)
    | NoMetaRow
    | QueryFailed   // sqlite3.OperationalError or any other exception

  /** The mtime tolerance, in seconds. */
  const Tolerance: real := 0.1

  function Abs(x: real): (a: real)
    ensures a >= 0.0 && (a == x || a == -x)
  {
    if x < 0.0 then -x else x
  }

  /** The capture is described by the stored metadata: same size, mtime within the tolerance. */
  predicate Describes(m: Meta, stat: FileStat)
  {
    m.pcapSize == stat.size && Abs(m.pcapMtime - stat.mtime) < Tolerance
  }

  /**
   * _is_cache_valid. `dbSize` is None when the database file does not exist;
   * `pcap` is None when stat-ing the capture raised.
   */
  function CacheValid(dbSize: Option<nat>, pcap: Option<FileStat>, query: MetaQuery, filter: string): (valid: bool)
    ensures valid ==> dbSize.Some? && dbSize.value > 0 && pcap.Some? && query.MetaRow?
    ensures dbSize.Some? && dbSize.value > 0 && pcap.Some? && query.MetaRow? ==>
              (valid <==> query.meta.filter == filter && Describes(query.meta, pcap.value))
  {
    match (dbSize, pcap, query)
    case (Some(size), Some(stat), MetaRow(m)) => size > 0 && m.filter == filter && Describes(m, stat)
    case _ => false
  }

  /** The metadata row ingest writes after storing the rows. */
  function MetaWritten(filter: string, stat: FileStat): (m: Meta)
    ensures Describes(m, stat) && m.filter == filter
  {
    Meta(filter, stat.mtime, stat.size)
  }

  /**
   * `query` is the row ingest writes for `filter` and a capture of the same
   * size as `stat`, touched `delta` seconds from it, within the tolerance.
   */
  predicate WrittenNear(query: MetaQuery, filter: string, stat: FileStat, delta: real)
  {
    -Tolerance < delta < Tolerance && query == MetaRow(MetaWritten(filter, FileStat(stat.mtime + delta, stat.size)))
  }

  /**
   * The database is reused exactly when it is a non-empty file, the capture
   * can be stat-ed, and the stored row is what ingest writes for this filter
   * and this capture, give or take less than the tolerance on the mtime.
   */
  lemma CacheValidWritten(dbSize: Option<nat>, pcap: Option<FileStat>, query: MetaQuery, filter: string)
    ensures CacheValid(dbSize, pcap, query, filter) <==>
              dbSize.Some? && dbSize.value > 0 && pcap.Some? && exists d :: WrittenNear(query, filter, pcap.value, d)
  {
    if CacheValid(dbSize, pcap, query, filter) {
      var d := query.meta.pcapMtime - pcap.value.mtime;
      assert WrittenNear(query, filter, pcap.value, d);
    }
  }

  /** A database just built is reused for the same filter while the capture is untouched. */
  lemma FreshCacheValid(dbSize: nat, filter: string, stat: FileStat)
    requires dbSize > 0
    ensures CacheValid(Some(dbSize), Some(stat), MetaRow(MetaWritten(filter, stat)), filter)
  {
  }

  /** Any other filter, even one naming the same packets, forces a rebuild. */
  lemma OtherFilterInvalid(dbSize: Option<nat>, pcap: Option<FileStat>, m: Meta, filter: string)
    requires m.filter != filter
    ensures !CacheValid(dbSize, pcap, MetaRow(m), filter)
  {
  }

  /** A capture whose size changed, or whose mtime moved by at least the tolerance, forces a rebuild. */
  lemma ChangedCaptureInvalid(dbSize: Option<nat>, stat: FileStat, m: Meta, filter: string)
    requires m.pcapSize != stat.size || m.pcapMtime - stat.mtime >= Tolerance || stat.mtime - m.pcapMtime >= Tolerance
    ensures !CacheValid(dbSize, Some(stat), MetaRow(m), filter)
  {
  }

  /** A capture touched less than the tolerance earlier or later than recorded still matches. */
  lemma WithinTolerance(filter: string, stat: FileStat, delta: real)
    requires -Tolerance < delta < Tolerance
    ensures Describes(MetaWritten(filter, FileStat(stat.mtime + delta, stat.size)), stat)
  {
  }
}

=== FILE: common.dfy ===
/**
 * Shared vocabulary of the FlowAnalyzer model: optional values and results,
 * bytes, the foreign library calls the system delegates to, and generic
 * facts about sequences that several components rely on.
 */
module Common {

  /** An optional value; `None` plays the part of Python's `None`. */
  datatype Option<+T> = None | Some(value: T)

  /** A computed value, or the error the source would have raised instead. */
  datatype Result<+T, +E> = Ok(value: T) | Err(error: E)

  /** One byte of a Python `bytes` object. */
  type Byte = b: int | 0 <= b < 256

  type Bytes = seq<Byte>

  /**
   * The library calls the core relies on but does not implement. Each one is
   * left uninterpreted: the model says when it is called and what happens
   * when it fails, and `None` stands for a raised exception.
   *   gunzip     -- gzip.decompress
   *   unquote    -- urllib.parse.unquote
   *   parseFloat -- float() applied to a text field
   */
  datatype Library = Library(
    gunzip: Bytes -> Option<Bytes>,
    unquote: string -> string,
    parseFloat: string -> Option<real>)

  /** The bytes of a string all of whose characters are below 256 (Latin-1). */
  function Latin1(s: string): Bytes
    requires forall i :: 0 <= i < |s| ==> s[i] as int < 256
  {
    seq(|s|, i requires 0 <= i < |s| => s[i] as int)
  }

  /* ----------------------------------------------------------------------
   * Trimming: Python's bytes.strip() and str.strip() with no argument.
   * -------------------------------------------------------------------- */

  function TrimLeft<T>(s: seq<T>, ws: set<T>): seq<T>
  {
    if s != [] && s[0] in ws then TrimLeft(s[1..], ws) else s
  }

  function TrimRight<T>(s: seq<T>, ws: set<T>): seq<T>
  {
    if s != [] && s[|s| - 1] in ws then TrimRight(s[..|s| - 1], ws) else s
  }

  /** `s` without its leading and trailing elements that belong to `ws`. */
  function Trim<T>(s: seq<T>, ws: set<T>): (r: seq<T>)
    ensures |r| <= |s|
    ensures r != [] ==> r[0] !in ws && r[|r| - 1] !in ws
  {
    TrimLeftShape(s, ws);
    TrimRightShape(TrimLeft(s, ws), ws);
    TrimRight(TrimLeft(s, ws), ws)
  }

  lemma {:induction false} TrimLeftShape<T>(s: seq<T>, ws: set<T>)
    ensures |TrimLeft(s, ws)| <= |s|
    ensures TrimLeft(s, ws) != [] ==> TrimLeft(s, ws)[0] !in ws
    ensures TrimLeft(s, ws) != [] && s != [] ==> TrimLeft(s, ws)[|TrimLeft(s, ws)| - 1] == s[|s| - 1]
  {
    if s != [] && s[0] in ws {
      TrimLeftShape(s[1..], ws);
    }
  }

  lemma {:induction false} TrimRightShape<T>(s: seq<T>, ws: set<T>)
    requires s != [] ==> s[0] !in ws
    ensures |TrimRight(s, ws)| <= |s|
    ensures TrimRight(s, ws) != [] ==> TrimRight(s, ws)[|TrimRight(s, ws)| - 1] !in ws
    ensures TrimRight(s, ws) != [] ==> TrimRight(s, ws)[0] == s[0]
  {
    if s != [] && s[|s| - 1] in ws {
      TrimRightShape(s[..|s| - 1], ws);
    }
  }

  /** Trimming removes exactly the padding around a core whose ends are not blank. */
  lemma {:induction false} TrimPadded<T>(pre: seq<T>, core: seq<T>, post: seq<T>, ws: set<T>)
    requires forall i :: 0 <= i < |pre| ==> pre[i] in ws
    requires forall i :: 0 <= i < |post| ==> post[i] in ws
    requires core != [] && core[0] !in ws && core[|core| - 1] !in ws
    ensures Trim(pre + core + post, ws) == core
  {
    assert pre + core + post == pre + (core + post);
    TrimLeftPadded(pre, core + post, ws);
    TrimRightPadded(core, post, ws);
  }

  lemma {:induction false} TrimLeftPadded<T>(pre: seq<T>, rest: seq<T>, ws: set<T>)
    requires forall i :: 0 <= i < |pre| ==> pre[i] in ws
    requires rest != [] && rest[0] !in ws
    ensures TrimLeft(pre + rest, ws) == rest
  {
    if pre == [] {
      assert pre + rest == rest;
    } else {
      assert (pre + rest)[1..] == pre[1..] + rest;
      TrimLeftPadded(pre[1..], rest, ws);
    }
  }

  lemma {:induction false} TrimRightPadded<T>(core: seq<T>, post: seq<T>, ws: set<T>)
    requires forall i :: 0 <= i < |post| ==> post[i] in ws
    requires core != [] && core[|core| - 1] !in ws
    ensures TrimRight(core + post, ws) == core
  {
    if post == [] {
      assert core + post == core;
    } else {
      var s := core + post;
      assert s[..|s| - 1] == core + post[..|post| - 1];
      TrimRightPadded(core, post[..|post| - 1], ws);
    }
  }

  /** A sequence of blank elements trims to nothing. */
  lemma {:induction false} TrimAllBlank<T>(s: seq<T>, ws: set<T>)
    requires forall i :: 0 <= i < |s| ==> s[i] in ws
    ensures Trim(s, ws) == []
  {
    if s != [] {
      TrimAllBlank(s[1..], ws);
    }
  }

  /** A sequence that starts with a non-blank element keeps that element first. */
  lemma TrimKeepsFirst<T>(s: seq<T>, ws: set<T>)
    requires s != [] && s[0] !in ws
    ensures Trim(s, ws) != [] && Trim(s, ws)[0] == s[0]
  {
    assert TrimLeft(s, ws) == s;
    TrimRightKeeps(s, ws, 0);
  }

  lemma {:induction false} TrimRightKeeps<T>(s: seq<T>, ws: set<T>, k: nat)
    requires k < |s| && s[k] !in ws
    ensures |TrimRight(s, ws)| > k && TrimRight(s, ws)[k] == s[k]
  {
    if s[|s| - 1] in ws {
      assert k < |s| - 1;
      TrimRightKeeps(s[..|s| - 1], ws, k);
    }
  }

  /* ----------------------------------------------------------------------
   * Concatenation of mapped sequences, and its invariance under permutation.
   * -------------------------------------------------------------------- */

  /** xs[0]'s image, then xs[1]'s image, ... concatenated. */
  function ConcatMap<T, U>(xs: seq<T>, f: T -> seq<U>): seq<U>
  {
    if xs == [] then [] else f(xs[0]) + ConcatMap(xs[1..], f)
  }

  lemma {:induction false} ConcatMapAppend<T, U>(xs: seq<T>, ys: seq<T>, f: T -> seq<U>)
    ensures ConcatMap(xs + ys, f) == ConcatMap(xs, f) + ConcatMap(ys, f)
  {
    if xs == [] {
      assert xs + ys == ys;
    } else {
      assert (xs + ys)[1..] == xs[1..] + ys;
      ConcatMapAppend(xs[1..], ys, f);
    }
  }

  /** What `f` gives for an element of `xs` is part of `ConcatMap(xs, f)`. */
  lemma {:induction false} ConcatMapMember<T, U>(xs: seq<T>, x: T, f: T -> seq<U>, y: U)
    requires x in xs && y in f(x)
    ensures y in ConcatMap(xs, f)
  {
    if xs[0] != x {
      ConcatMapMember(xs[1..], x, f, y);
    }
  }

  /** Removing the element at `j` removes one occurrence of it from the multiset. */
  lemma MultisetRemoveAt<T>(ys: seq<T>, j: nat)
    requires j < |ys|
    ensures multiset(ys[..j] + ys[j + 1..]) + multiset{ys[j]} == multiset(ys)
  {
    assert ys == ys[..j] + [ys[j]] + ys[j + 1..];
  }

  /** Multiset union cancels. */
  lemma MultisetCancel<T>(a: multiset<T>, b: multiset<T>, c: multiset<T>)
    requires a + c == b + c
    ensures a == b
  {
    forall x
      ensures a[x] == b[x]
    {
      assert (a + c)[x] == (b + c)[x];
    }
  }

  /** The tail of a permutation of `ys` is a permutation of `ys` without one occurrence of the head. */
  lemma PermutationTail<T>(xs: seq<T>, ys: seq<T>) returns (j: nat)
    requires xs != [] && multiset(xs) == multiset(ys)
    ensures j < |ys| && ys[j] == xs[0]
    ensures multiset(xs[1..]) == multiset(ys[..j] + ys[j + 1..])
  {
    assert xs[0] in multiset(ys);
    j :| 0 <= j < |ys| && ys[j] == xs[0];
    MultisetRemoveAt(ys, j);
    assert xs == [xs[0]] + xs[1..];
    var a := multiset(xs[1..]);
    var b := multiset(ys[..j] + ys[j + 1..]);
    assert a + multiset{xs[0]} == b + multiset{xs[0]};
    assert forall e :: a[e] == b[e] by {
      forall e ensures a[e] == b[e] {
        assert (a + multiset{xs[0]})[e] == (b + multiset{xs[0]})[e];
      }
    }
  }

  /** Reordering the inputs reorders, but does not change, the multiset of outputs. */
  lemma {:induction false} ConcatMapPermutation<T, U>(xs: seq<T>, ys: seq<T>, f: T -> seq<U>)
    requires multiset(xs) == multiset(ys)
    ensures multiset(ConcatMap(xs, f)) == multiset(ConcatMap(ys, f))
    decreases |xs|
  {
    if xs == [] {
      assert |ys| == |multiset(ys)| == 0;
    } else {
      var j := PermutationTail(xs, ys);
      ConcatMapPermutation(xs[1..], ys[..j] + ys[j + 1..], f);
      assert ys == ys[..j] + ([ys[j]] + ys[j + 1..]);
      ConcatMapAppend(ys[..j], ys[j + 1..], f);
      ConcatMapAppend(ys[..j], [ys[j]] + ys[j + 1..], f);
      assert ConcatMap([ys[j]] + ys[j + 1..], f) == f(ys[j]) + ConcatMap(ys[j + 1..], f);
    }
  }

  /** A non-empty set has an element to pick. */
  lemma Pick<T>(s: set<T>) returns (x: T)
    requires s != {}
    ensures x in s
  {
    if forall y :: y !in s {
      assert false;
    }
    x :| x in s;
  }

  /** `f` applied to each element, in order. */
  function MapSeq<T, U>(xs: seq<T>, f: T -> U): (ys: seq<U>)
    ensures |ys| == |xs| && forall i :: 0 <= i < |xs| ==> ys[i] == f(xs[i])
  {
    seq(|xs|, i requires 0 <= i < |xs| => f(xs[i]))
  }

  lemma MapSeqAppend<T, U>(xs: seq<T>, ys: seq<T>, f: T -> U)
    ensures MapSeq(xs + ys, f) == MapSeq(xs, f) + MapSeq(ys, f)
  {
  }

  /** The elements of a sequence of sequences, in order. */
  function Flatten<T>(xss: seq<seq<T>>): seq<T>
  {
    if xss == [] then [] else xss[0] + Flatten(xss[1..])
  }

  lemma {:induction false} FlattenAppend<T>(xss: seq<seq<T>>, ys: seq<T>)
    ensures Flatten(xss + [ys]) == Flatten(xss) + ys
  {
    if xss == [] {
      assert [] + [ys] == [ys];
    } else {
      assert (xss + [ys])[1..] == xss[1..] + [ys];
      FlattenAppend(xss[1..], ys);
    }
  }

  /* ----------------------------------------------------------------------
   * Sums, and their invariance under permutation.
   * -------------------------------------------------------------------- */

  function SumBy<T>(xs: seq<T>, f: T -> int): int
  {
    if xs == [] then 0 else f(xs[0]) + SumBy(xs[1..], f)
  }

  lemma {:induction false} SumByAppend<T>(xs: seq<T>, ys: seq<T>, f: T -> int)
    ensures SumBy(xs + ys, f) == SumBy(xs, f) + SumBy(ys, f)
  {
    if xs == [] {
      assert xs + ys == ys;
    } else {
      assert (xs + ys)[1..] == xs[1..] + ys;
      SumByAppend(xs[1..], ys, f);
    }
  }

  lemma {:induction false} SumByPermutation<T>(xs: seq<T>, ys: seq<T>, f: T -> int)
    requires multiset(xs) == multiset(ys)
    ensures SumBy(xs, f) == SumBy(ys, f)
    decreases |xs|
  {
    if xs == [] {
      assert |ys| == |multiset(ys)| == 0;
    } else {
      var j := PermutationTail(xs, ys);
      SumByPermutation(xs[1..], ys[..j] + ys[j + 1..], f);
      assert ys == ys[..j] + ([ys[j]] + ys[j + 1..]);
      SumByAppend(ys[..j], ys[j + 1..], f);
      SumByAppend(ys[..j], [ys[j]] + ys[j + 1..], f);
      assert SumBy([ys[j]] + ys[j + 1..], f) == f(ys[j]) + SumBy(ys[j + 1..], f);
    }
  }

  /* ----------------------------------------------------------------------
   * Further facts about mapped sequences.
   * -------------------------------------------------------------------- */

  /** Replacing one element replaces its image in the multiset of the concatenation. */
  lemma ConcatMapUpdate<T, U>(xs: seq<T>, i: nat, y: T, f: T -> seq<U>)
    requires i < |xs|
    ensures multiset(ConcatMap(xs[i := y], f)) + multiset(f(xs[i])) == multiset(ConcatMap(xs, f)) + multiset(f(y))
  {
    var pre, post := xs[..i], xs[i + 1..];
    assert xs == pre + ([xs[i]] + post);
    assert xs[i := y] == pre + ([y] + post);
    ConcatMapAppend(pre, [xs[i]] + post, f);
    ConcatMapAppend(pre, [y] + post, f);
    assert ConcatMap([xs[i]] + post, f) == f(xs[i]) + ConcatMap(post, f);
    assert ConcatMap([y] + post, f) == f(y) + ConcatMap(post, f);
  }

  /** Concatenating the images of the images is concatenating the composed images. */
  lemma {:induction false} ConcatMapConcatMap<T, U, V>(xs: seq<T>, f: T -> seq<U>, g: U -> seq<V>, h: T -> seq<V>)
    requires forall i :: 0 <= i < |xs| ==> h(xs[i]) == ConcatMap(f(xs[i]), g)
    ensures ConcatMap(ConcatMap(xs, f), g) == ConcatMap(xs, h)
  {
    if xs != [] {
      ConcatMapConcatMap(xs[1..], f, g, h);
      ConcatMapAppend(f(xs[0]), ConcatMap(xs[1..], f), g);
    }
  }

  /** A sum over a concatenation is the sum of the per-element sums. */
  lemma {:induction false} SumByConcatMap<T, U>(xs: seq<T>, f: T -> seq<U>, g: U -> int, h: T -> int)
    requires forall i :: 0 <= i < |xs| ==> h(xs[i]) == SumBy(f(xs[i]), g)
    ensures SumBy(ConcatMap(xs, f), g) == SumBy(xs, h)
  {
    if xs != [] {
      SumByConcatMap(xs[1..], f, g, h);
      SumByAppend(f(xs[0]), ConcatMap(xs[1..], f), g);
    }
  }

  /** Reordering the inputs reorders, but does not change, the multiset of images. */
  lemma {:induction false} MapSeqPermutation<T, U>(xs: seq<T>, ys: seq<T>, f: T -> U)
    requires multiset(xs) == multiset(ys)
    ensures multiset(MapSeq(xs, f)) == multiset(MapSeq(ys, f))
    decreases |xs|
  {
    if xs == [] {
      assert |ys| == |multiset(ys)| == 0;
    } else {
      var j := PermutationTail(xs, ys);
      MapSeqPermutation(xs[1..], ys[..j] + ys[j + 1..], f);
      assert ys == ys[..j] + ([ys[j]] + ys[j + 1..]);
      MapSeqAppend(ys[..j], [ys[j]] + ys[j + 1..], f);
      MapSeqAppend(ys[..j], ys[j + 1..], f);
      MapSeqAppend([ys[j]], ys[j + 1..], f);
      assert xs == [xs[0]] + xs[1..];
      MapSeqAppend([xs[0]], xs[1..], f);
    }
  }
}

=== FILE: hex.dfy ===
/**
 * Hexadecimal text. Three decoders appear in the system and differ in what
 * they tolerate:
 *   - binascii.unhexlify (PacketParser.py:44-45): an even number of hex digits, nothing else;
 *   - bytes.fromhex (FlowAnalyzer.py:448): hex digit pairs, white space allowed between pairs;
 *   - int(line, 16) on a chunk-size line (FlowAnalyzer.py:413): a hex numeral.
 */
module Hex {
  import opened Common
  import Numerals

  /** 0-9, A-F or a-f, as a character code. */
  predicate IsHexDigit(c: int)
  {
    48 <= c <= 57 || 65 <= c <= 70 || 97 <= c <= 102
  }

  predicate IsHexChar(c: char)
  {
    IsHexDigit(c as int)
  }

  /** The value of a hex digit code (0 for any other code). */
  function DigitValue(c: int): (v: nat)
    ensures v < 16
  {
    if 48 <= c <= 57 then c - 48
    else if 65 <= c <= 70 then c - 55
    else if 97 <= c <= 102 then c - 87
    else 0
  }

  /** The lower-case hex digit code of `v`. */
  function DigitCode(v: nat): (c: Byte)
    requires v < 16
    ensures IsHexDigit(c) && DigitValue(c) == v
  {
    if v < 10 then 48 + v else 87 + v
  }

  /* ----------------------------------------------------------------------
   * Chunk-size lines: int(size_line, 16).
   * -------------------------------------------------------------------- */

  predicate AllHexDigits(s: seq<int>)
  {
    forall i :: 0 <= i < |s| ==> IsHexDigit(s[i])
  }

  /** The values of a run of hex digit codes. */
  function DigitValues(s: seq<int>): (ds: seq<nat>)
    ensures |ds| == |s|
    ensures forall i :: 0 <= i < |s| ==> ds[i] == DigitValue(s[i])
  {
    seq(|s|, i requires 0 <= i < |s| => DigitValue(s[i]))
  }

  /** The lower-case hex digit codes of a run of digit values. */
  function DigitCodes(ds: seq<nat>): (s: Bytes)
    requires forall i :: 0 <= i < |ds| ==> ds[i] < 16
    ensures |s| == |ds| && AllHexDigits(s)
    ensures forall i :: 0 <= i < |ds| ==> DigitValue(s[i]) == ds[i]
  {
    if ds == [] then [] else DigitCodes(ds[..|ds| - 1]) + [DigitCode(ds[|ds| - 1])]
  }

  /**
   * A chunk-size line (already stripped) read as an unsigned hex numeral;
   * `None` stands for the ValueError int(line, 16) raises.
   */
  function ParseChunkSize(line: Bytes): (r: Option<nat>)
  {
    if line == [] || !IsHexDigit(line[|line| - 1]) then None
    else if |line| == 1 then Some(DigitValue(line[0]))
    else
      match ParseChunkSize(line[..|line| - 1])
      case None => None
      case Some(v) => Some(v * 16 + DigitValue(line[|line| - 1]))
  }

  /** int(line, 16) accepts exactly the non-empty runs of hex digits. */
  lemma {:induction false} ParseChunkSizeAccepts(line: Bytes)
    ensures ParseChunkSize(line).Some? <==> line != [] && AllHexDigits(line)
  {
    if |line| > 1 && IsHexDigit(line[|line| - 1]) {
      var init := line[..|line| - 1];
      ParseChunkSizeAccepts(init);
      if AllHexDigits(init) {
        assert AllHexDigits(line) by {
          forall i | 0 <= i < |line|
            ensures IsHexDigit(line[i])
          {
            if i < |init| {
              assert line[i] == init[i];
            }
          }
        }
      } else {
        var i :| 0 <= i < |init| && !IsHexDigit(init[i]);
        assert line[i] == init[i];
      }
    }
  }

  /** What int(line, 16) accepts, it reads as the base-16 numeral of its digits. */
  lemma {:induction false} ParseChunkSizeValue(line: Bytes)
    requires line != [] && AllHexDigits(line)
    ensures ParseChunkSize(line) == Some(Numerals.Value(DigitValues(line), 16))
  {
    var ds := DigitValues(line);
    if |line| == 1 {
      assert ds[..0] == [];
    } else {
      var init := line[..|line| - 1];
      assert AllHexDigits(init) by {
        forall i | 0 <= i < |init|
          ensures IsHexDigit(init[i])
        {
          assert init[i] == line[i];
        }
      }
      ParseChunkSizeValue(init);
      assert ds[..|ds| - 1] == DigitValues(init);
    }
  }

  /** The chunk-size numeral a sender writes for a chunk of `n` bytes: lower-case hex, no leading zeros. */
  function SizeLine(n: nat): (s: Bytes)
    ensures s != [] && AllHexDigits(s)
  {
    DigitCodes(Numerals.Digits(n, 16))
  }

  /** A size below 16 is written as a single digit. */
  lemma SizeLineOfDigit(n: nat)
    requires n < 16
    ensures SizeLine(n) == [DigitCode(n)]
  {
    assert Numerals.Digits(n, 16) == [n];
  }

  /** Reading a written chunk size gives the size back. */
  lemma ParseChunkSizeOfSizeLine(n: nat)
    ensures ParseChunkSize(SizeLine(n)) == Some(n)
  {
    ParseChunkSizeValue(SizeLine(n));
    assert DigitValues(SizeLine(n)) == Numerals.Digits(n, 16);
    Numerals.ValueOfDigits(n, 16);
  }

  /* ----------------------------------------------------------------------
   * Hex text to bytes.
   * -------------------------------------------------------------------- */

  /** The byte written by two hex digit characters. */
  function PairValue(hi: char, lo: char): Byte
  {
    DigitValue(hi as int) * 16 + DigitValue(lo as int)
  }

  /**
   * binascii.unhexlify(s): every character must be a hex digit and their
   * number must be even; `None` stands for the binascii.Error raised otherwise.
   */
  function Unhexlify(s: string): (r: Option<Bytes>)
    ensures r.Some? ==> 2 * |r.value| == |s|
    ensures r.Some? <==> |s| % 2 == 0 && forall i :: 0 <= i < |s| ==> IsHexChar(s[i])
  {
    if |s| % 2 == 1 then None
    else if s == [] then Some([])
    else if IsHexChar(s[0]) && IsHexChar(s[1]) then
      match Unhexlify(s[2..])
      case None => None
      case Some(rest) => Some([PairValue(s[0], s[1])] + rest)
    else None
  }

  /** The ASCII white space bytes.fromhex skips: space, \t, \n, \v, \f, \r. */
  predicate IsAsciiSpace(c: char)
  {
    c == ' ' || '\t' <= c <= '\r'
  }

  /**
   * bytes.fromhex(s): pairs of hex digits, with ASCII white space allowed
   * before any pair but not inside one; `None` stands for the ValueError
   * raised on anything else (an odd digit, a non-ASCII character, ...).
   */
  function FromHex(s: string): (r: Option<Bytes>)
    ensures r.Some? ==> 2 * |r.value| <= |s|
  {
    if s == [] then Some([])
    else if IsAsciiSpace(s[0]) then FromHex(s[1..])
    else if |s| >= 2 && IsHexChar(s[0]) && IsHexChar(s[1]) then
      match FromHex(s[2..])
      case None => None
      case Some(rest) => Some([PairValue(s[0], s[1])] + rest)
    else None
  }

  /** binascii.hexlify / bytes.hex(): two lower-case hex digits per byte. */
  function Hexlify(b: Bytes): (s: string)
    ensures |s| == 2 * |b|
  {
    if b == [] then [] else [DigitCode(b[0] / 16) as char, DigitCode(b[0] % 16) as char] + Hexlify(b[1..])
  }

  /** hexlify writes hex digits only. */
  lemma {:induction false} HexlifyDigits(b: Bytes)
    ensures forall i :: 0 <= i < |Hexlify(b)| ==> IsHexChar(Hexlify(b)[i])
  {
    if b != [] {
      HexlifyDigits(b[1..]);
      var s := Hexlify(b);
      assert s[2..] == Hexlify(b[1..]);
      assert s[0] as int == DigitCode(b[0] / 16) && s[1] as int == DigitCode(b[0] % 16);
    }
  }

  /** unhexlify(hexlify(b)) == b */
  lemma {:induction false} UnhexlifyHexlify(b: Bytes)
    ensures Unhexlify(Hexlify(b)) == Some(b)
  {
    if b != [] {
      var s := Hexlify(b);
      assert s[2..] == Hexlify(b[1..]);
      assert s[0] as int == DigitCode(b[0] / 16) && s[1] as int == DigitCode(b[0] % 16);
      assert IsHexChar(s[0]) && IsHexChar(s[1]) && |s| % 2 == 0;
      UnhexlifyHexlify(b[1..]);
      assert PairValue(s[0], s[1]) == b[0];
      assert [b[0]] + b[1..] == b;
    }
  }

  /** bytes.fromhex accepts everything unhexlify accepts, with the same result. */
  lemma {:induction false} FromHexExtendsUnhexlify(s: string)
    requires Unhexlify(s).Some?
    ensures FromHex(s) == Unhexlify(s)
  {
    if s != [] {
      assert !IsAsciiSpace(s[0]);
      FromHexExtendsUnhexlify(s[2..]);
    }
  }

  /** bytes.fromhex(b.hex()) == b */
  lemma FromHexHexlify(b: Bytes)
    ensures FromHex(Hexlify(b)) == Some(b)
  {
    UnhexlifyHexlify(b);
    FromHexExtendsUnhexlify(Hexlify(b));
  }
}

=== FILE: http.dfy ===
/**
 * HTTP message reconstruction (FlowAnalyzer.py:376-471): splitting a payload
 * into header and body, reversing chunked transfer coding (section 7.1 of
 * RFC 9112) with a cursor loop, and the best-effort pipeline
 * hex text -> split -> dechunk -> gunzip.
 */
module Http {
  import opened Common
  import Hex

  const CR: Byte := 13
  const LF: Byte := 10
  const CRLF: Bytes := [13, 10]
  /** "\r\n\r\n", the end of a header block. */
  const HeaderEnd: Bytes := [13, 10, 13, 10]
  /** "\n\n", the fallback end of a header block. */
  const BareHeaderEnd: Bytes := [10, 10]

  /* ----------------------------------------------------------------------
   * Searching bytes.
   * -------------------------------------------------------------------- */

  predicate OccursAt(data: Bytes, pat: Bytes, i: int)
  {
    0 <= i && i + |pat| <= |data| && data[i..i + |pat|] == pat
  }

  predicate Contains(data: Bytes, pat: Bytes)
  {
    exists i :: 0 <= i <= |data| && OccursAt(data, pat, i)
  }

  /** data.find(pat, from): the first occurrence of `pat` at or after `from`. */
  function Find(data: Bytes, pat: Bytes, from: nat): (r: Option<nat>)
    ensures r.Some? ==> from <= r.value && OccursAt(data, pat, r.value)
    ensures r.Some? ==> forall j :: from <= j < r.value ==> !OccursAt(data, pat, j)
    ensures r.None? ==> forall j :: from <= j ==> !OccursAt(data, pat, j)
    decreases |data| - from
  {
    if from + |pat| > |data| then None
    else if data[from..from + |pat|] == pat then Some(from)
    else Find(data, pat, from + 1)
  }

  /** data.find(bytes([b]), from), for a single byte. */
  function FindByte(data: Bytes, b: Byte, from: nat): (r: Option<nat>)
    ensures r.Some? ==> from <= r.value < |data| && data[r.value] == b
    decreases |data| - from
  {
    if from >= |data| then None
    else if data[from] == b then Some(from)
    else FindByte(data, b, from + 1)
  }

  /** FindByte finds the first `b` at or after `from`, and finds nothing only when there is none. */
  lemma {:induction false} FindByteFirst(data: Bytes, b: Byte, from: nat)
    ensures FindByte(data, b, from).Some? ==> forall j :: from <= j < FindByte(data, b, from).value ==> data[j] != b
    ensures FindByte(data, b, from).None? ==> forall j :: from <= j < |data| ==> data[j] != b
    decreases |data| - from
  {
    if from < |data| && data[from] != b {
      FindByteFirst(data, b, from + 1);
    }
  }

  /** The converse: the first `b` at or after `from` is what FindByte finds. */
  lemma {:induction false} FindByteAt(data: Bytes, b: Byte, from: nat, i: nat)
    requires from <= i < |data| && data[i] == b
    requires forall j :: from <= j < i ==> data[j] != b
    ensures FindByte(data, b, from) == Some(i)
    decreases i - from
  {
    if from < i {
      FindByteAt(data, b, from + 1, i);
    }
  }

  /* ----------------------------------------------------------------------
   * split_http_headers (FlowAnalyzer.py:377-384)
   * -------------------------------------------------------------------- */

  /** `h` ends right after the first occurrence of `pat` in `data`. */
  predicate EndsAtFirst(h: Bytes, data: Bytes, pat: Bytes)
  {
    && |h| >= |pat|
    && OccursAt(data, pat, |h| - |pat|)
    && forall j :: 0 <= j < |h| - |pat| ==> !OccursAt(data, pat, j)
  }

  /**
   * Header and body of a payload: the header runs through the first
   * "\r\n\r\n", or failing that through the first "\n\n", or is empty.
   */
  function SplitHeaders(data: Bytes): (r: (Bytes, Bytes))
    ensures r.0 + r.1 == data
    ensures Contains(data, HeaderEnd) ==> EndsAtFirst(r.0, data, HeaderEnd)
    ensures !Contains(data, HeaderEnd) && Contains(data, BareHeaderEnd) ==> EndsAtFirst(r.0, data, BareHeaderEnd)
    ensures !Contains(data, HeaderEnd) && !Contains(data, BareHeaderEnd) ==> r.0 == []
  {
    match Find(data, HeaderEnd, 0)
    case Some(i) =>
      assert data[..i + 4] + data[i + 4..] == data;
      (data[..i + 4], data[i + 4..])
    case None =>
      match Find(data, BareHeaderEnd, 0)
      case Some(j) =>
        assert data[..j + 2] + data[j + 2..] == data;
        (data[..j + 2], data[j + 2..])
      case None => ([], data)
  }

  /** A header that ends at its only "\r\n\r\n" is split off whatever body follows it. */
  lemma SplitHeadersAt(h: Bytes, body: Bytes)
    requires EndsAtFirst(h, h, HeaderEnd)
    ensures SplitHeaders(h + body) == (h, body)
  {
    var data := h + body;
    assert data[..|h|] == h;
    assert data[|h| - 4..|h|] == h[|h| - 4..|h|];
    assert OccursAt(data, HeaderEnd, |h| - 4);
    forall j | 0 <= j < |h| - 4
      ensures !OccursAt(data, HeaderEnd, j)
    {
      assert !OccursAt(h, HeaderEnd, j);
      assert data[j..j + 4] == h[j..j + 4];
    }
    var r := Find(data, HeaderEnd, 0);
    assert r == Some(|h| - 4);
    assert data[|h|..] == body;
  }

  /** A header line: non-empty, with no CR in it. */
  predicate IsHeaderLine(l: Bytes)
  {
    l != [] && CR !in l
  }

  /** A header block: each line followed by CRLF, then an empty line. */
  function HeaderBlock(lines: seq<Bytes>): Bytes
  {
    if lines == [] then CRLF else lines[0] + CRLF + HeaderBlock(lines[1..])
  }

  /** A mismatch at offset `i` rules out an occurrence at `j`. */
  lemma MismatchAt(data: Bytes, pat: Bytes, j: nat, i: nat)
    requires i < |pat| && j + i < |data| && data[j + i] != pat[i]
    ensures !OccursAt(data, pat, j)
  {
    if j + |pat| <= |data| {
      assert data[j..j + |pat|][i] == data[j + i];
    }
  }

  /** Occurrences in `rest` are occurrences in `pre + rest`, shifted by `|pre|`. */
  lemma OccursAtShift(pre: Bytes, rest: Bytes, pat: Bytes, j: nat)
    ensures OccursAt(pre + rest, pat, |pre| + j) == OccursAt(rest, pat, j)
  {
    if j + |pat| <= |rest| {
      assert (pre + rest)[|pre| + j..|pre| + j + |pat|] == rest[j..j + |pat|];
    }
  }

  /** A header block of one or more header lines ends at its first "\r\n\r\n". */
  lemma {:induction false} HeaderBlockEndsAtFirst(lines: seq<Bytes>)
    requires lines != []
    requires forall i :: 0 <= i < |lines| ==> IsHeaderLine(lines[i])
    ensures EndsAtFirst(HeaderBlock(lines), HeaderBlock(lines), HeaderEnd)
  {
    var l := lines[0];
    var rest := HeaderBlock(lines[1..]);
    assert HeaderBlock(lines) == l + CRLF + rest;
    assert IsHeaderLine(l);
    if |lines| == 1 {
      assert rest == CRLF;
      LastHeaderLine(l);
    } else {
      HeaderBlockEndsAtFirst(lines[1..]);
      assert IsHeaderLine(lines[1]);
      assert rest[0] == lines[1][0] && lines[1][0] in lines[1];
      HeaderLineBefore(l, rest);
    }
  }

  /** The last header line and the empty line after it. */
  lemma LastHeaderLine(l: Bytes)
    requires IsHeaderLine(l)
    ensures EndsAtFirst(l + CRLF + CRLF, l + CRLF + CRLF, HeaderEnd)
  {
    var h := l + CRLF + CRLF;
    assert h[|h| - 4..] == HeaderEnd;
    forall j | 0 <= j < |h| - 4
      ensures !OccursAt(h, HeaderEnd, j)
    {
      FirstLineMismatch(l, CRLF, j);
    }
  }

  /** A header line put before a block that ends at its first "\r\n\r\n" keeps that property. */
  lemma HeaderLineBefore(l: Bytes, rest: Bytes)
    requires IsHeaderLine(l) && EndsAtFirst(rest, rest, HeaderEnd) && rest[0] != CR
    ensures EndsAtFirst(l + CRLF + rest, l + CRLF + rest, HeaderEnd)
  {
    var pre := l + CRLF;
    var h := pre + rest;
    OccursAtShift(pre, rest, HeaderEnd, |rest| - 4);
    forall j | 0 <= j < |h| - 4
      ensures !OccursAt(h, HeaderEnd, j)
    {
      if j < |pre| {
        FirstLineMismatch(l, rest, j);
      } else {
        OccursAtShift(pre, rest, HeaderEnd, j - |pre|);
      }
    }
  }

  /** No "\r\n\r\n" starts inside a header line or its CRLF, unless the next line is empty. */
  lemma FirstLineMismatch(l: Bytes, rest: Bytes, j: nat)
    requires IsHeaderLine(l) && j < |l| + 2
    requires j == |l| ==> rest != [] && rest[0] != CR
    ensures !OccursAt(l + CRLF + rest, HeaderEnd, j)
  {
    var h := l + CRLF + rest;
    if j < |l| {
      assert h[j] == l[j] && l[j] in l;
      MismatchAt(h, HeaderEnd, j, 0);
    } else if j == |l| {
      assert h[j + 2] == rest[0];
      MismatchAt(h, HeaderEnd, j, 2);
    } else {
      assert h[j] == LF;
      MismatchAt(h, HeaderEnd, j, 0);
    }
  }

  /* ----------------------------------------------------------------------
   * dechunck_http_response (FlowAnalyzer.py:387-437)
   * -------------------------------------------------------------------- */

  /** The bytes bytes.strip() removes: space, \t, \n, \v, \f, \r. */
  const ByteSpaces: set<Byte> := {9, 10, 11, 12, 13, 32}

  /** The first position at or after `c` that does not hold CR or LF. */
  function SkipCrLf(data: Bytes, c: nat): (r: nat)
    requires c <= |data|
    ensures c <= r <= |data|
    ensures r < |data| ==> data[r] != CR && data[r] != LF
    ensures forall j :: c <= j < r ==> data[j] == CR || data[j] == LF
    decreases |data| - c
  {
    if c < |data| && (data[c] == CR || data[c] == LF) then SkipCrLf(data, c + 1) else c
  }

  /** Why a dechunk attempt was abandoned: the ValueError the source raises. */
  datatype DechunkError =
    | NoLineFeed     // no "\n" left after the cursor
    | BadChunkSize   // a non-blank size line that is not a hex numeral

  /** What the decoding loop does from a cursor up to its next chunk, or its end. */
  datatype Step =
    | Finished                        // the end of the data, or a chunk size of 0
    | Failed(error: DechunkError)
    | Partial(chunk: Bytes)           // a chunk cut short by the end of the data
    | Whole(chunk: Bytes, next: nat)  // a complete chunk, and where the next size line starts

  /**
   * The passes from `cursor` up to the next chunk: the size line runs to the
   * next LF; at the end of the data, or with no LF left, decoding stops.
   */
  function StepAt(data: Bytes, cursor: nat): (s: Step)
    requires cursor <= |data|
    ensures s.Whole? ==> cursor + |s.chunk| < s.next <= |data| && s.chunk != []
    ensures s.Partial? ==> |s.chunk| < |data| - cursor
    decreases |data| - cursor, 1
  {
    if cursor == |data| then Finished
    else
      match FindByte(data, LF, cursor)
      case None => Failed(NoLineFeed)
      case Some(newline) => StepLine(data, cursor, newline)
  }

  /**
   * A pass whose size line runs from `cursor` to the LF at `newline`: the line
   * is stripped; a blank line is skipped; size 0 ends; a chunk longer than
   * what is left yields what is left; a whole chunk is followed by skipping
   * CR and LF bytes.
   */
  function StepLine(data: Bytes, cursor: nat, newline: nat): (s: Step)
    requires cursor <= newline < |data|
    ensures s.Whole? ==> cursor + |s.chunk| < s.next <= |data| && s.chunk != []
    ensures s.Partial? ==> |s.chunk| < |data| - cursor
    decreases |data| - cursor, 0
  {
    var sizeLine := Trim(data[cursor..newline], ByteSpaces);
    if sizeLine == [] then StepAt(data, newline + 1)
    else
      match Hex.ParseChunkSize(sizeLine)
      case None => Failed(BadChunkSize)
      case Some(size) =>
        if size == 0 then Finished
        else if newline + 1 + size > |data| then Partial(data[newline + 1..])
        else Whole(data[newline + 1..newline + 1 + size], SkipCrLf(data, newline + 1 + size))
  }

  /** `prefix` followed by a successful result; errors pass through and discard it. */
  function Prepend(prefix: Bytes, r: Result<Bytes, DechunkError>): Result<Bytes, DechunkError>
  {
    match r
    case Ok(rest) => Ok(prefix + rest)
    case Err(e) => Err(e)
  }

  /** Decoding from `cursor` to the end of the data, chunk by chunk. */
  function DechunkFrom(data: Bytes, cursor: nat): (r: Result<Bytes, DechunkError>)
    requires cursor <= |data|
    ensures r.Ok? ==> |r.value| <= |data| - cursor
    decreases |data| - cursor
  {
    match StepAt(data, cursor)
    case Finished => Ok([])
    case Failed(e) => Err(e)
    case Partial(chunk) => Ok(chunk)
    case Whole(chunk, next) => Prepend(chunk, DechunkFrom(data, next))
  }

  /** The result of dechunck_http_response, or the error it raises. */
  function Dechunk(data: Bytes): (r: Result<Bytes, DechunkError>)
    ensures r.Ok? ==> |r.value| <= |data|
    ensures data == [] ==> r == Ok([])
  {
    DechunkFrom(data, 0)
  }

  lemma PrependNothing(r: Result<Bytes, DechunkError>)
    ensures Prepend([], r) == r
  {
    match r
    case Ok(v) => assert [] + v == v;
    case Err(_) =>
  }

  lemma PrependTwice(a: Bytes, b: Bytes, r: Result<Bytes, DechunkError>)
    ensures Prepend(a, Prepend(b, r)) == Prepend(a + b, r)
  {
    match r
    case Ok(v) => assert a + (b + v) == a + b + v;
    case Err(_) =>
  }

  /** The pass that reads a whole chunk. */
  lemma StepWhole(data: Bytes, cursor: nat, newline: nat, size: nat)
    requires cursor < |data| && FindByte(data, LF, cursor) == Some(newline)
    requires Hex.ParseChunkSize(Trim(data[cursor..newline], ByteSpaces)) == Some(size)
    requires size != 0 && newline + 1 + size <= |data|
    ensures StepAt(data, cursor) == Whole(data[newline + 1..newline + 1 + size], SkipCrLf(data, newline + 1 + size))
  {
  }

  /** The pass that finds no LF after the cursor. */
  lemma StepNoLineFeed(data: Bytes, cursor: nat)
    requires cursor < |data| && FindByte(data, LF, cursor) == None
    ensures StepAt(data, cursor) == Failed(NoLineFeed)
  {
  }

  /** The pass that meets a size line that is not a hex numeral. */
  lemma StepBadSize(data: Bytes, cursor: nat, newline: nat)
    requires cursor < |data| && FindByte(data, LF, cursor) == Some(newline)
    requires Trim(data[cursor..newline], ByteSpaces) != []
    requires Hex.ParseChunkSize(Trim(data[cursor..newline], ByteSpaces)) == None
    ensures StepAt(data, cursor) == Failed(BadChunkSize)
  {
  }

  /** The pass that meets a blank size line moves on to the next line. */
  lemma StepBlank(data: Bytes, cursor: nat, newline: nat)
    requires cursor < |data| && FindByte(data, LF, cursor) == Some(newline)
    requires Trim(data[cursor..newline], ByteSpaces) == []
    ensures StepAt(data, cursor) == StepAt(data, newline + 1)
  {
  }

  /** The pass that meets a chunk longer than what is left. */
  lemma StepPartial(data: Bytes, cursor: nat, newline: nat, size: nat)
    requires cursor < |data| && FindByte(data, LF, cursor) == Some(newline)
    requires Hex.ParseChunkSize(Trim(data[cursor..newline], ByteSpaces)) == Some(size)
    requires newline + 1 + size > |data|
    ensures StepAt(data, cursor) == Partial(data[newline + 1..])
  {
  }

  /** The pass that meets a chunk size of 0. */
  lemma StepFinished(data: Bytes, cursor: nat, newline: nat)
    requires cursor < |data| && FindByte(data, LF, cursor) == Some(newline)
    requires Hex.ParseChunkSize(Trim(data[cursor..newline], ByteSpaces)) == Some(0)
    ensures StepAt(data, cursor) == Finished
  {
  }

  /** The loop's passes from `start` up to the next chunk: blank size lines are skipped. */
  method NextChunk(data: Bytes, start: nat) returns (s: Step)
    requires start <= |data|
    ensures s == StepAt(data, start)
  {
    var cursor := start;
    while cursor < |data|
      invariant start <= cursor <= |data|
      invariant StepAt(data, cursor) == StepAt(data, start)
      decreases |data| - cursor
    {
      var found := FindByte(data, LF, cursor);
      if found.None? {
        StepNoLineFeed(data, cursor);
        return Failed(NoLineFeed);
      }
      var newline := found.value;
      var sizeLine := Trim(data[cursor..newline], ByteSpaces);
      if sizeLine != [] {
        s := ReadChunk(data, cursor, newline, sizeLine);
        return;
      }
      StepBlank(data, cursor, newline);
      cursor := newline + 1;
    }
    return Finished;
  }

  /** The rest of a pass once a non-blank size line is found: parse it, then take the chunk. */
  method ReadChunk(data: Bytes, cursor: nat, newline: nat, sizeLine: Bytes) returns (s: Step)
    requires cursor < |data| && FindByte(data, LF, cursor) == Some(newline)
    requires sizeLine == Trim(data[cursor..newline], ByteSpaces) && sizeLine != []
    ensures s == StepAt(data, cursor)
  {
    var size := Hex.ParseChunkSize(sizeLine);
    if size.None? {
      StepBadSize(data, cursor, newline);
      return Failed(BadChunkSize);
    }
    if size.value == 0 {
      StepFinished(data, cursor, newline);
      return Finished;
    }
    var dataStart := newline + 1;
    var dataEnd := dataStart + size.value;
    if dataEnd > |data| {
      StepPartial(data, cursor, newline, size.value);
      return Partial(data[dataStart..]);
    }
    var next := dataEnd;
    while next < |data| && (data[next] == CR || data[next] == LF)
      invariant dataEnd <= next <= |data|
      invariant SkipCrLf(data, next) == SkipCrLf(data, dataEnd)
      decreases |data| - next
    {
      next := next + 1;
    }
    StepWhole(data, cursor, newline, size.value);
    return Whole(data[dataStart..dataEnd], next);
  }

  /** The decoding loop, collecting chunks and joining them at the end. */
  method DechunkHttpResponse(data: Bytes) returns (r: Result<Bytes, DechunkError>)
    ensures r == Dechunk(data)
    ensures r.Ok? ==> |r.value| <= |data|
  {
    var chunks: seq<Bytes> := [];
    var cursor: nat := 0;
    PrependNothing(DechunkFrom(data, 0));
    while cursor < |data|
      invariant cursor <= |data|
      invariant Dechunk(data) == Prepend(Flatten(chunks), DechunkFrom(data, cursor))
      decreases |data| - cursor
    {
      var step := NextChunk(data, cursor);
      match step
      case Finished =>
        assert Flatten(chunks) + [] == Flatten(chunks);
        return Ok(Flatten(chunks));
      case Failed(e) =>
        return Err(e);
      case Partial(chunk) =>
        FlattenAppend(chunks, chunk);
        return Ok(Flatten(chunks + [chunk]));
      case Whole(chunk, next) =>
        FlattenAppend(chunks, chunk);
        PrependTwice(Flatten(chunks), chunk, DechunkFrom(data, next));
        chunks := chunks + [chunk];
        cursor := next;
    }
    assert Flatten(chunks) + [] == Flatten(chunks);
    return Ok(Flatten(chunks));
  }

  /* ----------------------------------------------------------------------
   * Chunked encoding, as a sender writes it, and what decoding makes of it.
   * -------------------------------------------------------------------- */

  /** One chunk: its size in hex, CRLF, its data, CRLF. */
  function EncodeChunk(c: Bytes): Bytes
  {
    Hex.SizeLine(|c|) + CRLF + c + CRLF
  }

  function EncodeChunks(cs: seq<Bytes>): Bytes
  {
    if cs == [] then [] else EncodeChunk(cs[0]) + EncodeChunks(cs[1..])
  }

  /** "0\r\n\r\n": the last chunk followed by an empty trailer section. */
  const LastChunk: Bytes := [48, 13, 10, 13, 10]

  predicate NonEmptyChunks(cs: seq<Bytes>)
  {
    forall i :: 0 <= i < |cs| ==> cs[i] != []
  }

  /** `data` holds `part` at position `k`. */
  predicate HoldsAt(data: Bytes, k: nat, part: Bytes)
  {
    k + |part| <= |data| && data[k..k + |part|] == part
  }

  /** Position `k` ends the data or holds neither CR nor LF. */
  predicate OffCrLfAt(data: Bytes, k: nat)
  {
    k <= |data| && (k == |data| || (data[k] != CR && data[k] != LF))
  }

  lemma HoldsAtSplit(data: Bytes, k: nat, a: Bytes, b: Bytes)
    requires HoldsAt(data, k, a + b)
    ensures HoldsAt(data, k, a) && HoldsAt(data, k + |a|, b)
  {
    assert data[k..k + |a|] == (a + b)[..|a|];
    assert data[k + |a|..k + |a| + |b|] == (a + b)[|a|..];
  }

  lemma {:induction false} SkipCrLfAt(data: Bytes, c: nat, r: nat)
    requires c <= r && OffCrLfAt(data, r)
    requires forall j :: c <= j < r ==> data[j] == CR || data[j] == LF
    ensures SkipCrLf(data, c) == r
    decreases r - c
  {
    if c < r {
      SkipCrLfAt(data, c + 1, r);
    }
  }

  /** A hex numeral `h` followed by CRLF is read as the size line it is. */
  lemma SizeLineAt(data: Bytes, k: nat, h: Bytes)
    requires h != [] && Hex.AllHexDigits(h) && HoldsAt(data, k, h + CRLF)
    ensures FindByte(data, LF, k) == Some(k + |h| + 1)
    ensures Trim(data[k..k + |h| + 1], ByteSpaces) == h
  {
    HoldsAtSplit(data, k, h, CRLF);
    assert data[k + |h|] == CR && data[k + |h| + 1] == LF;
    forall j | k <= j < k + |h| + 1
      ensures data[j] != LF
    {
      if j < k + |h| {
        assert data[j] == h[j - k] && Hex.IsHexDigit(h[j - k]);
      }
    }
    FindByteAt(data, LF, k, k + |h| + 1);
    assert data[k..k + |h| + 1] == [] + h + [CR];
    assert Hex.IsHexDigit(h[0]) && Hex.IsHexDigit(h[|h| - 1]);
    TrimPadded([], h, [CR], ByteSpaces);
  }

  /** A CRLF followed by a position off CR and LF is skipped as a whole. */
  lemma CrLfSkipped(data: Bytes, e: nat)
    requires HoldsAt(data, e, CRLF) && OffCrLfAt(data, e + 2)
    ensures SkipCrLf(data, e) == e + 2
  {
    assert data[e] == CRLF[0] && data[e + 1] == CRLF[1];
    SkipCrLfAt(data, e, e + 2);
  }

  /** A hex numeral of value `n` followed by CRLF is the size line of a chunk of `n` bytes. */
  lemma SizeLineParsed(data: Bytes, k: nat, h: Bytes, n: nat)
    requires Hex.ParseChunkSize(h) == Some(n) && HoldsAt(data, k, h + CRLF)
    ensures FindByte(data, LF, k) == Some(k + |h| + 1)
    ensures Hex.ParseChunkSize(Trim(data[k..k + |h| + 1], ByteSpaces)) == Some(n)
  {
    Hex.ParseChunkSizeAccepts(h);
    SizeLineAt(data, k, h);
  }

  /** A size line, CRLF, a chunk of that size, CRLF, then a position off CR and LF: one whole-chunk pass. */
  lemma WholeChunkAt(data: Bytes, k: nat, h: Bytes, c: Bytes)
    requires c != [] && Hex.ParseChunkSize(h) == Some(|c|)
    requires HoldsAt(data, k, h + CRLF) && HoldsAt(data, k + |h| + 2, c + CRLF)
    requires OffCrLfAt(data, k + |h| + |c| + 4)
    ensures StepAt(data, k) == Whole(c, k + |h| + |c| + 4)
  {
    var newline := k + |h| + 1;
    SizeLineParsed(data, k, h, |c|);
    ChunkDataAt(data, newline + 1, c);
    StepWholeChunk(data, k, newline, c, newline + 1 + |c| + 2);
  }

  /** StepWhole with the chunk and the next cursor named. */
  lemma StepWholeChunk(data: Bytes, cursor: nat, newline: nat, c: Bytes, next: nat)
    requires cursor < |data| && FindByte(data, LF, cursor) == Some(newline)
    requires Hex.ParseChunkSize(Trim(data[cursor..newline], ByteSpaces)) == Some(|c|)
    requires c != [] && newline + 1 + |c| <= |data| && data[newline + 1..newline + 1 + |c|] == c
    requires SkipCrLf(data, newline + 1 + |c|) == next
    ensures StepAt(data, cursor) == Whole(c, next)
  {
    StepWhole(data, cursor, newline, |c|);
  }

  /** Chunk data, CRLF, then a position off CR and LF: the data is read and the CRLF skipped. */
  lemma ChunkDataAt(data: Bytes, start: nat, c: Bytes)
    requires HoldsAt(data, start, c + CRLF) && OffCrLfAt(data, start + |c| + 2)
    ensures start + |c| <= |data| && data[start..start + |c|] == c
    ensures SkipCrLf(data, start + |c|) == start + |c| + 2
  {
    HoldsAtSplit(data, start, c, CRLF);
    CrLfSkipped(data, start + |c|);
  }

  /** A size line and CRLF announcing more bytes than remain: the pass yields what remains. */
  lemma PartialChunkAt(data: Bytes, k: nat, h: Bytes, size: nat)
    requires Hex.ParseChunkSize(h) == Some(size) && HoldsAt(data, k, h + CRLF)
    requires |data| < k + |h| + 2 + size
    ensures StepAt(data, k) == Partial(data[k + |h| + 2..])
  {
    SizeLineParsed(data, k, h, size);
    StepPartialFrom(data, k, k + |h| + 1, size, k + |h| + 2);
  }

  /** StepPartial with the start of the chunk data named. */
  lemma StepPartialFrom(data: Bytes, cursor: nat, newline: nat, size: nat, start: nat)
    requires cursor < |data| && FindByte(data, LF, cursor) == Some(newline)
    requires Hex.ParseChunkSize(Trim(data[cursor..newline], ByteSpaces)) == Some(size)
    requires start == newline + 1 && start + size > |data|
    ensures StepAt(data, cursor) == Partial(data[start..])
  {
    StepPartial(data, cursor, newline, size);
  }

  /** A size line of value 0 and CRLF: decoding ends. */
  lemma FinalChunkAt(data: Bytes, k: nat, h: Bytes)
    requires Hex.ParseChunkSize(h) == Some(0) && HoldsAt(data, k, h + CRLF)
    ensures StepAt(data, k) == Finished
  {
    SizeLineParsed(data, k, h, 0);
    StepFinished(data, k, k + |h| + 1);
  }

  /** A written chunk followed by a position off CR and LF is one whole-chunk pass. */
  lemma EncodedChunkStep(data: Bytes, k: nat, c: Bytes)
    requires c != [] && HoldsAt(data, k, EncodeChunk(c)) && OffCrLfAt(data, k + |EncodeChunk(c)|)
    ensures StepAt(data, k) == Whole(c, k + |EncodeChunk(c)|)
  {
    var h := Hex.SizeLine(|c|);
    assert EncodeChunk(c) == (h + CRLF) + (c + CRLF);
    HoldsAtSplit(data, k, h + CRLF, c + CRLF);
    Hex.ParseChunkSizeOfSizeLine(|c|);
    WholeChunkAt(data, k, h, c);
  }

  /** Written chunks start with a hex digit. */
  lemma EncodeChunksStart(cs: seq<Bytes>)
    requires cs != []
    ensures |EncodeChunks(cs)| > 0 && Hex.IsHexDigit(EncodeChunks(cs)[0])
  {
    var h := Hex.SizeLine(|cs[0]|);
    var e := EncodeChunk(cs[0]);
    assert e[0] == h[0];
    assert EncodeChunks(cs)[0] == e[0];
  }

  /* Decoding only looks forward: what precedes the cursor does not matter. */

  /** A step seen from `n` bytes further on. */
  function ShiftStep(s: Step, n: nat): (r: Step)
    ensures r.Whole? <==> s.Whole?
    ensures r.Whole? ==> r.chunk == s.chunk && r.next == s.next + n
    ensures !r.Whole? ==> r == s
  {
    match s
    case Whole(chunk, next) => Whole(chunk, next + n)
    case _ => s
  }

  lemma {:induction false} FindByteShift(pre: Bytes, data: Bytes, b: Byte, from: nat)
    ensures FindByte(pre + data, b, |pre| + from).None? <==> FindByte(data, b, from).None?
    ensures FindByte(data, b, from).Some? ==> FindByte(pre + data, b, |pre| + from) == Some(|pre| + FindByte(data, b, from).value)
    decreases |data| - from
  {
    if from < |data| {
      assert (pre + data)[|pre| + from] == data[from];
      if data[from] != b {
        FindByteShift(pre, data, b, from + 1);
      }
    }
  }

  lemma {:induction false} SkipCrLfShift(pre: Bytes, data: Bytes, c: nat)
    requires c <= |data|
    ensures SkipCrLf(pre + data, |pre| + c) == |pre| + SkipCrLf(data, c)
    decreases |data| - c
  {
    if c < |data| {
      assert (pre + data)[|pre| + c] == data[c];
      if data[c] == CR || data[c] == LF {
        SkipCrLfShift(pre, data, c + 1);
      }
    }
  }

  lemma {:induction false} StepAtShift(pre: Bytes, data: Bytes, cursor: nat)
    requires cursor <= |data|
    ensures StepAt(pre + data, |pre| + cursor) == ShiftStep(StepAt(data, cursor), |pre|)
    decreases |data| - cursor, 1
  {
    if cursor < |data| {
      FindByteShift(pre, data, LF, cursor);
      match FindByte(data, LF, cursor)
      case None =>
      case Some(newline) =>
        StepLineShift(pre, data, cursor, newline);
    }
  }

  lemma {:induction false} StepLineShift(pre: Bytes, data: Bytes, cursor: nat, newline: nat)
    requires cursor <= newline < |data|
    ensures StepLine(pre + data, |pre| + cursor, |pre| + newline) == ShiftStep(StepLine(data, cursor, newline), |pre|)
    decreases |data| - cursor, 0
  {
    var d := pre + data;
    assert d[|pre| + cursor..|pre| + newline] == data[cursor..newline];
    if Trim(data[cursor..newline], ByteSpaces) == [] {
      StepAtShift(pre, data, newline + 1);
    } else {
      SizedLineShift(pre, data, cursor, newline);
    }
  }

  /** StepLineShift for a non-blank size line, which involves no further pass. */
  lemma SizedLineShift(pre: Bytes, data: Bytes, cursor: nat, newline: nat)
    requires cursor <= newline < |data|
    requires (pre + data)[|pre| + cursor..|pre| + newline] == data[cursor..newline]
    requires Trim(data[cursor..newline], ByteSpaces) != []
    ensures StepLine(pre + data, |pre| + cursor, |pre| + newline) == ShiftStep(StepLine(data, cursor, newline), |pre|)
  {
    var d := pre + data;
    match Hex.ParseChunkSize(Trim(data[cursor..newline], ByteSpaces))
    case None =>
    case Some(size) =>
      if size != 0 && newline + 1 + size <= |data| {
        assert d[|pre| + newline + 1..|pre| + newline + 1 + size] == data[newline + 1..newline + 1 + size];
        SkipCrLfShift(pre, data, newline + 1 + size);
      } else if size != 0 {
        assert d[|pre| + newline + 1..] == data[newline + 1..];
      }
  }

  /** Decoding from inside `pre + data` past `pre` is decoding `data`. */
  lemma {:induction false} DechunkFromShift(pre: Bytes, data: Bytes, cursor: nat)
    requires cursor <= |data|
    ensures DechunkFrom(pre + data, |pre| + cursor) == DechunkFrom(data, cursor)
    decreases |data| - cursor
  {
    StepAtShift(pre, data, cursor);
    match StepAt(data, cursor)
    case Whole(_, next) =>
      DechunkFromShift(pre, data, next);
    case _ =>
  }

  /** A whole-chunk pass that reads all of `pre` leaves decoding to what follows it. */
  lemma DechunkAfterStep(pre: Bytes, rest: Bytes, c: Bytes)
    requires StepAt(pre + rest, 0) == Whole(c, |pre|)
    ensures Dechunk(pre + rest) == Prepend(c, Dechunk(rest))
  {
    DechunkFromShift(pre, rest, 0);
  }

  /** A written chunk, then data that does not start with CR or LF: the chunk comes first. */
  lemma DechunkAfterChunk(c: Bytes, rest: Bytes)
    requires c != [] && OffCrLfAt(rest, 0)
    ensures Dechunk(EncodeChunk(c) + rest) == Prepend(c, Dechunk(rest))
  {
    var e := EncodeChunk(c);
    var data := e + rest;
    assert HoldsAt(data, 0, e) by {
      assert data[0..|e|] == e;
    }
    assert OffCrLfAt(data, |e|) by {
      if rest != [] {
        assert data[|e|] == rest[0];
      }
    }
    EncodedChunkStep(data, 0, c);
    DechunkAfterStep(e, rest, c);
  }

  /** Written chunks, then data that does not start with CR or LF: the chunks come first. */
  lemma {:induction false} DechunkAfterChunks(cs: seq<Bytes>, tail: Bytes)
    requires NonEmptyChunks(cs) && OffCrLfAt(tail, 0)
    ensures Dechunk(EncodeChunks(cs) + tail) == Prepend(Flatten(cs), Dechunk(tail))
  {
    if cs == [] {
      assert EncodeChunks(cs) + tail == tail;
      PrependNothing(Dechunk(tail));
    } else {
      var rest := EncodeChunks(cs[1..]) + tail;
      EncodeChunksThen(cs, tail);
      DechunkAfterChunks(cs[1..], tail);
      DechunkAfterChunk(cs[0], rest);
      PrependTwice(cs[0], Flatten(cs[1..]), Dechunk(tail));
    }
  }

  /** Written chunks, then data off CR and LF: the first chunk, then the rest, which is off CR and LF too. */
  lemma EncodeChunksThen(cs: seq<Bytes>, tail: Bytes)
    requires cs != [] && OffCrLfAt(tail, 0)
    ensures EncodeChunks(cs) + tail == EncodeChunk(cs[0]) + (EncodeChunks(cs[1..]) + tail)
    ensures OffCrLfAt(EncodeChunks(cs[1..]) + tail, 0)
  {
    var rest := EncodeChunks(cs[1..]) + tail;
    if cs[1..] == [] {
      assert rest == tail;
    } else {
      EncodeChunksStart(cs[1..]);
      assert rest[0] == EncodeChunks(cs[1..])[0];
    }
  }

  /** The last chunk ends decoding, whatever follows it. */
  lemma LastChunkAt(data: Bytes, k: nat)
    requires HoldsAt(data, k, LastChunk)
    ensures DechunkFrom(data, k) == Ok([])
  {
    assert LastChunk == [48] + CRLF + CRLF;
    HoldsAtSplit(data, k, [48] + CRLF, CRLF);
    assert Hex.ParseChunkSize([48]) == Some(0);
    FinalChunkAt(data, k, [48]);
  }

  /**
   * Round trip: non-empty chunks written out and closed by the last chunk
   * decode to their concatenation; anything after the last chunk is ignored.
   */
  lemma DechunkRoundTrip(cs: seq<Bytes>, rest: Bytes)
    requires NonEmptyChunks(cs)
    ensures Dechunk(EncodeChunks(cs) + LastChunk + rest) == Ok(Flatten(cs))
  {
    var tail := LastChunk + rest;
    assert EncodeChunks(cs) + LastChunk + rest == EncodeChunks(cs) + tail;
    assert tail[0] == 48;
    DechunkAfterChunks(cs, tail);
    assert tail[0..|LastChunk|] == LastChunk;
    LastChunkAt(tail, 0);
    assert Flatten(cs) + [] == Flatten(cs);
  }

  /** Any body, sent as one chunk (or none when empty) and the last chunk, comes back unchanged. */
  lemma DechunkBody(body: Bytes)
    ensures Dechunk(EncodeChunks(if body == [] then [] else [body]) + LastChunk) == Ok(body)
  {
    var cs := if body == [] then [] else [body];
    DechunkRoundTrip(cs, []);
    assert EncodeChunks(cs) + LastChunk + [] == EncodeChunks(cs) + LastChunk;
    assert Flatten(cs) == body by {
      if body != [] {
        assert Flatten(cs) == body + Flatten([]);
      }
    }
  }

  /** Chunks that end without a last chunk still decode to their concatenation. */
  lemma DechunkUnterminated(cs: seq<Bytes>)
    requires NonEmptyChunks(cs)
    ensures Dechunk(EncodeChunks(cs)) == Ok(Flatten(cs))
  {
    assert EncodeChunks(cs) + [] == EncodeChunks(cs);
    DechunkAfterChunks(cs, []);
    assert Dechunk([]) == Ok([]);
    assert Flatten(cs) + [] == Flatten(cs);
  }

  /** A chunk cut short contributes whatever bytes remain, and decoding stops there. */
  lemma DechunkTruncated(cs: seq<Bytes>, size: nat, partial: Bytes)
    requires NonEmptyChunks(cs)
    requires |partial| < size
    ensures Dechunk(EncodeChunks(cs) + Hex.SizeLine(size) + CRLF + partial) == Ok(Flatten(cs) + partial)
  {
    var tail := Hex.SizeLine(size) + CRLF + partial;
    assert EncodeChunks(cs) + Hex.SizeLine(size) + CRLF + partial == EncodeChunks(cs) + tail;
    TruncatedChunk(size, partial);
    DechunkAfterChunks(cs, tail);
  }

  /** A size line announcing more bytes than follow it: those bytes are the result. */
  lemma TruncatedChunk(size: nat, partial: Bytes)
    requires |partial| < size
    ensures OffCrLfAt(Hex.SizeLine(size) + CRLF + partial, 0)
    ensures Dechunk(Hex.SizeLine(size) + CRLF + partial) == Ok(partial)
  {
    var h := Hex.SizeLine(size);
    var tail := h + CRLF + partial;
    assert tail[0] == h[0] && Hex.IsHexDigit(h[0]);
    assert tail[0..|h| + 2] == h + CRLF;
    Hex.ParseChunkSizeOfSizeLine(size);
    PartialChunkAt(tail, 0, h, size);
    assert tail[|h| + 2..] == partial;
  }

  /** A blank line at the cursor is skipped. */
  lemma BlankLineSkipped(data: Bytes, k: nat)
    requires HoldsAt(data, k, CRLF)
    ensures DechunkFrom(data, k) == DechunkFrom(data, k + 2)
  {
    assert data[k] == CR && data[k + 1] == LF;
    FindByteAt(data, LF, k, k + 1);
    assert data[k..k + 1] == [CR];
    TrimAllBlank([CR], ByteSpaces);
    StepBlank(data, k, k + 1);
  }

  /** A body whose first byte is neither white space nor a hex digit is never dechunked. */
  lemma DechunkRejects(data: Bytes)
    requires data != [] && data[0] !in ByteSpaces && !Hex.IsHexDigit(data[0])
    ensures Dechunk(data).Err?
  {
    match FindByte(data, LF, 0)
    case None =>
    case Some(newline) =>
      TrimKeepsFirst(data[0..newline], ByteSpaces);
      Hex.ParseChunkSizeAccepts(Trim(data[0..newline], ByteSpaces));
      StepBadSize(data, 0, newline);
  }

  /* ----------------------------------------------------------------------
   * extract_http_file_data (FlowAnalyzer.py:440-471)
   * -------------------------------------------------------------------- */

  /** The gzip magic number 0x1f 0x8b opens the body. */
  predicate HasGzipMagic(b: Bytes)
  {
    |b| >= 2 && b[0] == 0x1f && b[1] == 0x8b
  }

  /** Best-effort dechunking: the decoded body, or the body as it was if decoding raised. */
  function DechunkOrKeep(body: Bytes): (r: Bytes)
    ensures |r| <= |body|
    ensures Dechunk(body).Err? ==> r == body
    ensures Dechunk(body).Ok? ==> r == Dechunk(body).value
  {
    match Dechunk(body)
    case Ok(decoded) => decoded
    case Err(_) => body
  }

  /** Best-effort decompression, attempted only behind the gzip magic number. */
  function GunzipOrKeep(body: Bytes, lib: Library): (r: Bytes)
    ensures r != body ==> HasGzipMagic(body) && lib.gunzip(body) == Some(r)
    ensures !HasGzipMagic(body) ==> r == body
  {
    if HasGzipMagic(body) then
      match lib.gunzip(body)
      case Some(plain) => plain
      case None => body
    else body
  }

  /**
   * Header and body of a hex-encoded HTTP message. Never fails: text that is
   * empty or not hex gives two empty byte strings, and each decoding step
   * that raises is skipped.
   */
  function ExtractHttpFileData(fullRequest: string, lib: Library): (r: (Bytes, Bytes))
    ensures fullRequest == [] || Hex.FromHex(fullRequest).None? ==> r == ([], [])
    ensures Hex.FromHex(fullRequest).Some? ==>
      var (header, body) := SplitHeaders(Hex.FromHex(fullRequest).value);
      && r.0 == header
      && (HasGzipMagic(body) ==> r.1 == GunzipOrKeep(body, lib))
      && (Dechunk(body).Err? && !HasGzipMagic(body) ==> r.1 == body)
      && (Dechunk(body).Ok? && !HasGzipMagic(Dechunk(body).value) ==> r.1 == Dechunk(body).value)
      && (Dechunk(body).Ok? && HasGzipMagic(Dechunk(body).value) ==> r.1 == GunzipOrKeep(Dechunk(body).value, lib))
  {
    if fullRequest == [] then ([], [])
    else
      match Hex.FromHex(fullRequest)
      case None => ([], [])
      case Some(raw) =>
        var (header, body) := SplitHeaders(raw);
        assert HasGzipMagic(body) ==> Dechunk(body).Err? by {
          if HasGzipMagic(body) {
            DechunkRejects(body);
          }
        }
        (header, GunzipOrKeep(DechunkOrKeep(body), lib))
  }

  /** A header block of one or more header lines is split off any body. */
  lemma HeaderBlockSplit(lines: seq<Bytes>, body: Bytes)
    requires lines != [] && forall i :: 0 <= i < |lines| ==> IsHeaderLine(lines[i])
    ensures SplitHeaders(HeaderBlock(lines) + body) == (HeaderBlock(lines), body)
  {
    HeaderBlockEndsAtFirst(lines);
    SplitHeadersAt(HeaderBlock(lines), body);
  }

  /** The hex text of a header block and a body gives back the header and the body, decoded. */
  lemma ExtractMessage(lines: seq<Bytes>, body: Bytes, lib: Library)
    requires lines != [] && forall i :: 0 <= i < |lines| ==> IsHeaderLine(lines[i])
    ensures ExtractHttpFileData(Hex.Hexlify(HeaderBlock(lines) + body), lib)
         == (HeaderBlock(lines), GunzipOrKeep(DechunkOrKeep(body), lib))
  {
    var m := HeaderBlock(lines) + body;
    Hex.FromHexHexlify(m);
    HeaderBlockSplit(lines, body);
    assert |Hex.Hexlify(m)| > 0;
  }

  /** A body that cannot be dechunked and is not gzip data comes back unchanged. */
  lemma ExtractPlain(lines: seq<Bytes>, body: Bytes, lib: Library)
    requires lines != [] && forall i :: 0 <= i < |lines| ==> IsHeaderLine(lines[i])
    requires body != [] && body[0] !in ByteSpaces && !Hex.IsHexDigit(body[0]) && !HasGzipMagic(body)
    ensures ExtractHttpFileData(Hex.Hexlify(HeaderBlock(lines) + body), lib) == (HeaderBlock(lines), body)
  {
    DechunkRejects(body);
    assert DechunkOrKeep(body) == body;
    ExtractMessage(lines, body, lib);
  }

  /** A chunked body closed by the last chunk comes back as its chunks' concatenation. */
  lemma ExtractChunked(lines: seq<Bytes>, cs: seq<Bytes>, body: Bytes, lib: Library)
    requires lines != [] && forall i :: 0 <= i < |lines| ==> IsHeaderLine(lines[i])
    requires NonEmptyChunks(cs) && !HasGzipMagic(Flatten(cs))
    requires body == EncodeChunks(cs) + LastChunk
    ensures ExtractHttpFileData(Hex.Hexlify(HeaderBlock(lines) + body), lib) == (HeaderBlock(lines), Flatten(cs))
  {
    ExtractMessage(lines, body, lib);
    DechunkRoundTrip(cs, []);
    assert body + [] == body;
  }

  /** A gzip body that decompresses comes back decompressed. */
  lemma ExtractGzip(lines: seq<Bytes>, compressed: Bytes, content: Bytes, lib: Library)
    requires lines != [] && forall i :: 0 <= i < |lines| ==> IsHeaderLine(lines[i])
    requires HasGzipMagic(compressed) && lib.gunzip(compressed) == Some(content)
    ensures ExtractHttpFileData(Hex.Hexlify(HeaderBlock(lines) + compressed), lib) == (HeaderBlock(lines), content)
  {
    DechunkRejects(compressed);
    assert DechunkOrKeep(compressed) == compressed;
    ExtractMessage(lines, compressed, lib);
  }

  /* ----------------------------------------------------------------------
   * The scenarios of tests/test_parser.py, with the hex given as text.
   * -------------------------------------------------------------------- */

  /** "HTTP/1.1 200 OK" */
  const StatusLine: Bytes := Latin1("HTTP/1.1 200 OK")

  /** The header lines the scenarios send. */
  lemma ScenarioHeaderLines()
    ensures IsHeaderLine(StatusLine)
    ensures IsHeaderLine(Latin1("Transfer-Encoding: chunked"))
    ensures IsHeaderLine(Latin1("Content-Encoding: gzip"))
  {
  }

  /** test_basic_extraction: a plain body comes back unchanged, after the header. */
  lemma ScenarioBasicExtraction(lib: Library)
    ensures var header := HeaderBlock([StatusLine]);
            var body := Latin1("Simple Body");
            ExtractHttpFileData(Hex.Hexlify(header + body), lib) == (header, body)
  {
    ScenarioHeaderLines();
    var body := Latin1("Simple Body");
    assert body[0] == 'S' as int;
    ExtractPlain([StatusLine], body, lib);
  }

  /** The chunked body of test_chunked_decoding: "Hello" as one chunk, then the last chunk. */
  const ChunkedHello: Bytes := [0x35] + CRLF + Latin1("Hello") + CRLF + LastChunk

  lemma ChunkedHelloEncodes()
    ensures ChunkedHello == EncodeChunks([Latin1("Hello")]) + LastChunk
  {
    EncodeOneChunk(Latin1("Hello"));
    Hex.SizeLineOfDigit(5);
  }

  lemma EncodeOneChunk(c: Bytes)
    ensures EncodeChunks([c]) == Hex.SizeLine(|c|) + CRLF + c + CRLF
  {
    var cs: seq<Bytes> := [c];
    assert cs[1..] == [];
    assert EncodeChunks(cs) == EncodeChunk(c) + [];
  }

  /** test_chunked_decoding: the chunked body decodes to "Hello". */
  lemma ScenarioChunkedDecoding(lib: Library)
    ensures var header := HeaderBlock([StatusLine, Latin1("Transfer-Encoding: chunked")]);
            ExtractHttpFileData(Hex.Hexlify(header + ChunkedHello), lib) == (header, Latin1("Hello"))
  {
    var hello := Latin1("Hello");
    var lines: seq<Bytes> := [StatusLine, Latin1("Transfer-Encoding: chunked")];
    ChunkedHelloEncodes();
    var cs: seq<Bytes> := [hello];
    assert Flatten(cs) == hello by {
      assert cs[1..] == [];
      assert hello + [] == hello;
    }
    ScenarioHeaderLines();
    ExtractChunked(lines, cs, ChunkedHello, lib);
  }

  /** test_gzip_decompression: a body behind the gzip magic number is decompressed. */
  lemma ScenarioGzipDecompression(lib: Library, compressed: Bytes, content: Bytes)
    requires HasGzipMagic(compressed) && lib.gunzip(compressed) == Some(content)
    ensures var header := HeaderBlock([StatusLine, Latin1("Content-Encoding: gzip")]);
            ExtractHttpFileData(Hex.Hexlify(header + compressed), lib) == (header, content)
  {
    var field := Latin1("Content-Encoding: gzip");
    ScenarioHeaderLines();
    ExtractGzip([StatusLine, field], compressed, content, lib);
  }
}

=== FILE: ingest.dfy ===
/**
 * The ingest of FlowAnalyzer._stream_tshark_to_db (FlowAnalyzer.py:205-346):
 * tshark prints one row of eight fields per HTTP packet; each row is decoded,
 * its message split into header and body, and stored by frame number in the
 * requests or the responses table with INSERT OR REPLACE. The tables are
 * maps from frame number to row; tshark itself is a parameter (the rows).
 */
module Ingest {
  import opened Common
  import Text
  import Http
  import Cache

  /** A row of the requests table (the Request record, FlowAnalyzer.py:15-23). */
  datatype Request = Request(frameNum: int, header: Bytes, fileData: Bytes, fullUri: string, timeEpoch: real)

  /** A row of the responses table (the Response record, FlowAnalyzer.py:26-32). */
  datatype Response = Response(frameNum: int, header: Bytes, fileData: Bytes, timeEpoch: real, requestIn: int)

  /** What parse_packet_data returns: frame, request frame, timestamp, URI and the hex message. */
  datatype Packet = Packet(frameNum: int, requestIn: int, timeEpoch: real, fullUri: string, fullRequest: string)

  /** The fields that may carry the message, in order of preference: reassembled data, TCP payload, exported PDU. */
  const PayloadFields: seq<nat> := [2, 4, 6]

  /** The message of a row: the first non-empty payload field, or "" when all are empty. */
  function Payload(row: seq<string>): (p: string)
    requires |row| >= 8
    ensures p == [] <==> forall i :: 0 <= i < 3 ==> row[PayloadFields[i]] == []
    ensures forall i :: 0 <= i < 3 && row[PayloadFields[i]] != [] && (forall j :: 0 <= j < i ==> row[PayloadFields[j]] == []) ==>
              p == row[PayloadFields[i]]
  {
    assert PayloadFields[0] == 2 && PayloadFields[1] == 4 && PayloadFields[2] == 6;
    if row[2] != [] then row[2]
    else if row[4] != [] then row[4]
    else if row[6] != [] then row[6]
    else ""
  }

  /**
   * parse_packet_data. `None` stands for the exception it raises: a row with
   * fewer than eight fields, a frame number or non-empty request_in that is
   * not an integer, or a timestamp that is not a float.
   */
  function ParsePacketData(row: seq<string>, lib: Library): (r: Option<Packet>)
    ensures r.Some? ==> |row| >= 8 && Text.ParseInt(row[3]) == Some(r.value.frameNum)
    ensures r.Some? ==> lib.parseFloat(row[5]) == Some(r.value.timeEpoch) && r.value.fullRequest == Payload(row)
  {
    if |row| < 8 then None
    else
      match (Text.ParseInt(row[3]), lib.parseFloat(row[5]))
      case (Some(frameNum), Some(timeEpoch)) =>
        var requestIn := if row[1] == [] then Some(frameNum) else Text.ParseInt(row[1]);
        if requestIn.None? then None
        else
          var fullUri := if row[7] == [] then "" else lib.unquote(row[7]);
          Some(Packet(frameNum, requestIn.value, timeEpoch, fullUri, Payload(row)))
      case _ => None
  }

  /** A response without an http.request_in field is taken to answer itself. */
  lemma ParsePacketDataRequestIn(row: seq<string>, lib: Library)
    requires ParsePacketData(row, lib).Some?
    ensures row[1] == [] ==> ParsePacketData(row, lib).value.requestIn == ParsePacketData(row, lib).value.frameNum
    ensures row[1] != [] ==> Text.ParseInt(row[1]) == Some(ParsePacketData(row, lib).value.requestIn)
  {
  }

  /** Which rows parse_packet_data accepts. */
  lemma ParsePacketDataAccepts(row: seq<string>, lib: Library)
    ensures ParsePacketData(row, lib).Some? <==>
              && |row| >= 8
              && Text.ParseInt(row[3]).Some?
              && lib.parseFloat(row[5]).Some?
              && (row[1] == [] || Text.ParseInt(row[1]).Some?)
  {
  }

  /** Where one row of tshark's output goes. */
  datatype Routed =
    | ToRequests(request: Request)
    | ToResponses(response: Response)
    | Skipped

  /**
   * The body of the ingest loop for one row: empty rows, rows that fail to
   * parse and rows without a message are skipped; a row with a status code
   * (field 0) is a response, any other a request.
   */
  function RouteRow(row: seq<string>, lib: Library): (r: Routed)
    ensures !r.Skipped? ==> row != [] && ParsePacketData(row, lib).Some?
    ensures r.ToResponses? ==> row[0] != [] && r.response.frameNum == ParsePacketData(row, lib).value.frameNum
    ensures r.ToRequests? ==> row[0] == [] && r.request.frameNum == ParsePacketData(row, lib).value.frameNum
  {
    if row == [] then Skipped
    else
      match ParsePacketData(row, lib)
      case None => Skipped
      case Some(p) =>
        if p.fullRequest == [] then Skipped
        else
          var (header, fileData) := Http.ExtractHttpFileData(p.fullRequest, lib);
          if row[0] != [] then ToResponses(Response(p.frameNum, header, fileData, p.timeEpoch, p.requestIn))
          else ToRequests(Request(p.frameNum, header, fileData, p.fullUri, p.timeEpoch))
  }

  /** A row is stored exactly when it parses and carries a message; field 0 alone picks the table. */
  lemma RouteRowStored(row: seq<string>, lib: Library)
    ensures !RouteRow(row, lib).Skipped? <==>
              ParsePacketData(row, lib).Some? && ParsePacketData(row, lib).value.fullRequest != []
    ensures RouteRow(row, lib).ToResponses? <==> !RouteRow(row, lib).Skipped? && row[0] != []
  {
  }

  /** A stored row holds the header and body extract_http_file_data makes of its message. */
  lemma RouteRowContents(row: seq<string>, lib: Library)
    requires !RouteRow(row, lib).Skipped?
    ensures var p := ParsePacketData(row, lib).value;
            var (header, fileData) := Http.ExtractHttpFileData(p.fullRequest, lib);
            RouteRow(row, lib) == if row[0] != [] then ToResponses(Response(p.frameNum, header, fileData, p.timeEpoch, p.requestIn))
                                  else ToRequests(Request(p.frameNum, header, fileData, p.fullUri, p.timeEpoch))
  {
  }

  /* ----------------------------------------------------------------------
   * INSERT OR REPLACE into a table keyed by frame number.
   * -------------------------------------------------------------------- */

  function RequestFrame(r: Request): int { r.frameNum }

  function ResponseFrame(r: Response): int { r.frameNum }

  /** `rs` inserted into `table` one after another, each replacing any row with its key. */
  function UpsertAll<R>(table: map<int, R>, rs: seq<R>, key: R -> int): map<int, R>
  {
    if rs == [] then table
    else UpsertAll(table, rs[..|rs| - 1], key)[key(rs[|rs| - 1]) := rs[|rs| - 1]]
  }

  /** The keys after the inserts: the old ones and those of the inserted rows. */
  lemma {:induction false} UpsertAllKeys<R>(table: map<int, R>, rs: seq<R>, key: R -> int, k: int)
    ensures k in UpsertAll(table, rs, key) <==> k in table || exists r :: r in rs && key(r) == k
  {
    if rs != [] {
      var init := rs[..|rs| - 1];
      UpsertAllKeys(table, init, key, k);
      assert rs == init + [rs[|rs| - 1]];
    }
  }

  lemma UpsertAllSnoc<R>(table: map<int, R>, rs: seq<R>, r: R, key: R -> int)
    ensures UpsertAll(table, rs + [r], key) == UpsertAll(table, rs, key)[key(r) := r]
  {
    assert (rs + [r])[..|rs|] == rs;
  }

  /** Buffered rows still to be inserted: buffering more rows keeps the buffer and the table in step with all rows so far. */
  lemma BufferStep<R>(table: map<int, R>, buffer: seq<R>, all: seq<R>, more: seq<R>, key: R -> int)
    requires UpsertAll(table, buffer, key) == UpsertAll(map[], all, key)
    ensures UpsertAll(table, buffer + more, key) == UpsertAll(map[], all + more, key)
  {
    UpsertAllAppend(table, buffer, more, key);
    UpsertAllAppend(map[], all, more, key);
  }

  /** Inserting two batches is inserting their concatenation. */
  lemma {:induction false} UpsertAllAppend<R>(table: map<int, R>, a: seq<R>, b: seq<R>, key: R -> int)
    ensures UpsertAll(table, a + b, key) == UpsertAll(UpsertAll(table, a, key), b, key)
  {
    if b == [] {
      assert a + b == a;
    } else {
      assert (a + b)[..|a + b| - 1] == a + b[..|b| - 1];
      UpsertAllAppend(table, a, b[..|b| - 1], key);
    }
  }

  /** The last row inserted with a key is the one the table keeps. */
  lemma {:induction false} UpsertAllLastWins<R>(table: map<int, R>, rs: seq<R>, key: R -> int, i: nat)
    requires i < |rs| && forall j :: i < j < |rs| ==> key(rs[j]) != key(rs[i])
    ensures key(rs[i]) in UpsertAll(table, rs, key) && UpsertAll(table, rs, key)[key(rs[i])] == rs[i]
  {
    if i < |rs| - 1 {
      var init := rs[..|rs| - 1];
      assert forall j :: i < j < |init| ==> init[j] == rs[j];
      UpsertAllLastWins(table, init, key, i);
    }
  }

  /** A row whose key no inserted row has is left in place. */
  lemma {:induction false} UpsertAllKeeps<R>(table: map<int, R>, rs: seq<R>, key: R -> int, k: int)
    requires k in table && forall j :: 0 <= j < |rs| ==> key(rs[j]) != k
    ensures k in UpsertAll(table, rs, key) && UpsertAll(table, rs, key)[k] == table[k]
  {
    if rs != [] {
      var init := rs[..|rs| - 1];
      assert forall j :: 0 <= j < |init| ==> init[j] == rs[j];
      UpsertAllKeeps(table, init, key, k);
    }
  }

  /** Every row sits under its own key, as under a PRIMARY KEY column. */
  predicate KeyedBy<R>(table: map<int, R>, key: R -> int)
  {
    forall k :: k in table ==> key(table[k]) == k
  }

  lemma {:induction false} UpsertAllKeyed<R>(table: map<int, R>, rs: seq<R>, key: R -> int)
    requires KeyedBy(table, key)
    ensures KeyedBy(UpsertAll(table, rs, key), key)
  {
    if rs != [] {
      UpsertAllKeyed(table, rs[..|rs| - 1], key);
    }
  }

  /* ----------------------------------------------------------------------
   * The whole ingest as a fold over the rows.
   * -------------------------------------------------------------------- */

  /** The routing of one row, as a function value. */
  function Router(lib: Library): seq<string> -> Routed
  {
    row => RouteRow(row, lib)
  }

  /** Where each row goes, row by row. */
  function Routes(rows: seq<seq<string>>, lib: Library): (routes: seq<Routed>)
    ensures |routes| == |rows|
    ensures forall i :: 0 <= i < |rows| ==> routes[i] == RouteRow(rows[i], lib)
  {
    MapSeq(rows, Router(lib))
  }

  /** The requests among routed rows, in row order. */
  function RequestsIn(routes: seq<Routed>): (rs: seq<Request>)
    ensures |rs| <= |routes|
  {
    if routes == [] then []
    else
      var r := routes[|routes| - 1];
      RequestsIn(routes[..|routes| - 1]) + (if r.ToRequests? then [r.request] else [])
  }

  /** The responses among routed rows, in row order. */
  function ResponsesIn(routes: seq<Routed>): (rs: seq<Response>)
    ensures |rs| <= |routes|
  {
    if routes == [] then []
    else
      var r := routes[|routes| - 1];
      ResponsesIn(routes[..|routes| - 1]) + (if r.ToResponses? then [r.response] else [])
  }

  /** One more row adds its routing at the end. */
  lemma RoutesSnoc(rows: seq<seq<string>>, i: nat, lib: Library)
    requires i < |rows|
    ensures Routes(rows[..i + 1], lib) == Routes(rows[..i], lib) + [RouteRow(rows[i], lib)]
  {
    assert rows[..i + 1] == rows[..i] + [rows[i]];
    MapSeqAppend(rows[..i], [rows[i]], Router(lib));
  }

  /** One more routed row adds its request or its response, if any, at the end. */
  lemma RoutedStep(before: seq<Routed>, routed: Routed)
    ensures routed.ToRequests? ==> RequestsIn(before + [routed]) == RequestsIn(before) + [routed.request]
    ensures !routed.ToRequests? ==> RequestsIn(before + [routed]) == RequestsIn(before)
    ensures routed.ToResponses? ==> ResponsesIn(before + [routed]) == ResponsesIn(before) + [routed.response]
    ensures !routed.ToResponses? ==> ResponsesIn(before + [routed]) == ResponsesIn(before)
  {
    assert (before + [routed])[..|before|] == before;
    assert RequestsIn(before) + [] == RequestsIn(before);
    assert ResponsesIn(before) + [] == ResponsesIn(before);
  }

  /** The two tables of the database. */
  datatype Tables = Tables(requests: map<int, Request>, responses: map<int, Response>)

  /** The tables after storing the routed rows into an empty database. */
  function Store(routes: seq<Routed>): Tables
  {
    Tables(UpsertAll(map[], RequestsIn(routes), RequestFrame), UpsertAll(map[], ResponsesIn(routes), ResponseFrame))
  }

  /** The tables after ingesting `rows` into an empty database. */
  function Ingest(rows: seq<seq<string>>, lib: Library): Tables
  {
    Store(Routes(rows, lib))
  }

  lemma {:induction false} RequestsInAppend(a: seq<Routed>, b: seq<Routed>)
    ensures RequestsIn(a + b) == RequestsIn(a) + RequestsIn(b)
  {
    if b == [] {
      assert a + b == a;
    } else {
      assert (a + b)[..|a + b| - 1] == a + b[..|b| - 1];
      RequestsInAppend(a, b[..|b| - 1]);
    }
  }

  lemma {:induction false} ResponsesInAppend(a: seq<Routed>, b: seq<Routed>)
    ensures ResponsesIn(a + b) == ResponsesIn(a) + ResponsesIn(b)
  {
    if b == [] {
      assert a + b == a;
    } else {
      assert (a + b)[..|a + b| - 1] == a + b[..|b| - 1];
      ResponsesInAppend(a, b[..|b| - 1]);
    }
  }

  /** The requests collected are exactly those routed to the requests table. */
  lemma {:induction false} RequestsInMembers(routes: seq<Routed>, q: Request)
    ensures q in RequestsIn(routes) <==> ToRequests(q) in routes
  {
    if routes != [] {
      var init := routes[..|routes| - 1];
      RequestsInMembers(init, q);
      assert routes == init + [routes[|routes| - 1]];
    }
  }

  /** The responses collected are exactly those routed to the responses table. */
  lemma {:induction false} ResponsesInMembers(routes: seq<Routed>, r: Response)
    ensures r in ResponsesIn(routes) <==> ToResponses(r) in routes
  {
    if routes != [] {
      var init := routes[..|routes| - 1];
      ResponsesInMembers(init, r);
      assert routes == init + [routes[|routes| - 1]];
    }
  }

  /** The row routes a request under frame `k`. */
  predicate StoresRequest(row: seq<string>, lib: Library, k: int)
  {
    RouteRow(row, lib).ToRequests? && RouteRow(row, lib).request.frameNum == k
  }

  /** The row routes a response under frame `k`. */
  predicate StoresResponse(row: seq<string>, lib: Library, k: int)
  {
    RouteRow(row, lib).ToResponses? && RouteRow(row, lib).response.frameNum == k
  }

  /** A frame is in the requests table exactly when some row stores a request under it. */
  lemma IngestRequestKeys(rows: seq<seq<string>>, lib: Library, k: int)
    ensures k in Ingest(rows, lib).requests <==> exists i :: 0 <= i < |rows| && StoresRequest(rows[i], lib, k)
  {
    var routes := Routes(rows, lib);
    UpsertAllKeys(map[], RequestsIn(routes), RequestFrame, k);
    if exists q :: q in RequestsIn(routes) && RequestFrame(q) == k {
      var q :| q in RequestsIn(routes) && RequestFrame(q) == k;
      RequestsInMembers(routes, q);
      var i :| 0 <= i < |routes| && routes[i] == ToRequests(q);
      assert StoresRequest(rows[i], lib, k);
    }
    if exists i :: 0 <= i < |rows| && StoresRequest(rows[i], lib, k) {
      var i :| 0 <= i < |rows| && StoresRequest(rows[i], lib, k);
      RequestsInMembers(routes, routes[i].request);
    }
  }

  /** A frame is in the responses table exactly when some row stores a response under it. */
  lemma IngestResponseKeys(rows: seq<seq<string>>, lib: Library, k: int)
    ensures k in Ingest(rows, lib).responses <==> exists i :: 0 <= i < |rows| && StoresResponse(rows[i], lib, k)
  {
    var routes := Routes(rows, lib);
    UpsertAllKeys(map[], ResponsesIn(routes), ResponseFrame, k);
    if exists r :: r in ResponsesIn(routes) && ResponseFrame(r) == k {
      var r :| r in ResponsesIn(routes) && ResponseFrame(r) == k;
      ResponsesInMembers(routes, r);
      var i :| 0 <= i < |routes| && routes[i] == ToResponses(r);
      assert StoresResponse(rows[i], lib, k);
    }
    if exists i :: 0 <= i < |rows| && StoresResponse(rows[i], lib, k) {
      var i :| 0 <= i < |rows| && StoresResponse(rows[i], lib, k);
      ResponsesInMembers(routes, routes[i].response);
    }
  }

  /** Each stored row sits under its own frame number, as under a PRIMARY KEY column. */
  lemma IngestKeyed(rows: seq<seq<string>>, lib: Library)
    ensures KeyedBy(Ingest(rows, lib).requests, RequestFrame) && KeyedBy(Ingest(rows, lib).responses, ResponseFrame)
  {
    UpsertAllKeyed(map[], RequestsIn(Routes(rows, lib)), RequestFrame);
    UpsertAllKeyed(map[], ResponsesIn(Routes(rows, lib)), ResponseFrame);
  }

  /** Storing routed rows: of several requests for one frame, the last one wins. */
  lemma StoreLastRequestWins(before: seq<Routed>, q: Request, after: seq<Routed>)
    requires forall j :: 0 <= j < |after| ==> !(after[j].ToRequests? && after[j].request.frameNum == q.frameNum)
    ensures q.frameNum in Store(before + [ToRequests(q)] + after).requests
    ensures Store(before + [ToRequests(q)] + after).requests[q.frameNum] == q
  {
    RequestsInAppend(before + [ToRequests(q)], after);
    RoutedStep(before, ToRequests(q));
    var rs := RequestsIn(before + [ToRequests(q)] + after);
    var i := |RequestsIn(before)|;
    var later := RequestsIn(after);
    assert rs[i] == q;
    forall j | i < j < |rs|
      ensures rs[j].frameNum != q.frameNum
    {
      assert rs[j] == later[j - i - 1];
      RequestsInMembers(after, later[j - i - 1]);
    }
    UpsertAllLastWins(map[], rs, RequestFrame, i);
  }

  /** Storing routed rows: of several responses for one frame, the last one wins. */
  lemma StoreLastResponseWins(before: seq<Routed>, r: Response, after: seq<Routed>)
    requires forall j :: 0 <= j < |after| ==> !(after[j].ToResponses? && after[j].response.frameNum == r.frameNum)
    ensures r.frameNum in Store(before + [ToResponses(r)] + after).responses
    ensures Store(before + [ToResponses(r)] + after).responses[r.frameNum] == r
  {
    ResponsesInAppend(before + [ToResponses(r)], after);
    RoutedStep(before, ToResponses(r));
    var rs := ResponsesIn(before + [ToResponses(r)] + after);
    var i := |ResponsesIn(before)|;
    var later := ResponsesIn(after);
    assert rs[i] == r;
    forall j | i < j < |rs|
      ensures rs[j].frameNum != r.frameNum
    {
      assert rs[j] == later[j - i - 1];
      ResponsesInMembers(after, later[j - i - 1]);
    }
    UpsertAllLastWins(map[], rs, ResponseFrame, i);
  }

  /** The routing of rows `pre`, then `row`, then `post`. */
  lemma RoutesAround(pre: seq<seq<string>>, row: seq<string>, post: seq<seq<string>>, lib: Library)
    ensures Routes(pre + [row] + post, lib) == Routes(pre, lib) + [RouteRow(row, lib)] + Routes(post, lib)
  {
    MapSeqAppend(pre + [row], post, Router(lib));
    MapSeqAppend(pre, [row], Router(lib));
  }

  /** INSERT OR REPLACE: of several request rows for one frame, the last one wins. */
  lemma IngestLastRequestWins(pre: seq<seq<string>>, row: seq<string>, post: seq<seq<string>>, lib: Library)
    requires RouteRow(row, lib).ToRequests?
    requires forall j :: 0 <= j < |post| ==> !StoresRequest(post[j], lib, RouteRow(row, lib).request.frameNum)
    ensures var q := RouteRow(row, lib).request;
            q.frameNum in Ingest(pre + [row] + post, lib).requests && Ingest(pre + [row] + post, lib).requests[q.frameNum] == q
  {
    RoutesAround(pre, row, post, lib);
    StoreLastRequestWins(Routes(pre, lib), RouteRow(row, lib).request, Routes(post, lib));
  }

  /** INSERT OR REPLACE: of several response rows for one frame, the last one wins. */
  lemma IngestLastResponseWins(pre: seq<seq<string>>, row: seq<string>, post: seq<seq<string>>, lib: Library)
    requires RouteRow(row, lib).ToResponses?
    requires forall j :: 0 <= j < |post| ==> !StoresResponse(post[j], lib, RouteRow(row, lib).response.frameNum)
    ensures var r := RouteRow(row, lib).response;
            r.frameNum in Ingest(pre + [row] + post, lib).responses && Ingest(pre + [row] + post, lib).responses[r.frameNum] == r
  {
    RoutesAround(pre, row, post, lib);
    StoreLastResponseWins(Routes(pre, lib), RouteRow(row, lib).response, Routes(post, lib));
  }

  /* ----------------------------------------------------------------------
   * The ingest loop with its 5000-row insert batches.
   * -------------------------------------------------------------------- */

  const BatchSize: nat := 5000

  /**
   * The row loop of _stream_tshark_to_db: rows are buffered per table and
   * inserted once a buffer reaches BatchSize rows, the rest after the loop;
   * then the metadata row is written from the capture's mtime and size.
   */
  method StreamToDb(rows: seq<seq<string>>, lib: Library, filter: string, stat: Cache.FileStat)
    returns (tables: Tables, meta: Cache.Meta)
    ensures tables == Ingest(rows, lib)
    ensures meta == Cache.MetaWritten(filter, stat)
  {
    var requests: map<int, Request> := map[];
    var responses: map<int, Response> := map[];
    var requestRows: seq<Request> := [];
    var responseRows: seq<Response> := [];
    for i := 0 to |rows|
      invariant UpsertAll(requests, requestRows, RequestFrame) == UpsertAll(map[], RequestsIn(Routes(rows[..i], lib)), RequestFrame)
      invariant UpsertAll(responses, responseRows, ResponseFrame) == UpsertAll(map[], ResponsesIn(Routes(rows[..i], lib)), ResponseFrame)
      invariant |requestRows| < BatchSize && |responseRows| < BatchSize
    {
      var routed := RouteRow(rows[i], lib);
      var before := Routes(rows[..i], lib);
      RoutesSnoc(rows, i, lib);
      RoutedStep(before, routed);
      if routed.ToRequests? {
        BufferStep(requests, requestRows, RequestsIn(before), [routed.request], RequestFrame);
        requestRows := requestRows + [routed.request];
      } else if routed.ToResponses? {
        BufferStep(responses, responseRows, ResponsesIn(before), [routed.response], ResponseFrame);
        responseRows := responseRows + [routed.response];
      }
      if |requestRows| >= BatchSize {
        requests := UpsertAll(requests, requestRows, RequestFrame);
        requestRows := [];
      }
      if |responseRows| >= BatchSize {
        responses := UpsertAll(responses, responseRows, ResponseFrame);
        responseRows := [];
      }
    }
    assert rows[..|rows|] == rows;
    requests := UpsertAll(requests, requestRows, RequestFrame);
    responses := UpsertAll(responses, responseRows, ResponseFrame);
    tables := Tables(requests, responses);
    meta := Cache.Meta(filter, stat.mtime, stat.size);
  }
}

=== FILE: numerals.dfy ===
/**
 * Positional numerals: the value of a digit string in a given base, and the
 * shortest digit string of a natural number. Both Python's int(s) and
 * int(s, 16) parse such strings, and chunked transfer coding writes them.
 */
module Numerals {

  /** The number written by `ds`, most significant digit first. */
  function Value(ds: seq<nat>, base: nat): nat
  {
    if ds == [] then 0 else Value(ds[..|ds| - 1], base) * base + ds[|ds| - 1]
  }

  /** The shortest digit string of `n` in base `base`; zero is written as one 0. */
  function Digits(n: nat, base: nat): (ds: seq<nat>)
    requires base >= 2
    ensures |ds| >= 1
    ensures forall i :: 0 <= i < |ds| ==> ds[i] < base
    ensures n > 0 ==> ds[0] != 0
    decreases n
  {
    if n < base then [n]
    else
      DivisionShrinks(n, base);
      Digits(n / base, base) + [n % base]
  }

  /** For n >= base >= 2, the quotient n / base is positive and smaller than n. */
  lemma DivisionShrinks(n: nat, base: nat)
    requires base >= 2 && n >= base
    ensures 1 <= n / base < n
    ensures n == (n / base) * base + n % base && n % base < base
  {
    var q, r := n / base, n % base;
    assert n == base * q + r && 0 <= r < base;
  }

  /** Reading back the digits of `n` gives `n`. */
  lemma {:induction false} ValueOfDigits(n: nat, base: nat)
    requires base >= 2
    ensures Value(Digits(n, base), base) == n
    decreases n
  {
    if n >= base {
      var q, r := n / base, n % base;
      DivisionShrinks(n, base);
      var ds := Digits(n, base);
      assert ds == Digits(q, base) + [r];
      assert ds[..|ds| - 1] == Digits(q, base);
      ValueOfDigits(q, base);
      assert Value(ds, base) == q * base + r;
    }
  }
}

=== FILE: packet_parser.dfy ===
/**
 * Decoding of the tab-separated records a tshark Lua script prints, one per
 * packet (PacketParser.py): type, frame number, timestamp, header hex, body
 * hex, URI or status code, and optionally the frame of the request.
 */
module PacketParser {
  import opened Common
  import Text
  import Hex

  /** The dictionaries process_row builds; the "type" entry is the constructor. */
  datatype Record =
    | RequestRecord(frameNum: int, header: Bytes, fileData: Bytes, timeEpoch: real, fullUri: string)
    | ResponseRecord(frameNum: int, header: Bytes, fileData: Bytes, timeEpoch: real, requestIn: int, statusCode: int)

  const Tab: char := '\t'

  /** A hex column: empty stays empty, anything else goes through binascii.unhexlify. */
  function HexField(s: string): (r: Option<Bytes>)
    ensures s == [] ==> r == Some([])
    ensures s != [] ==> r == Hex.Unhexlify(s)
  {
    if s == [] then Some([]) else Hex.Unhexlify(s)
  }

  /** int(s), or 0 when int(s) raises. */
  function StatusCode(s: string): (code: int)
    ensures Text.ParseInt(s).Some? ==> code == Text.ParseInt(s).value
    ensures Text.ParseInt(s).None? ==> code == 0
  {
    match Text.ParseInt(s)
    case Some(v) => v
    case None => 0
  }

  /** The request_in column: absent or empty reads as 0, anything else through int(). */
  function RequestIn(parts: seq<string>): (r: Option<int>)
    ensures |parts| <= 6 || parts[6] == [] ==> r == Some(0)
    ensures |parts| > 6 && parts[6] != [] ==> r == Text.ParseInt(parts[6])
  {
    var s := if |parts| > 6 then parts[6] else "";
    if s == [] then Some(0) else Text.ParseInt(s)
  }

  /** The columns every record reads: frame number, timestamp, header and body. */
  datatype Fields = Fields(frameNum: int, timeEpoch: real, header: Bytes, fileData: Bytes)

  /** Columns 1 to 4 parsed in the order process_row parses them; `None` once one raises. */
  function ReadFields(parts: seq<string>, lib: Library): (r: Option<Fields>)
    requires |parts| >= 6
    ensures r.Some? <==> CommonColumnsParse(parts, lib)
    ensures r.Some? ==> r.value == Fields(Text.ParseInt(parts[1]).value, lib.parseFloat(parts[2]).value,
                                         HexField(parts[3]).value, HexField(parts[4]).value)
  {
    if !CommonColumnsParse(parts, lib) then None
    else Some(Fields(Text.ParseInt(parts[1]).value, lib.parseFloat(parts[2]).value,
                     HexField(parts[3]).value, HexField(parts[4]).value))
  }

  /** The record built from parsed fields, by the type column. */
  function RecordOf(parts: seq<string>, f: Fields): Option<Record>
    requires |parts| >= 6
  {
    if parts[0] == "req" then
      Some(RequestRecord(f.frameNum, f.header, f.fileData, f.timeEpoch, parts[5]))
    else if parts[0] == "rep" then
      match RequestIn(parts)
      case Some(requestIn) => Some(ResponseRecord(f.frameNum, f.header, f.fileData, f.timeEpoch, requestIn, StatusCode(parts[5])))
      case None => None
    else None
  }

  /**
   * process_row: `None` for fewer than six columns, for any column that
   * fails to parse (every exception is caught), and for a type other than
   * "req" or "rep". A bad status code reads as 0; a bad request_in does not.
   */
  function ProcessRow(line: string, lib: Library): (r: Option<Record>)
    ensures |Text.Split(line, Tab)| < 6 ==> r.None?
    ensures r.Some? ==> |Text.Split(line, Tab)| >= 6
  {
    var parts := Text.Split(line, Tab);
    if |parts| < 6 then None
    else
      match ReadFields(parts, lib)
      case None => None
      case Some(f) => RecordOf(parts, f)
  }

  /** The columns that every record reads, all of which must parse. */
  predicate CommonColumnsParse(parts: seq<string>, lib: Library)
    requires |parts| >= 6
  {
    && Text.ParseInt(parts[1]).Some?
    && lib.parseFloat(parts[2]).Some?
    && HexField(parts[3]).Some?
    && HexField(parts[4]).Some?
  }

  /** Exactly which lines give a given request. */
  lemma ProcessRowRequest(line: string, lib: Library, rec: Record)
    requires rec.RequestRecord?
    ensures ProcessRow(line, lib) == Some(rec) <==>
            var parts := Text.Split(line, Tab);
            && |parts| >= 6 && parts[0] == "req"
            && Text.ParseInt(parts[1]) == Some(rec.frameNum)
            && lib.parseFloat(parts[2]) == Some(rec.timeEpoch)
            && HexField(parts[3]) == Some(rec.header)
            && HexField(parts[4]) == Some(rec.fileData)
            && parts[5] == rec.fullUri
  {
    var parts := Text.Split(line, Tab);
    if |parts| >= 6 {
      var r := ReadFields(parts, lib);
      assert ProcessRow(line, lib) == if r.Some? then RecordOf(parts, r.value) else None;
    }
  }

  /** Exactly which lines give a given response. */
  lemma ProcessRowResponse(line: string, lib: Library, rec: Record)
    requires rec.ResponseRecord?
    ensures ProcessRow(line, lib) == Some(rec) <==>
            var parts := Text.Split(line, Tab);
            && |parts| >= 6 && parts[0] == "rep"
            && Text.ParseInt(parts[1]) == Some(rec.frameNum)
            && lib.parseFloat(parts[2]) == Some(rec.timeEpoch)
            && HexField(parts[3]) == Some(rec.header)
            && HexField(parts[4]) == Some(rec.fileData)
            && RequestIn(parts) == Some(rec.requestIn)
            && StatusCode(parts[5]) == rec.statusCode
  {
    var parts := Text.Split(line, Tab);
    if |parts| >= 6 {
      var r := ReadFields(parts, lib);
      assert ProcessRow(line, lib) == if r.Some? then RecordOf(parts, r.value) else None;
    }
  }

  /** Lines of any other type, such as "data", give nothing. */
  lemma ProcessRowOtherType(line: string, lib: Library)
    requires var parts := Text.Split(line, Tab); |parts| >= 1 && parts[0] != "req" && parts[0] != "rep"
    ensures ProcessRow(line, lib).None?
  {
  }

  /* ----------------------------------------------------------------------
   * The writer's side: a record printed as a line.
   * -------------------------------------------------------------------- */

  /** A record in the column layout process_row documents, given the text printed for the timestamp. */
  function Columns(rec: Record, timeText: string): (columns: seq<string>)
    ensures |columns| == (if rec.RequestRecord? then 6 else 7)
  {
    var common := [Text.IntToString(rec.frameNum), timeText, Hex.Hexlify(rec.header), Hex.Hexlify(rec.fileData)];
    match rec
    case RequestRecord(_, _, _, _, fullUri) => ["req"] + common + [fullUri]
    case ResponseRecord(_, _, _, _, requestIn, statusCode) =>
      ["rep"] + common + [Text.IntToString(statusCode), Text.IntToString(requestIn)]
  }

  /** The line printed for a record: its columns joined by tabs. A request leaves request_in out. */
  function FormatRow(rec: Record, timeText: string): string
  {
    Text.JoinWith(Columns(rec, timeText), Tab)
  }

  /** The free-text columns of a record contain no tab. */
  predicate Printable(rec: Record, timeText: string)
  {
    Tab !in timeText && (rec.RequestRecord? ==> Tab !in rec.fullUri)
  }

  lemma NoTabInNumber(n: int)
    ensures Tab !in Text.IntToString(n)
  {
    var m: nat := if n < 0 then -n else n;
    assert Text.AllDecimal(Text.NatToString(m));
    if n < 0 {
      assert Text.IntToString(n) == "-" + Text.NatToString(m);
    }
  }

  lemma NoTabInHex(b: Bytes)
    ensures Tab !in Hex.Hexlify(b)
  {
    Hex.HexlifyDigits(b);
  }

  lemma HexFieldOfHexlify(b: Bytes)
    ensures HexField(Hex.Hexlify(b)) == Some(b)
  {
    Hex.UnhexlifyHexlify(b);
    if b == [] {
      assert Hex.Hexlify(b) == [];
    }
  }

  /** A printed status code reads back as itself; an empty status column reads as 0. */
  lemma StatusCodeOfText(n: int)
    ensures StatusCode(Text.IntToString(n)) == n
    ensures StatusCode("") == 0
  {
    Text.ParseIntOfIntToString(n);
  }

  /** A printed request_in reads back as itself; a missing or empty one reads as 0. */
  lemma RequestInOfText(parts: seq<string>, n: int)
    requires |parts| == 6
    ensures RequestIn(parts) == Some(0)
    ensures RequestIn(parts + [""]) == Some(0)
    ensures RequestIn(parts + [Text.IntToString(n)]) == Some(n)
  {
    Text.ParseIntOfIntToString(n);
    Text.IntToStringNonEmpty(n);
  }

  /** No column of a printable record holds a tab. */
  lemma ColumnsHaveNoTab(rec: Record, timeText: string)
    requires Printable(rec, timeText)
    ensures forall i :: 0 <= i < |Columns(rec, timeText)| ==> Tab !in Columns(rec, timeText)[i]
  {
    NoTabInNumber(rec.frameNum);
    NoTabInHex(rec.header);
    NoTabInHex(rec.fileData);
    if rec.ResponseRecord? {
      NoTabInNumber(rec.statusCode);
      NoTabInNumber(rec.requestIn);
    }
  }

  /** The columns every record shares read back as the record's fields. */
  lemma CommonColumnsOf(rec: Record, timeText: string, lib: Library)
    requires lib.parseFloat(timeText) == Some(rec.timeEpoch)
    ensures var columns := Columns(rec, timeText);
            && Text.ParseInt(columns[1]) == Some(rec.frameNum)
            && lib.parseFloat(columns[2]) == Some(rec.timeEpoch)
            && HexField(columns[3]) == Some(rec.header)
            && HexField(columns[4]) == Some(rec.fileData)
  {
    Text.ParseIntOfIntToString(rec.frameNum);
    HexFieldOfHexlify(rec.header);
    HexFieldOfHexlify(rec.fileData);
  }

  /** The shared columns of a printed record read back as the record's fields. */
  lemma ReadFieldsOfColumns(rec: Record, timeText: string, lib: Library)
    requires lib.parseFloat(timeText) == Some(rec.timeEpoch)
    ensures ReadFields(Columns(rec, timeText), lib) == Some(Fields(rec.frameNum, rec.timeEpoch, rec.header, rec.fileData))
  {
    CommonColumnsOf(rec, timeText, lib);
  }

  /** A line whose columns are those of a request parses back to the request. */
  lemma RequestOfColumns(line: string, rec: Record, timeText: string, lib: Library)
    requires rec.RequestRecord?
    requires Text.Split(line, Tab) == Columns(rec, timeText)
    requires lib.parseFloat(timeText) == Some(rec.timeEpoch)
    ensures ProcessRow(line, lib) == Some(rec)
  {
    CommonColumnsOf(rec, timeText, lib);
    ProcessRowRequest(line, lib, rec);
  }

  lemma ResponseColumnsOf(rec: Record, timeText: string)
    requires rec.ResponseRecord?
    ensures StatusCode(Columns(rec, timeText)[5]) == rec.statusCode
    ensures RequestIn(Columns(rec, timeText)) == Some(rec.requestIn)
  {
    Text.ParseIntOfIntToString(rec.statusCode);
    Text.ParseIntOfIntToString(rec.requestIn);
    Text.IntToStringNonEmpty(rec.requestIn);
  }

  /** A line whose columns are those of a response parses back to the response. */
  lemma ResponseOfColumns(line: string, rec: Record, timeText: string, lib: Library)
    requires rec.ResponseRecord?
    requires Text.Split(line, Tab) == Columns(rec, timeText)
    requires lib.parseFloat(timeText) == Some(rec.timeEpoch)
    ensures ProcessRow(line, lib) == Some(rec)
  {
    CommonColumnsOf(rec, timeText, lib);
    ResponseColumnsOf(rec, timeText);
    ProcessRowResponse(line, lib, rec);
  }

  /** Round trip: a printed record whose timestamp text reads back as its timestamp is parsed back. */
  lemma ProcessRowOfFormatRow(rec: Record, timeText: string, lib: Library)
    requires Printable(rec, timeText) && lib.parseFloat(timeText) == Some(rec.timeEpoch)
    ensures ProcessRow(FormatRow(rec, timeText), lib) == Some(rec)
  {
    ColumnsHaveNoTab(rec, timeText);
    Text.SplitJoinWith(Columns(rec, timeText), Tab);
    if rec.RequestRecord? {
      RequestOfColumns(FormatRow(rec, timeText), rec, timeText, lib);
    } else {
      ResponseOfColumns(FormatRow(rec, timeText), rec, timeText, lib);
    }
  }

  /* ----------------------------------------------------------------------
   * process_batch (PacketParser.py:9-18)
   * -------------------------------------------------------------------- */

  /** The record of one line, as a sequence of zero or one records. */
  function Kept(r: Option<Record>): seq<Record>
  {
    if r.Some? then [r.value] else []
  }

  /** The records of the lines that give one, in line order. */
  function ProcessBatch(lines: seq<string>, lib: Library): (records: seq<Record>)
    ensures |records| <= |lines|
  {
    if lines == [] then [] else Kept(ProcessRow(lines[0], lib)) + ProcessBatch(lines[1..], lib)
  }

  lemma {:induction false} ProcessBatchAppend(a: seq<string>, b: seq<string>, lib: Library)
    ensures ProcessBatch(a + b, lib) == ProcessBatch(a, lib) + ProcessBatch(b, lib)
  {
    if a == [] {
      assert a + b == b;
    } else {
      assert (a + b)[1..] == a[1..] + b;
      ProcessBatchAppend(a[1..], b, lib);
    }
  }

  /** One more line adds its record, if any, at the end. */
  lemma ProcessBatchSnoc(lines: seq<string>, i: nat, lib: Library)
    requires i < |lines|
    ensures ProcessBatch(lines[..i + 1], lib) == ProcessBatch(lines[..i], lib) + Kept(ProcessRow(lines[i], lib))
  {
    assert lines[..i + 1] == lines[..i] + [lines[i]];
    ProcessBatchAppend(lines[..i], [lines[i]], lib);
    assert ProcessBatch([lines[i]], lib) == Kept(ProcessRow(lines[i], lib)) + [];
  }

  /** A record is in the batch result exactly when some line gives it. */
  lemma {:induction false} ProcessBatchMembers(lines: seq<string>, lib: Library, rec: Record)
    ensures rec in ProcessBatch(lines, lib) <==> exists i :: 0 <= i < |lines| && ProcessRow(lines[i], lib) == Some(rec)
  {
    if lines != [] {
      ProcessBatchMembers(lines[1..], lib, rec);
      if exists i :: 0 <= i < |lines| && ProcessRow(lines[i], lib) == Some(rec) {
        var i :| 0 <= i < |lines| && ProcessRow(lines[i], lib) == Some(rec);
        if i > 0 {
          assert lines[1..][i - 1] == lines[i];
        }
      }
      if exists i :: 0 <= i < |lines[1..]| && ProcessRow(lines[1..][i], lib) == Some(rec) {
        var i :| 0 <= i < |lines[1..]| && ProcessRow(lines[1..][i], lib) == Some(rec);
        assert lines[i + 1] == lines[1..][i];
      }
    }
  }

  /** process_batch: the loop over the lines, keeping each record process_row returns. */
  method ProcessBatchLoop(lines: seq<string>, lib: Library) returns (results: seq<Record>)
    ensures results == ProcessBatch(lines, lib)
  {
    results := [];
    for i := 0 to |lines|
      invariant results == ProcessBatch(lines[..i], lib)
    {
      var res := ProcessRow(lines[i], lib);
      ProcessBatchSnoc(lines, i, lib);
      if res.Some? {
        results := results + [res.value];
      }
    }
    assert lines[..|lines|] == lines;
  }
}

=== FILE: pairing.dfy ===
/**
 * The pairing query of FlowAnalyzer.generate_http_dict_pairs
 * (FlowAnalyzer.py:71-119): a LEFT JOIN of requests with the responses whose
 * request_in is the request's frame, ordered by request frame, then every
 * response whose request_in names no stored request. SQL leaves the order
 * of several responses of one request, and of the orphans, unspecified; the
 * model lists them by ascending frame number.
 */
module Pairing {
  import opened Common
  import Ingest

  type Request = Ingest.Request
  type Response = Ingest.Response
  type Tables = Ingest.Tables

  /** HttpPair (FlowAnalyzer.py:35-37): a request, a response, or both. */
  datatype HttpPair = HttpPair(request: Option<Request>, response: Option<Response>)

  lemma {:induction false} MinExists(s: set<int>)
    requires s != {}
    ensures exists x :: x in s && forall y :: y in s ==> x <= y
    decreases |s|
  {
    var x := Pick(s);
    if s != {x} {
      var rest := s - {x};
      if rest == {} {
        assert false;
      }
      MinExists(rest);
      var m :| m in rest && forall y :: y in rest ==> m <= y;
      var least := if x < m then x else m;
      forall y | y in s
        ensures least <= y
      {
        if y != x {
          assert y in rest;
        }
      }
    }
  }

  /** The least element of a non-empty set. */
  function Min(s: set<int>): (m: int)
    requires s != {}
    ensures m in s && forall y :: y in s ==> m <= y
  {
    MinExists(s);
    var m :| m in s && forall y :: y in s ==> m <= y;
    m
  }

  predicate Increasing(r: seq<int>)
  {
    forall i, j :: 0 <= i < j < |r| ==> r[i] < r[j]
  }

  /** The elements of a finite set in ascending order: the ORDER BY of a key column. */
  function Ascending(s: set<int>): (r: seq<int>)
    ensures |r| == |s| && Increasing(r)
    ensures forall x :: x in r <==> x in s
    ensures forall i :: 0 <= i < |r| ==> r[i] in s
    decreases |s|
  {
    if s == {} then []
    else
      var m := Min(s);
      var rest := Ascending(s - {m});
      assert forall i :: 0 <= i < |rest| ==> m < rest[i] by {
        forall i | 0 <= i < |rest|
          ensures m < rest[i]
        {
          assert rest[i] in s - {m};
        }
      }
      [m] + rest
  }

  /** The frames of the stored responses that answer request frame `k`. */
  function AnswersTo(t: Tables, k: int): set<int>
  {
    set f | f in t.responses && t.responses[f].requestIn == k
  }

  /** The frames of the stored responses whose request_in names no stored request. */
  function Orphans(t: Tables): set<int>
  {
    set f | f in t.responses && t.responses[f].requestIn !in t.requests
  }

  /** How many rows the LEFT JOIN gives request frame `k`: one per answer, or one when there is none. */
  function RowsOf(t: Tables, k: int): nat
  {
    if AnswersTo(t, k) == {} then 1 else |AnswersTo(t, k)|
  }

  /** The joined rows of one request: one per answering response, or the request alone. */
  function PairsOf(t: Tables, k: int): (ps: seq<HttpPair>)
    requires k in t.requests
    ensures |ps| == RowsOf(t, k)
    ensures forall i :: 0 <= i < |ps| ==> ps[i].request == Some(t.requests[k])
  {
    var answers := Ascending(AnswersTo(t, k));
    if answers == [] then [HttpPair(Some(t.requests[k]), None)]
    else seq(|answers|, i requires 0 <= i < |answers| => HttpPair(Some(t.requests[k]), Some(t.responses[answers[i]])))
  }

  /** The LEFT JOIN for the request frames `keys`, in that order. */
  function Joined(t: Tables, keys: seq<int>): seq<HttpPair>
    requires forall i :: 0 <= i < |keys| ==> keys[i] in t.requests
  {
    if keys == [] then [] else PairsOf(t, keys[0]) + Joined(t, keys[1..])
  }

  /** The second query: the orphan responses, alone. */
  function OrphanPairs(t: Tables): (ps: seq<HttpPair>)
    ensures |ps| == |Orphans(t)|
    ensures forall i :: 0 <= i < |ps| ==> ps[i].request.None?
  {
    var orphans := Ascending(Orphans(t));
    seq(|orphans|, i requires 0 <= i < |orphans| => HttpPair(None, Some(t.responses[orphans[i]])))
  }

  /** Everything generate_http_dict_pairs yields, in order. */
  function Pairs(t: Tables): seq<HttpPair>
  {
    Joined(t, Ascending(t.requests.Keys)) + OrphanPairs(t)
  }

  /* ----------------------------------------------------------------------
   * Which pairs are yielded.
   * -------------------------------------------------------------------- */

  /** The joined rows of one request hold that request, with an answering response or none. */
  lemma PairsOfMembers(t: Tables, k: int, p: HttpPair)
    requires k in t.requests
    ensures p in PairsOf(t, k) <==>
              p.request == Some(t.requests[k]) &&
              (if AnswersTo(t, k) == {} then p.response.None?
               else p.response.Some? && exists f :: f in AnswersTo(t, k) && p.response.value == t.responses[f])
  {
    var answers := Ascending(AnswersTo(t, k));
    if answers != [] && p.request == Some(t.requests[k]) && p.response.Some? {
      if exists f :: f in AnswersTo(t, k) && p.response.value == t.responses[f] {
        var f :| f in AnswersTo(t, k) && p.response.value == t.responses[f];
        var i :| 0 <= i < |answers| && answers[i] == f;
        assert PairsOf(t, k)[i] == p;
      }
    }
  }

  lemma {:induction false} JoinedMembers(t: Tables, keys: seq<int>, p: HttpPair)
    requires forall i :: 0 <= i < |keys| ==> keys[i] in t.requests
    ensures p in Joined(t, keys) <==> exists i :: 0 <= i < |keys| && p in PairsOf(t, keys[i])
  {
    if keys != [] {
      JoinedMembers(t, keys[1..], p);
      if exists i :: 0 <= i < |keys[1..]| && p in PairsOf(t, keys[1..][i]) {
        var i :| 0 <= i < |keys[1..]| && p in PairsOf(t, keys[1..][i]);
        assert keys[1..][i] == keys[i + 1];
      }
      if exists i :: 0 <= i < |keys| && p in PairsOf(t, keys[i]) {
        var i :| 0 <= i < |keys| && p in PairsOf(t, keys[i]);
        if i > 0 {
          assert keys[i] == keys[1..][i - 1];
        }
      }
    }
  }

  /** A request is paired with a response exactly when the response's request_in is the request's frame. */
  lemma PairedMembers(t: Tables, q: Request, r: Response)
    ensures HttpPair(Some(q), Some(r)) in Pairs(t) <==>
              exists k, f :: k in t.requests && f in t.responses && q == t.requests[k] && r == t.responses[f] &&
                             t.responses[f].requestIn == k
  {
    var p := HttpPair(Some(q), Some(r));
    var keys := Ascending(t.requests.Keys);
    JoinedMembers(t, keys, p);
    assert p !in OrphanPairs(t);
    if p in Pairs(t) {
      var i :| 0 <= i < |keys| && p in PairsOf(t, keys[i]);
      PairsOfMembers(t, keys[i], p);
      var f :| f in AnswersTo(t, keys[i]) && r == t.responses[f];
      assert t.responses[f].requestIn == keys[i];
    }
    if exists k, f :: k in t.requests && f in t.responses && q == t.requests[k] && r == t.responses[f] &&
                      t.responses[f].requestIn == k {
      var k, f :| k in t.requests && f in t.responses && q == t.requests[k] && r == t.responses[f] &&
                  t.responses[f].requestIn == k;
      assert f in AnswersTo(t, k);
      PairsOfMembers(t, k, p);
      var i :| 0 <= i < |keys| && keys[i] == k;
    }
  }

  /** A request comes alone exactly when no stored response answers it. */
  lemma UnansweredMembers(t: Tables, q: Request)
    ensures HttpPair(Some(q), None) in Pairs(t) <==>
              exists k :: k in t.requests && q == t.requests[k] && AnswersTo(t, k) == {}
  {
    var p := HttpPair(Some(q), None);
    var keys := Ascending(t.requests.Keys);
    JoinedMembers(t, keys, p);
    assert p !in OrphanPairs(t);
    if p in Pairs(t) {
      var i :| 0 <= i < |keys| && p in PairsOf(t, keys[i]);
      PairsOfMembers(t, keys[i], p);
    }
    if exists k :: k in t.requests && q == t.requests[k] && AnswersTo(t, k) == {} {
      var k :| k in t.requests && q == t.requests[k] && AnswersTo(t, k) == {};
      PairsOfMembers(t, k, p);
      var i :| 0 <= i < |keys| && keys[i] == k;
    }
  }

  /** Every joined row holds its request. */
  lemma JoinedRequests(t: Tables, keys: seq<int>, p: HttpPair)
    requires forall i :: 0 <= i < |keys| ==> keys[i] in t.requests
    requires p in Joined(t, keys)
    ensures p.request.Some?
  {
    JoinedMembers(t, keys, p);
    var i :| 0 <= i < |keys| && p in PairsOf(t, keys[i]);
    PairsOfMembers(t, keys[i], p);
  }

  /** The second query yields each orphan response alone, and nothing else. */
  lemma OrphanPairsMembers(t: Tables, p: HttpPair)
    ensures p in OrphanPairs(t) <==>
              p.request.None? && p.response.Some? && exists f :: f in Orphans(t) && p.response.value == t.responses[f]
  {
    var orphans := Ascending(Orphans(t));
    if p.request.None? && p.response.Some? && exists f :: f in Orphans(t) && p.response.value == t.responses[f] {
      var f :| f in Orphans(t) && p.response.value == t.responses[f];
      var i :| 0 <= i < |orphans| && orphans[i] == f;
      assert OrphanPairs(t)[i] == p;
    }
  }

  /** A response comes alone exactly when its request_in names no stored request. */
  lemma OrphanMembers(t: Tables, r: Response)
    ensures HttpPair(None, Some(r)) in Pairs(t) <==> exists f :: f in Orphans(t) && r == t.responses[f]
  {
    var p := HttpPair(None, Some(r));
    var keys := Ascending(t.requests.Keys);
    if p in Joined(t, keys) {
      JoinedRequests(t, keys, p);
    }
    OrphanPairsMembers(t, p);
  }

  /** No pair is empty. */
  lemma NoEmptyPair(t: Tables)
    ensures HttpPair(None, None) !in Pairs(t)
  {
    var p := HttpPair(None, None);
    var keys := Ascending(t.requests.Keys);
    JoinedMembers(t, keys, p);
  }

  /* ----------------------------------------------------------------------
   * Order and multiplicity: each response once, requests by ascending frame.
   * -------------------------------------------------------------------- */

  /** The frame number of a pair's response, if it has one. */
  function ResponseFrameOf(p: HttpPair): seq<int>
  {
    if p.response.Some? then [p.response.value.frameNum] else []
  }

  /** The frame number of a pair's request, if it has one. */
  function RequestFrameOf(p: HttpPair): seq<int>
  {
    if p.request.Some? then [p.request.value.frameNum] else []
  }

  /** The frame numbers of the responses in `ps`, in order. */
  function ResponseFrames(ps: seq<HttpPair>): seq<int>
  {
    ConcatMap(ps, ResponseFrameOf)
  }

  /** The frame numbers of the requests in `ps`, in order. */
  function RequestFrames(ps: seq<HttpPair>): seq<int>
  {
    ConcatMap(ps, RequestFrameOf)
  }

  predicate NoDuplicates(s: seq<int>)
  {
    forall i, j :: 0 <= i < j < |s| ==> s[i] != s[j]
  }

  predicate NonDecreasing(s: seq<int>)
  {
    forall i, j :: 0 <= i < j < |s| ==> s[i] <= s[j]
  }

  /** Pairs that all carry responses contribute exactly those responses' frames. */
  lemma {:induction false} ResponseFramesAll(ps: seq<HttpPair>, frames: seq<int>)
    requires |ps| == |frames|
    requires forall i :: 0 <= i < |ps| ==> ps[i].response.Some? && ps[i].response.value.frameNum == frames[i]
    ensures ResponseFrames(ps) == frames
  {
    if ps != [] {
      ResponseFramesAll(ps[1..], frames[1..]);
    }
  }

  /** Pairs that all carry the request of frame `k` contribute `k` once each. */
  lemma {:induction false} RequestFramesAll(ps: seq<HttpPair>, k: int)
    requires forall i :: 0 <= i < |ps| ==> ps[i].request.Some? && ps[i].request.value.frameNum == k
    ensures |RequestFrames(ps)| == |ps| && forall i :: 0 <= i < |RequestFrames(ps)| ==> RequestFrames(ps)[i] == k
  {
    if ps != [] {
      RequestFramesAll(ps[1..], k);
    }
  }

  lemma NoDuplicatesAppend(a: seq<int>, b: seq<int>)
    requires NoDuplicates(a) && NoDuplicates(b)
    requires forall x :: x in a ==> x !in b
    ensures NoDuplicates(a + b)
  {
    forall i, j | 0 <= i < j < |a + b|
      ensures (a + b)[i] != (a + b)[j]
    {
      if i < |a| && j >= |a| {
        assert (a + b)[i] in a && (a + b)[j] == b[j - |a|];
      }
    }
  }

  lemma NonDecreasingAppend(a: seq<int>, b: seq<int>)
    requires NonDecreasing(a) && NonDecreasing(b)
    requires forall i, j :: 0 <= i < |a| && 0 <= j < |b| ==> a[i] <= b[j]
    ensures NonDecreasing(a + b)
  {
    forall i, j | 0 <= i < j < |a + b|
      ensures (a + b)[i] <= (a + b)[j]
    {
      if i < |a| && j >= |a| {
        assert (a + b)[j] == b[j - |a|];
      }
    }
  }

  /** The frames of the responses answering each of `keys`, request by request. */
  function AnswerFrames(t: Tables, keys: seq<int>): seq<int>
  {
    if keys == [] then [] else Ascending(AnswersTo(t, keys[0])) + AnswerFrames(t, keys[1..])
  }

  lemma PairsOfResponseFrames(t: Tables, k: int)
    requires k in t.requests && Ingest.KeyedBy(t.responses, Ingest.ResponseFrame)
    ensures ResponseFrames(PairsOf(t, k)) == Ascending(AnswersTo(t, k))
  {
    var answers := Ascending(AnswersTo(t, k));
    if answers != [] {
      ResponseFramesAll(PairsOf(t, k), answers);
    } else {
      var ps := PairsOf(t, k);
      assert ps[1..] == [] && ResponseFrameOf(ps[0]) == [];
      assert ConcatMap(ps, ResponseFrameOf) == ResponseFrameOf(ps[0]) + ConcatMap(ps[1..], ResponseFrameOf);
    }
  }

  lemma PairsOfRequestFrames(t: Tables, k: int)
    requires k in t.requests && Ingest.KeyedBy(t.requests, Ingest.RequestFrame)
    ensures |RequestFrames(PairsOf(t, k))| == |PairsOf(t, k)|
    ensures forall i :: 0 <= i < |RequestFrames(PairsOf(t, k))| ==> RequestFrames(PairsOf(t, k))[i] == k
  {
    RequestFramesAll(PairsOf(t, k), k);
  }

  lemma {:induction false} JoinedResponseFrames(t: Tables, keys: seq<int>)
    requires forall i :: 0 <= i < |keys| ==> keys[i] in t.requests
    requires Ingest.KeyedBy(t.responses, Ingest.ResponseFrame)
    ensures ResponseFrames(Joined(t, keys)) == AnswerFrames(t, keys)
  {
    if keys != [] {
      JoinedResponseFrames(t, keys[1..]);
      PairsOfResponseFrames(t, keys[0]);
      ConcatMapAppend(PairsOf(t, keys[0]), Joined(t, keys[1..]), ResponseFrameOf);
    }
  }

  /** A frame is among the answers to `keys` exactly when its response's request_in is one of them. */
  lemma {:induction false} AnswerFramesMembers(t: Tables, keys: seq<int>, f: int)
    ensures f in AnswerFrames(t, keys) <==> f in t.responses && t.responses[f].requestIn in keys
  {
    if keys != [] {
      AnswerFramesMembers(t, keys[1..], f);
      assert keys == [keys[0]] + keys[1..];
    }
  }

  lemma {:induction false} AnswerFramesNoDuplicates(t: Tables, keys: seq<int>)
    requires Increasing(keys)
    ensures NoDuplicates(AnswerFrames(t, keys))
  {
    if keys != [] {
      AnswerFramesNoDuplicates(t, keys[1..]);
      var head := Ascending(AnswersTo(t, keys[0]));
      forall f | f in head
        ensures f !in AnswerFrames(t, keys[1..])
      {
        AnswerFramesMembers(t, keys[1..], f);
      }
      NoDuplicatesAppend(head, AnswerFrames(t, keys[1..]));
    }
  }

  /** Every stored response is yielded exactly once, joined or orphaned. */
  lemma EachResponseOnce(t: Tables)
    requires Ingest.KeyedBy(t.responses, Ingest.ResponseFrame)
    ensures NoDuplicates(ResponseFrames(Pairs(t)))
    ensures forall f :: f in ResponseFrames(Pairs(t)) <==> f in t.responses
  {
    var keys := Ascending(t.requests.Keys);
    var orphans := Ascending(Orphans(t));
    JoinedResponseFrames(t, keys);
    ResponseFramesAll(OrphanPairs(t), orphans);
    ConcatMapAppend(Joined(t, keys), OrphanPairs(t), ResponseFrameOf);
    assert ResponseFrames(Pairs(t)) == AnswerFrames(t, keys) + orphans;
    AnswerFramesNoDuplicates(t, keys);
    forall f | f in AnswerFrames(t, keys)
      ensures f !in orphans
    {
      AnswerFramesMembers(t, keys, f);
    }
    NoDuplicatesAppend(AnswerFrames(t, keys), orphans);
    forall f
      ensures f in ResponseFrames(Pairs(t)) <==> f in t.responses
    {
      AnswerFramesMembers(t, keys, f);
    }
  }

  lemma {:induction false} JoinedRequestFrames(t: Tables, keys: seq<int>)
    requires forall i :: 0 <= i < |keys| ==> keys[i] in t.requests
    requires Ingest.KeyedBy(t.requests, Ingest.RequestFrame)
    requires Increasing(keys)
    ensures NonDecreasing(RequestFrames(Joined(t, keys)))
    ensures keys != [] ==> forall i :: 0 <= i < |RequestFrames(Joined(t, keys))| ==> keys[0] <= RequestFrames(Joined(t, keys))[i]
  {
    if keys != [] {
      var head := RequestFrames(PairsOf(t, keys[0]));
      var tail := RequestFrames(Joined(t, keys[1..]));
      JoinedRequestFrames(t, keys[1..]);
      PairsOfRequestFrames(t, keys[0]);
      ConcatMapAppend(PairsOf(t, keys[0]), Joined(t, keys[1..]), RequestFrameOf);
      assert forall i :: 0 <= i < |head| ==> head[i] == keys[0];
      assert forall j :: 0 <= j < |tail| ==> keys[0] < tail[j] by {
        if tail != [] {
          assert keys[1..] != [] && keys[0] < keys[1..][0];
        }
      }
      NonDecreasingAppend(head, tail);
      BoundAppend(head, tail, keys[0]);
    }
  }

  lemma BoundAppend(a: seq<int>, b: seq<int>, lo: int)
    requires forall i :: 0 <= i < |a| ==> lo <= a[i]
    requires forall i :: 0 <= i < |b| ==> lo <= b[i]
    ensures forall i :: 0 <= i < |a + b| ==> lo <= (a + b)[i]
  {
  }

  /** The joined rows come in ascending request frame. */
  lemma RequestsAscend(t: Tables)
    requires Ingest.KeyedBy(t.requests, Ingest.RequestFrame)
    ensures NonDecreasing(RequestFrames(Pairs(t)))
  {
    var keys := Ascending(t.requests.Keys);
    var joined := Joined(t, keys);
    var orphans := OrphanPairs(t);
    JoinedRequestFrames(t, keys);
    ConcatMapAppend(joined, orphans, RequestFrameOf);
    RequestFramesNone(orphans);
    assert RequestFrames(joined + orphans) == RequestFrames(joined) + [];
  }

  lemma RequestsFirst(a: seq<HttpPair>, b: seq<HttpPair>, i: int, j: int)
    requires forall k :: 0 <= k < |a| ==> a[k].request.Some?
    requires forall k :: 0 <= k < |b| ==> b[k].request.None?
    requires 0 <= i < j < |a + b| && (a + b)[i].request.None?
    ensures (a + b)[j].request.None?
  {
    if i >= |a| {
      assert (a + b)[j] == b[j - |a|];
    }
  }

  /** Every joined row precedes every orphan response. */
  lemma OrphansLast(t: Tables, i: int, j: int)
    requires 0 <= i < j < |Pairs(t)| && Pairs(t)[i].request.None?
    ensures Pairs(t)[j].request.None?
  {
    var keys := Ascending(t.requests.Keys);
    var joined := Joined(t, keys);
    forall k | 0 <= k < |joined|
      ensures joined[k].request.Some?
    {
      JoinedRequests(t, keys, joined[k]);
    }
    RequestsFirst(joined, OrphanPairs(t), i, j);
  }

  lemma {:induction false} RequestFramesNone(ps: seq<HttpPair>)
    requires forall i :: 0 <= i < |ps| ==> ps[i].request.None?
    ensures RequestFrames(ps) == []
  {
    if ps != [] {
      RequestFramesNone(ps[1..]);
    }
  }

  /** A sequence of `n` copies of `v` counts `n` for `v` and 0 for anything else. */
  lemma {:induction false} ConstantCount(s: seq<int>, v: int, x: int)
    requires forall i :: 0 <= i < |s| ==> s[i] == v
    ensures multiset(s)[x] == if x == v then |s| else 0
  {
    if s != [] {
      ConstantCount(s[1..], v, x);
      assert s == [s[0]] + s[1..];
    }
  }

  lemma {:induction false} JoinedRequestCount(t: Tables, keys: seq<int>, x: int)
    requires forall i :: 0 <= i < |keys| ==> keys[i] in t.requests
    requires Ingest.KeyedBy(t.requests, Ingest.RequestFrame)
    requires Increasing(keys)
    ensures multiset(RequestFrames(Joined(t, keys)))[x] == if x in keys then RowsOf(t, x) else 0
  {
    if keys != [] {
      var head := RequestFrames(PairsOf(t, keys[0]));
      var tail := RequestFrames(Joined(t, keys[1..]));
      JoinedRequestCount(t, keys[1..], x);
      PairsOfRequestFrames(t, keys[0]);
      ConstantCount(head, keys[0], x);
      ConcatMapAppend(PairsOf(t, keys[0]), Joined(t, keys[1..]), RequestFrameOf);
      assert RequestFrames(Joined(t, keys)) == head + tail;
      assert multiset(head + tail)[x] == multiset(head)[x] + multiset(tail)[x];
      HeadNotInTail(keys, x);
    }
  }

  /** In an increasing sequence the head occurs once. */
  lemma HeadNotInTail(keys: seq<int>, x: int)
    requires keys != [] && Increasing(keys)
    ensures x in keys <==> x == keys[0] || x in keys[1..]
    ensures x == keys[0] ==> x !in keys[1..]
  {
    assert keys == [keys[0]] + keys[1..];
    if x == keys[0] {
      forall j | 0 <= j < |keys[1..]|
        ensures keys[1..][j] != x
      {
        assert keys[1..][j] == keys[j + 1];
      }
    }
  }

  /**
   * Each stored request is yielded once per response answering it, or once
   * alone when none does; no other request frame is yielded.
   */
  lemma RequestMultiplicity(t: Tables, x: int)
    requires Ingest.KeyedBy(t.requests, Ingest.RequestFrame)
    ensures multiset(RequestFrames(Pairs(t)))[x] == if x in t.requests then RowsOf(t, x) else 0
  {
    var keys := Ascending(t.requests.Keys);
    var joined := Joined(t, keys);
    var orphans := OrphanPairs(t);
    JoinedRequestCount(t, keys, x);
    ConcatMapAppend(joined, orphans, RequestFrameOf);
    RequestFramesNone(orphans);
    assert RequestFrames(joined + orphans) == RequestFrames(joined) + [];
  }

  /** For tables built by ingest: every response once, requests in ascending frame. */
  lemma IngestedPairs(rows: seq<seq<string>>, lib: Library)
    ensures NoDuplicates(ResponseFrames(Pairs(Ingest.Ingest(rows, lib))))
    ensures forall f :: f in ResponseFrames(Pairs(Ingest.Ingest(rows, lib))) <==> f in Ingest.Ingest(rows, lib).responses
    ensures NonDecreasing(RequestFrames(Pairs(Ingest.Ingest(rows, lib))))
    ensures forall k :: k in Ingest.Ingest(rows, lib).requests ==>
              multiset(RequestFrames(Pairs(Ingest.Ingest(rows, lib))))[k] == RowsOf(Ingest.Ingest(rows, lib), k)
  {
    var t := Ingest.Ingest(rows, lib);
    Ingest.IngestKeyed(rows, lib);
    EachResponseOnce(t);
    RequestsAscend(t);
    forall k | k in t.requests
      ensures multiset(RequestFrames(Pairs(t)))[k] == RowsOf(t, k)
    {
      RequestMultiplicity(t, k);
    }
  }
}

=== FILE: sorting.dfy ===
/**
 * Python's stable `list.sort(key=...)` and `sorted(..., key=...)` on an
 * integer key, as an insertion sort. Stability is stated through
 * `WithKey`: the elements of any one key value keep their relative order.
 * A descending sort (`reverse=True`, which Python also keeps stable) is an
 * ascending sort on the negated key.
 */
module Sorting {

  predicate SortedBy<T>(s: seq<T>, key: T -> int)
  {
    forall i, j :: 0 <= i < j < |s| ==> key(s[i]) <= key(s[j])
  }

  /** The elements of `s` whose key is `v`, in order. */
  function WithKey<T>(s: seq<T>, key: T -> int, v: int): seq<T>
  {
    if s == [] then [] else (if key(s[0]) == v then [s[0]] else []) + WithKey(s[1..], key, v)
  }

  /** `x` placed before the first element whose key is not below its own. */
  function Insert<T>(x: T, s: seq<T>, key: T -> int): seq<T>
  {
    if s == [] || key(x) <= key(s[0]) then [x] + s else [s[0]] + Insert(x, s[1..], key)
  }

  function SortBy<T>(s: seq<T>, key: T -> int): seq<T>
  {
    if s == [] then [] else Insert(s[0], SortBy(s[1..], key), key)
  }

  lemma {:induction false} InsertPermutes<T>(x: T, s: seq<T>, key: T -> int)
    ensures |Insert(x, s, key)| == |s| + 1
    ensures multiset(Insert(x, s, key)) == multiset(s) + multiset{x}
  {
    if s != [] && key(x) > key(s[0]) {
      InsertPermutes(x, s[1..], key);
      assert s == [s[0]] + s[1..];
    }
  }

  lemma {:induction false} InsertFacts<T>(x: T, s: seq<T>, key: T -> int)
    requires SortedBy(s, key)
    ensures |Insert(x, s, key)| == |s| + 1
    ensures multiset(Insert(x, s, key)) == multiset(s) + multiset{x}
    ensures SortedBy(Insert(x, s, key), key)
  {
    InsertPermutes(x, s, key);
    if s != [] && key(x) > key(s[0]) {
      var rest := Insert(x, s[1..], key);
      InsertFacts(x, s[1..], key);
      forall j | 0 <= j < |rest|
        ensures key(s[0]) <= key(rest[j])
      {
        assert rest[j] in multiset(s[1..]) + multiset{x};
        if rest[j] != x {
          var k :| 0 <= k < |s[1..]| && s[1..][k] == rest[j];
          assert s[k + 1] == rest[j];
        }
      }
      HeadThenSorted(s[0], rest, key);
    }
  }

  lemma HeadThenSorted<T>(x: T, s: seq<T>, key: T -> int)
    requires SortedBy(s, key)
    requires forall j :: 0 <= j < |s| ==> key(x) <= key(s[j])
    ensures SortedBy([x] + s, key)
  {
    forall i, j | 0 <= i < j < |[x] + s|
      ensures key(([x] + s)[i]) <= key(([x] + s)[j])
    {
      assert ([x] + s)[j] == s[j - 1];
      if i > 0 {
        assert ([x] + s)[i] == s[i - 1];
      }
    }
  }

  lemma {:induction false} InsertWithKey<T>(x: T, s: seq<T>, key: T -> int, v: int)
    requires SortedBy(s, key)
    ensures WithKey(Insert(x, s, key), key, v) == (if key(x) == v then [x] else []) + WithKey(s, key, v)
  {
    if s == [] || key(x) <= key(s[0]) {
      assert ([x] + s)[1..] == s;
    } else {
      var rest := Insert(x, s[1..], key);
      InsertWithKey(x, s[1..], key, v);
      assert ([s[0]] + rest)[1..] == rest;
      var inserted := WithKey([s[0]] + rest, key, v);
      assert inserted == (if key(s[0]) == v then [s[0]] else []) + WithKey(rest, key, v);
      if key(x) == v {
        // every element before the insertion point has a key below key(x)
        assert key(s[0]) < v;
        assert inserted == [x] + WithKey(s[1..], key, v);
      } else {
        assert inserted == (if key(s[0]) == v then [s[0]] else []) + WithKey(s[1..], key, v);
      }
    }
  }

  lemma {:induction false} SortByPermutes<T>(s: seq<T>, key: T -> int)
    ensures |SortBy(s, key)| == |s|
    ensures multiset(SortBy(s, key)) == multiset(s)
  {
    if s != [] {
      var rest := SortBy(s[1..], key);
      SortByPermutes(s[1..], key);
      InsertPermutes(s[0], rest, key);
      assert s == [s[0]] + s[1..];
    }
  }

  lemma {:induction false} SortBySorted<T>(s: seq<T>, key: T -> int)
    ensures SortedBy(SortBy(s, key), key)
  {
    if s != [] {
      SortBySorted(s[1..], key);
      InsertFacts(s[0], SortBy(s[1..], key), key);
    }
  }

  lemma {:induction false} SortByStable<T>(s: seq<T>, key: T -> int, v: int)
    ensures WithKey(SortBy(s, key), key, v) == WithKey(s, key, v)
  {
    if s != [] {
      SortByStable(s[1..], key, v);
      SortBySorted(s[1..], key);
      InsertWithKey(s[0], SortBy(s[1..], key), key, v);
    }
  }

  /** The sort is an ordered, stable permutation of its input. */
  lemma SortByFacts<T>(s: seq<T>, key: T -> int)
    ensures |SortBy(s, key)| == |s|
    ensures SortedBy(SortBy(s, key), key)
    ensures multiset(SortBy(s, key)) == multiset(s)
    ensures forall v :: WithKey(SortBy(s, key), key, v) == WithKey(s, key, v)
  {
    SortByPermutes(s, key);
    SortBySorted(s, key);
    forall v
      ensures WithKey(SortBy(s, key), key, v) == WithKey(s, key, v)
    {
      SortByStable(s, key, v);
    }
  }

  /** Strictly increasing by the measure `m`. */
  predicate IncreasingBy<T>(s: seq<T>, m: T -> int)
  {
    forall i, j :: 0 <= i < j < |s| ==> m(s[i]) < m(s[j])
  }

  lemma {:induction false} WithKeyMember<T>(s: seq<T>, key: T -> int, v: int, x: T)
    requires x in WithKey(s, key, v)
    ensures x in s && key(x) == v
  {
    if s != [] && !(key(s[0]) == v && x == s[0]) {
      WithKeyMember(s[1..], key, v, x);
    }
  }

  /** Picking the elements of one key keeps any strict order of the sequence. */
  lemma {:induction false} WithKeyIncreasing<T>(s: seq<T>, key: T -> int, v: int, m: T -> int)
    requires IncreasingBy(s, m)
    ensures IncreasingBy(WithKey(s, key, v), m)
  {
    if s != [] {
      var rest := WithKey(s[1..], key, v);
      WithKeyIncreasing(s[1..], key, v, m);
      forall j | 0 <= j < |rest|
        ensures m(s[0]) < m(rest[j])
      {
        WithKeyMember(s[1..], key, v, rest[j]);
        var k :| 0 <= k < |s[1..]| && s[1..][k] == rest[j];
        assert s[k + 1] == rest[j];
      }
      if key(s[0]) == v {
        forall i, j | 0 <= i < j < |[s[0]] + rest|
          ensures m(([s[0]] + rest)[i]) < m(([s[0]] + rest)[j])
        {
          assert ([s[0]] + rest)[j] == rest[j - 1];
          if i > 0 {
            assert ([s[0]] + rest)[i] == rest[i - 1];
          }
        }
      }
    }
  }

  /** Where `r[j]` sits among the elements of its key. */
  lemma {:induction false} WithKeyIndex<T>(r: seq<T>, key: T -> int, j: nat) returns (c: nat)
    requires j < |r|
    ensures c < |WithKey(r, key, key(r[j]))| && WithKey(r, key, key(r[j]))[c] == r[j]
  {
    if j == 0 {
      c := 0;
    } else {
      var c' := WithKeyIndex(r[1..], key, j - 1);
      assert r[1..][j - 1] == r[j];
      c := if key(r[0]) == key(r[j]) then c' + 1 else c';
    }
  }

  /** Two elements of one key appear among the elements of that key in their order in `r`. */
  lemma {:induction false} WithKeyOrder<T>(r: seq<T>, key: T -> int, i: nat, j: nat) returns (a: nat, b: nat)
    requires i < j < |r| && key(r[i]) == key(r[j])
    ensures a < b < |WithKey(r, key, key(r[i]))|
    ensures WithKey(r, key, key(r[i]))[a] == r[i] && WithKey(r, key, key(r[i]))[b] == r[j]
  {
    var v := key(r[i]);
    assert r[1..][j - 1] == r[j];
    if i == 0 {
      var c := WithKeyIndex(r[1..], key, j - 1);
      a, b := 0, c + 1;
    } else {
      assert r[1..][i - 1] == r[i];
      var a', b' := WithKeyOrder(r[1..], key, i - 1, j - 1);
      if key(r[0]) == v {
        a, b := a' + 1, b' + 1;
      } else {
        a, b := a', b';
      }
    }
  }

  /**
   * Stability: after the sort, elements with equal keys keep any strict order
   * `m` that the input had.
   */
  lemma StableTies<T>(s: seq<T>, key: T -> int, m: T -> int, i: nat, j: nat)
    requires IncreasingBy(s, m)
    requires i < j < |SortBy(s, key)| && key(SortBy(s, key)[i]) == key(SortBy(s, key)[j])
    ensures m(SortBy(s, key)[i]) < m(SortBy(s, key)[j])
  {
    var r := SortBy(s, key);
    var v := key(r[i]);
    SortByStable(s, key, v);
    WithKeyIncreasing(s, key, v, m);
    var a, b := WithKeyOrder(r, key, i, j);
  }

  /** The first element of `s` with key `v` heads `WithKey(s, key, v)`. */
  lemma {:induction false} FirstWithKey<T>(s: seq<T>, key: T -> int, v: int) returns (p: nat)
    requires WithKey(s, key, v) != []
    ensures p < |s| && s[p] == WithKey(s, key, v)[0]
    ensures key(s[p]) == v && forall q :: 0 <= q < p ==> key(s[q]) != v
  {
    if key(s[0]) == v {
      p := 0;
    } else {
      var p' := FirstWithKey(s[1..], key, v);
      p := p' + 1;
      forall q | 0 <= q < p
        ensures key(s[q]) != v
      {
        if q > 0 {
          assert s[q] == s[1..][q - 1];
        }
      }
    }
  }

  /**
   * After a stable sort, the head is the FIRST element of the input with the
   * least key: what `buckets.sort(key=...); buckets[0]` selects.
   */
  lemma SortedHead<T>(s: seq<T>, key: T -> int) returns (p: nat)
    requires s != []
    ensures p < |s| && SortBy(s, key)[0] == s[p]
    ensures forall q :: 0 <= q < |s| ==> key(s[p]) <= key(s[q])
    ensures forall q :: 0 <= q < p ==> key(s[p]) < key(s[q])
  {
    var r := SortBy(s, key);
    SortByFacts(s, key);
    var v := key(r[0]);
    assert WithKey(r, key, v) != [] && WithKey(r, key, v)[0] == r[0];
    p := FirstWithKey(s, key, v);
    forall q | 0 <= q < |s|
      ensures v <= key(s[q])
    {
      assert s[q] in multiset(r);
      var j :| 0 <= j < |r| && r[j] == s[q];
      if j > 0 {
        assert key(r[0]) <= key(r[j]);
      }
    }
  }
}

=== FILE: splitter.dfy ===
/**
 * PcapSplitter (PcapSplitter.py): groups the TCP packets of a capture into
 * bidirectional flows, assigns the flows to a fixed number of buckets by the
 * greedy Longest-Processing-Time rule, and writes one capture per bucket.
 * Reading and decoding frames (dpkt) is abstracted into the `Packet` value;
 * writing keeps only what is written, in order.
 */
module Splitter {
  import opened Common
  import Text
  import Sorting

  /* ----------------------------------------------------------------------
   * Flow keys.
   * -------------------------------------------------------------------- */

  /** (ip.src, ip.dst, tcp.sport, tcp.dport): one direction of a TCP conversation. */
  datatype Endpoints = Endpoints(src: Bytes, dst: Bytes, sport: nat, dport: nat)

  /** Python's `<` on bytes: lexicographic, a proper prefix first. */
  predicate BytesLess(a: Bytes, b: Bytes)
  {
    if a == [] then b != []
    else if b == [] then false
    else a[0] < b[0] || (a[0] == b[0] && BytesLess(a[1..], b[1..]))
  }

  /** Python's `<` on the 4-tuples: the first differing field decides. */
  predicate KeyLess(k1: Endpoints, k2: Endpoints)
  {
    BytesLess(k1.src, k2.src) ||
    (k1.src == k2.src && (BytesLess(k1.dst, k2.dst) ||
    (k1.dst == k2.dst && (k1.sport < k2.sport || (k1.sport == k2.sport && k1.dport < k2.dport)))))
  }

  lemma {:induction false} BytesLessIrreflexive(a: Bytes)
    ensures !BytesLess(a, a)
  {
    if a != [] {
      BytesLessIrreflexive(a[1..]);
    }
  }

  lemma {:induction false} BytesLessAsymmetric(a: Bytes, b: Bytes)
    ensures !(BytesLess(a, b) && BytesLess(b, a))
  {
    if a != [] && b != [] {
      BytesLessAsymmetric(a[1..], b[1..]);
    }
  }

  lemma {:induction false} BytesLessTotal(a: Bytes, b: Bytes)
    ensures a == b || BytesLess(a, b) || BytesLess(b, a)
  {
    if a != [] && b != [] && a[0] == b[0] {
      BytesLessTotal(a[1..], b[1..]);
      if a[1..] == b[1..] {
        assert a == [a[0]] + a[1..] && b == [b[0]] + b[1..];
      }
    }
  }

  /** `KeyLess` is a strict total order, as Python's tuple comparison is. */
  lemma KeyLessOrder(k1: Endpoints, k2: Endpoints)
    ensures !KeyLess(k1, k1)
    ensures !(KeyLess(k1, k2) && KeyLess(k2, k1))
    ensures k1 == k2 || KeyLess(k1, k2) || KeyLess(k2, k1)
  {
    BytesLessIrreflexive(k1.src);
    BytesLessIrreflexive(k1.dst);
    BytesLessAsymmetric(k1.src, k2.src);
    BytesLessAsymmetric(k1.dst, k2.dst);
    BytesLessTotal(k1.src, k2.src);
    BytesLessTotal(k1.dst, k2.dst);
  }

  /** The same conversation seen from the other side. */
  function Reverse(e: Endpoints): Endpoints
  {
    Endpoints(e.dst, e.src, e.dport, e.sport)
  }

  /** get_stream_key: the smaller of the two orientations. */
  function StreamKey(e: Endpoints): (k: Endpoints)
    ensures k == e || k == Reverse(e)
    ensures !KeyLess(e, k) && !KeyLess(Reverse(e), k)
  {
    KeyLessOrder(e, Reverse(e));
    if KeyLess(e, Reverse(e)) then e else Reverse(e)
  }

  /** Both directions of a conversation share one key. */
  lemma StreamKeySymmetric(e: Endpoints)
    ensures StreamKey(Reverse(e)) == StreamKey(e)
  {
    assert Reverse(Reverse(e)) == e;
    KeyLessOrder(e, Reverse(e));
  }

  /* ----------------------------------------------------------------------
   * Packets and flows.
   * -------------------------------------------------------------------- */

  /**
   * A record of the capture: its timestamp, its frame bytes, and its
   * endpoints when it decodes as Ethernet/IPv4/TCP (None when it does not,
   * or when decoding raised).
   */
  datatype Packet = Packet(ts: real, data: Bytes, tcp: Option<Endpoints>)

  /** streams[key] with its key: the packets of one conversation, in capture order. */
  datatype Flow = Flow(key: Endpoints, packets: seq<Packet>)

  function Len(p: Packet): int { |p.data| }

  function PacketsOf(f: Flow): seq<Packet> { f.packets }

  /** stream_sizes[key]: the bytes of a flow's frames. */
  function FlowSize(f: Flow): int
  {
    SumBy(f.packets, Len)
  }

  /** The packet if it is grouped, nothing otherwise. */
  function TcpOnly(p: Packet): seq<Packet>
  {
    if p.tcp.Some? then [p] else []
  }

  /** The packets the grouping loop keeps, in capture order. */
  function TcpPackets(ps: seq<Packet>): seq<Packet>
  {
    ConcatMap(ps, TcpOnly)
  }

  /** Whether `p` belongs to the flow keyed `k`. */
  predicate InFlow(p: Packet, k: Endpoints)
  {
    p.tcp.Some? && StreamKey(p.tcp.value) == k
  }

  /** The packets of `ps` that belong to the flow keyed `k`, in capture order. */
  function FlowPackets(ps: seq<Packet>, k: Endpoints): seq<Packet>
  {
    if ps == [] then [] else (if InFlow(ps[0], k) then [ps[0]] else []) + FlowPackets(ps[1..], k)
  }

  lemma {:induction false} FlowPacketsSnoc(ps: seq<Packet>, p: Packet, k: Endpoints)
    ensures FlowPackets(ps + [p], k) == FlowPackets(ps, k) + (if InFlow(p, k) then [p] else [])
  {
    if ps == [] {
      assert [] + [p] == [p] && [p][1..] == [];
    } else {
      assert (ps + [p])[1..] == ps[1..] + [p];
      FlowPacketsSnoc(ps[1..], p, k);
    }
  }

  /** The position of the flow keyed `k`, or |flows| when there is none. */
  function FindFlow(flows: seq<Flow>, k: Endpoints): (i: nat)
    ensures i <= |flows|
    ensures i < |flows| ==> flows[i].key == k
    ensures forall j :: 0 <= j < i ==> flows[j].key != k
  {
    if flows == [] then 0
    else if flows[0].key == k then 0
    else 1 + FindFlow(flows[1..], k)
  }

  /** One iteration of the reading loop: `streams[key].append((ts, buf))`. */
  function AddPacket(flows: seq<Flow>, p: Packet): seq<Flow>
  {
    match p.tcp
    case None => flows
    case Some(e) =>
      var k := StreamKey(e);
      var i := FindFlow(flows, k);
      if i < |flows| then flows[i := Flow(k, flows[i].packets + [p])]
      else flows + [Flow(k, [p])]
  }

  /** The flows of a capture, in the order their first packet was read. */
  function Group(ps: seq<Packet>): seq<Flow>
  {
    if ps == [] then [] else AddPacket(Group(ps[..|ps| - 1]), ps[|ps| - 1])
  }

  predicate DistinctKeys(flows: seq<Flow>)
  {
    forall i, j :: 0 <= i < j < |flows| ==> flows[i].key != flows[j].key
  }

  /** What the grouping loop maintains about the packets read so far. */
  predicate GroupsOf(flows: seq<Flow>, ps: seq<Packet>)
  {
    && DistinctKeys(flows)
    && (forall i :: 0 <= i < |flows| ==> flows[i].packets != [] && flows[i].packets == FlowPackets(ps, flows[i].key))
    && (forall j :: 0 <= j < |ps| && ps[j].tcp.Some? ==> exists i :: 0 <= i < |flows| && flows[i].key == StreamKey(ps[j].tcp.value))
  }

  lemma AddPacketGroups(flows: seq<Flow>, ps: seq<Packet>, p: Packet)
    requires GroupsOf(flows, ps)
    ensures GroupsOf(AddPacket(flows, p), ps + [p])
  {
    AddPacketDistinct(flows, p);
    AddPacketCovers(flows, ps, p);
    AddPacketContents(flows, ps, p);
  }

  lemma AddPacketDistinct(flows: seq<Flow>, p: Packet)
    requires DistinctKeys(flows)
    ensures DistinctKeys(AddPacket(flows, p))
    ensures forall i :: 0 <= i < |flows| ==> AddPacket(flows, p)[i].key == flows[i].key
    ensures |AddPacket(flows, p)| == |flows| || |AddPacket(flows, p)| == |flows| + 1
  {
  }

  lemma AddPacketCovers(flows: seq<Flow>, ps: seq<Packet>, p: Packet)
    requires GroupsOf(flows, ps)
    ensures forall j :: 0 <= j < |ps + [p]| && (ps + [p])[j].tcp.Some? ==>
              exists i :: 0 <= i < |AddPacket(flows, p)| && AddPacket(flows, p)[i].key == StreamKey((ps + [p])[j].tcp.value)
  {
    var flows' := AddPacket(flows, p);
    AddPacketDistinct(flows, p);
    forall j | 0 <= j < |ps + [p]| && (ps + [p])[j].tcp.Some?
      ensures exists i :: 0 <= i < |flows'| && flows'[i].key == StreamKey((ps + [p])[j].tcp.value)
    {
      if j < |ps| {
        assert (ps + [p])[j] == ps[j];
        var i :| 0 <= i < |flows| && flows[i].key == StreamKey(ps[j].tcp.value);
        assert flows'[i].key == flows[i].key;
      } else {
        var i := FindFlow(flows, StreamKey(p.tcp.value));
        assert flows'[i].key == StreamKey(p.tcp.value);
      }
    }
  }

  lemma AddPacketContents(flows: seq<Flow>, ps: seq<Packet>, p: Packet)
    requires GroupsOf(flows, ps)
    ensures forall i :: 0 <= i < |AddPacket(flows, p)| ==>
              AddPacket(flows, p)[i].packets != [] && AddPacket(flows, p)[i].packets == FlowPackets(ps + [p], AddPacket(flows, p)[i].key)
  {
    var flows' := AddPacket(flows, p);
    forall i | 0 <= i < |flows'|
      ensures flows'[i].packets != [] && flows'[i].packets == FlowPackets(ps + [p], flows'[i].key)
    {
      var k := flows'[i].key;
      FlowPacketsSnoc(ps, p, k);
      if p.tcp.Some? && i == FindFlow(flows, StreamKey(p.tcp.value)) && i == |flows| {
        assert FlowPackets(ps, k) == [] by {
          if FlowPackets(ps, k) != [] {
            var j := FlowPacketsMember(ps, k);
          }
        }
      }
    }
  }

  /** A non-empty FlowPackets comes from some packet of that flow. */
  lemma {:induction false} FlowPacketsMember(ps: seq<Packet>, k: Endpoints) returns (j: nat)
    requires FlowPackets(ps, k) != []
    ensures j < |ps| && InFlow(ps[j], k)
  {
    if InFlow(ps[0], k) {
      j := 0;
    } else {
      var j' := FlowPacketsMember(ps[1..], k);
      j := j' + 1;
    }
  }

  /** Group returns distinct flows, each holding exactly its packets in capture order, covering every TCP packet. */
  lemma {:induction false} GroupFacts(ps: seq<Packet>)
    ensures GroupsOf(Group(ps), ps)
  {
    if ps != [] {
      var prefix := ps[..|ps| - 1];
      GroupFacts(prefix);
      AddPacketGroups(Group(prefix), prefix, ps[|ps| - 1]);
      assert prefix + [ps[|ps| - 1]] == ps;
    }
  }

  /** The position of the first packet of the flow keyed `k`, or |ps| when it has none. */
  function FirstAt(ps: seq<Packet>, k: Endpoints): (i: nat)
    ensures i <= |ps|
    ensures i < |ps| ==> InFlow(ps[i], k)
    ensures forall j :: 0 <= j < i ==> !InFlow(ps[j], k)
  {
    if ps == [] then 0
    else if InFlow(ps[0], k) then 0
    else
      var rest := FirstAt(ps[1..], k);
      assert forall j :: 1 <= j <= rest ==> ps[j] == ps[1..][j - 1];
      1 + rest
  }

  /** Reading one more packet keeps an earlier first position, and may set a missing one. */
  lemma FirstAtSnoc(ps: seq<Packet>, p: Packet, k: Endpoints)
    ensures FirstAt(ps + [p], k) ==
              if FirstAt(ps, k) < |ps| then FirstAt(ps, k) else if InFlow(p, k) then |ps| else |ps| + 1
  {
    assert forall j :: 0 <= j < |ps| ==> (ps + [p])[j] == ps[j];
    assert (ps + [p])[|ps|] == p;
  }

  /**
   * Group lists the flows in the order their first packet was read: the
   * insertion order of the `streams` dict.
   */
  lemma {:induction false} GroupFirstSeen(ps: seq<Packet>)
    ensures forall i :: 0 <= i < |Group(ps)| ==> FirstAt(ps, Group(ps)[i].key) < |ps|
    ensures forall i, j :: 0 <= i < j < |Group(ps)| ==> FirstAt(ps, Group(ps)[i].key) < FirstAt(ps, Group(ps)[j].key)
  {
    if ps != [] {
      var prefix := ps[..|ps| - 1];
      var p := ps[|ps| - 1];
      assert prefix + [p] == ps;
      var flows := Group(prefix);
      var grown := Group(ps);
      assert grown == AddPacket(flows, p);
      GroupFirstSeen(prefix);
      GroupFacts(prefix);
      AddPacketDistinct(flows, p);
      forall i | 0 <= i < |grown|
        ensures FirstAt(ps, grown[i].key) < |ps|
        ensures i < |flows| ==> FirstAt(ps, grown[i].key) == FirstAt(prefix, flows[i].key)
        ensures i == |flows| ==> FirstAt(ps, grown[i].key) == |prefix|
      {
        var k := grown[i].key;
        FirstAtSnoc(prefix, p, k);
        if i == |flows| {
          NewFlowUnseen(flows, prefix, p);
        }
      }
    }
  }

  /** The flow a packet opens had no packet among those read before it. */
  lemma NewFlowUnseen(flows: seq<Flow>, ps: seq<Packet>, p: Packet)
    requires GroupsOf(flows, ps) && |AddPacket(flows, p)| > |flows|
    ensures p.tcp.Some? && AddPacket(flows, p)[|flows|].key == StreamKey(p.tcp.value)
    ensures FirstAt(ps, StreamKey(p.tcp.value)) == |ps|
  {
    var k := StreamKey(p.tcp.value);
    assert forall i :: 0 <= i < |flows| ==> flows[i].key != k;
    assert forall m :: 0 <= m < |ps| ==> !InFlow(ps[m], k);
  }

  lemma TcpPacketsSnoc(ps: seq<Packet>, p: Packet)
    ensures TcpPackets(ps + [p]) == TcpPackets(ps) + TcpOnly(p)
  {
    ConcatMapAppend(ps, [p], TcpOnly);
    assert ConcatMap([p], TcpOnly) == TcpOnly(p) + ConcatMap([p][1..], TcpOnly);
  }

  lemma AddPacketConserves(flows: seq<Flow>, p: Packet)
    ensures multiset(ConcatMap(AddPacket(flows, p), PacketsOf)) == multiset(ConcatMap(flows, PacketsOf)) + multiset(TcpOnly(p))
  {
    if p.tcp.Some? {
      var k := StreamKey(p.tcp.value);
      var i := FindFlow(flows, k);
      if i < |flows| {
        var grown := Flow(k, flows[i].packets + [p]);
        assert AddPacket(flows, p) == flows[i := grown];
        ConcatMapUpdate(flows, i, grown, PacketsOf);
        var before, after := multiset(ConcatMap(flows, PacketsOf)), multiset(ConcatMap(flows[i := grown], PacketsOf));
        var earlier := multiset(flows[i].packets);
        assert after + earlier == (before + multiset{p}) + earlier;
        MultisetCancel(after, before + multiset{p}, earlier);
      } else {
        var added := Flow(k, [p]);
        ConcatMapAppend(flows, [added], PacketsOf);
        assert ConcatMap([added], PacketsOf) == [p] + ConcatMap([added][1..], PacketsOf);
      }
    }
  }

  /** Every grouped packet is in exactly one flow: the flows' packets are a permutation of the TCP packets. */
  lemma {:induction false} GroupConserves(ps: seq<Packet>)
    ensures multiset(ConcatMap(Group(ps), PacketsOf)) == multiset(TcpPackets(ps))
  {
    if ps != [] {
      var prefix, p := ps[..|ps| - 1], ps[|ps| - 1];
      GroupConserves(prefix);
      assert prefix + [p] == ps;
      TcpPacketsSnoc(prefix, p);
      AddPacketConserves(Group(prefix), p);
    }
  }

  /** There are no flows exactly when no packet is Ethernet/IPv4/TCP. */
  lemma GroupEmpty(ps: seq<Packet>)
    ensures Group(ps) == [] <==> TcpPackets(ps) == []
  {
    GroupConserves(ps);
    GroupFacts(ps);
    var flows := Group(ps);
    if flows != [] {
      assert ConcatMap(flows, PacketsOf) == flows[0].packets + ConcatMap(flows[1..], PacketsOf);
      assert flows[0].packets[0] in multiset(TcpPackets(ps));
    }
  }

  /** The flow sizes add up to the bytes of the TCP packets. */
  lemma GroupBytes(ps: seq<Packet>)
    ensures SumBy(Group(ps), FlowSize) == SumBy(TcpPackets(ps), Len)
  {
    GroupConserves(ps);
    SumByConcatMap(Group(ps), PacketsOf, Len, FlowSize);
    SumByPermutation(ConcatMap(Group(ps), PacketsOf), TcpPackets(ps), Len);
  }

  /* ----------------------------------------------------------------------
   * Greedy LPT assignment.
   * -------------------------------------------------------------------- */

  /** [current_size, batch_index, list_of_keys]; the list holds the flows themselves. */
  datatype Bucket = Bucket(total: int, index: nat, flows: seq<Flow>)

  function TotalOf(b: Bucket): int { b.total }

  function IndexOf(b: Bucket): int { b.index }

  function FlowsOf(b: Bucket): seq<Flow> { b.flows }

  /** The sort key of `sorted(..., key=size, reverse=True)`. */
  function NegSize(f: Flow): int { -FlowSize(f) }

  /** sorted_streams: the flows by non-increasing size, ties in the order of `flows`. */
  function BySizeDescending(flows: seq<Flow>): (order: seq<Flow>)
    ensures multiset(order) == multiset(flows)
    ensures forall i, j :: 0 <= i < j < |order| ==> FlowSize(order[i]) >= FlowSize(order[j])
    ensures forall v :: Sorting.WithKey(order, NegSize, v) == Sorting.WithKey(flows, NegSize, v)
  {
    Sorting.SortByFacts(flows, NegSize);
    Sorting.SortBy(flows, NegSize)
  }

  /**
   * sorted_streams of a capture: flows of equal size come in the order their
   * first packet was read.
   */
  lemma SortedStreamsFirstSeen(ps: seq<Packet>, i: nat, j: nat)
    requires i < j < |BySizeDescending(Group(ps))|
    requires FlowSize(BySizeDescending(Group(ps))[i]) == FlowSize(BySizeDescending(Group(ps))[j])
    ensures FirstAt(ps, BySizeDescending(Group(ps))[i].key) < FirstAt(ps, BySizeDescending(Group(ps))[j].key)
  {
    var seen := (f: Flow) => FirstAt(ps, f.key);
    GroupFirstSeen(ps);
    assert Sorting.IncreasingBy(Group(ps), seen);
    Sorting.StableTies(Group(ps), NegSize, seen, i, j);
  }

  /** `[[0, i, []] for i in range(n)]` */
  function Initial(n: nat): (buckets: seq<Bucket>)
    ensures |buckets| == n && forall i :: 0 <= i < n ==> buckets[i] == Bucket(0, i, [])
  {
    seq(n, i requires 0 <= i < n => Bucket(0, i, []))
  }

  /** The starting buckets are numbered 0 .. n-1, hold no flow, and are trivially balanced. */
  lemma InitialFacts(n: nat)
    ensures Indices(Initial(n)) == Range(n)
    ensures Assigned(Initial(n)) == []
    ensures Consistent(Initial(n)) && Balanced(Initial(n), 0)
  {
    EmptyBuckets(Initial(n));
  }

  /** One iteration of the assignment loop: the smallest bucket, after a stable re-sort, takes the flow. */
  function Place(buckets: seq<Bucket>, f: Flow): (r: seq<Bucket>)
    requires buckets != []
    ensures |r| == |buckets|
  {
    Sorting.SortByPermutes(buckets, TotalOf);
    var sorted := Sorting.SortBy(buckets, TotalOf);
    var smallest := sorted[0];
    [Bucket(smallest.total + FlowSize(f), smallest.index, smallest.flows + [f])] + sorted[1..]
  }

  /** The assignment loop over `flows`, in order. */
  function Assign(buckets: seq<Bucket>, flows: seq<Flow>): (r: seq<Bucket>)
    requires buckets != [] || flows == []
    ensures |r| == |buckets|
    decreases |flows|
  {
    if flows == [] then buckets else Assign(Place(buckets, flows[0]), flows[1..])
  }

  /**
   * The flow goes to the first bucket, in the current list order, whose total
   * is least; that total grows by the flow's size; the other buckets stay.
   */
  lemma PlaceChooses(buckets: seq<Bucket>, f: Flow) returns (p: nat)
    requires buckets != []
    ensures p < |buckets|
    ensures Place(buckets, f)[0] == Bucket(buckets[p].total + FlowSize(f), buckets[p].index, buckets[p].flows + [f])
    ensures forall q :: 0 <= q < |buckets| ==> buckets[p].total <= buckets[q].total
    ensures forall q :: 0 <= q < p ==> buckets[p].total < buckets[q].total
    ensures multiset(Place(buckets, f)[1..]) + multiset{buckets[p]} == multiset(buckets)
  {
    var sorted := Sorting.SortBy(buckets, TotalOf);
    p := Sorting.SortedHead(buckets, TotalOf);
    Sorting.SortByPermutes(buckets, TotalOf);
    assert sorted == [sorted[0]] + sorted[1..];
    assert Place(buckets, f)[1..] == sorted[1..];
  }

  /** The batch indices of the buckets, in list order. */
  function Indices(buckets: seq<Bucket>): seq<int>
  {
    MapSeq(buckets, IndexOf)
  }

  /** The flows assigned so far, bucket by bucket. */
  function Assigned(buckets: seq<Bucket>): seq<Flow>
  {
    ConcatMap(buckets, FlowsOf)
  }

  /** Every bucket's running total is the size of the flows it holds. */
  predicate Consistent(buckets: seq<Bucket>)
  {
    forall b :: b in buckets ==> b.total == SumBy(b.flows, FlowSize)
  }

  /** No two totals differ by more than `bound`. */
  predicate Balanced(buckets: seq<Bucket>, bound: int)
  {
    forall a, b :: a in buckets && b in buckets ==> a.total - b.total <= bound
  }

  lemma PlaceIndices(buckets: seq<Bucket>, f: Flow)
    requires buckets != []
    ensures multiset(Indices(Place(buckets, f))) == multiset(Indices(buckets))
  {
    var sorted := Sorting.SortBy(buckets, TotalOf);
    Sorting.SortByPermutes(buckets, TotalOf);
    assert Indices(Place(buckets, f)) == Indices(sorted);
    MapSeqPermutation(sorted, buckets, IndexOf);
  }

  lemma PlaceAssigned(buckets: seq<Bucket>, f: Flow)
    requires buckets != []
    ensures multiset(Assigned(Place(buckets, f))) == multiset(Assigned(buckets)) + multiset{f}
  {
    var sorted := Sorting.SortBy(buckets, TotalOf);
    Sorting.SortByPermutes(buckets, TotalOf);
    var r := Place(buckets, f);
    assert Assigned(r) == (sorted[0].flows + [f]) + Assigned(sorted[1..]);
    assert Assigned(sorted) == sorted[0].flows + Assigned(sorted[1..]);
    ConcatMapPermutation(sorted, buckets, FlowsOf);
  }

  lemma PlaceConsistent(buckets: seq<Bucket>, f: Flow)
    requires buckets != [] && Consistent(buckets)
    ensures Consistent(Place(buckets, f))
  {
    var p := PlaceChooses(buckets, f);
    var r := Place(buckets, f);
    SumByAppend(buckets[p].flows, [f], FlowSize);
    assert SumBy([f], FlowSize) == FlowSize(f) + SumBy([f][1..], FlowSize);
    forall b | b in r
      ensures b.total == SumBy(b.flows, FlowSize)
    {
      if b != r[0] {
        PlaceOthers(buckets, f, p, b);
      }
    }
  }

  /** Placing into a least bucket keeps the spread within any bound the flow's size respects. */
  lemma PlaceBalanced(buckets: seq<Bucket>, f: Flow, bound: int)
    requires buckets != [] && Balanced(buckets, bound) && FlowSize(f) <= bound
    ensures Balanced(Place(buckets, f), bound)
  {
    var p := PlaceChooses(buckets, f);
    var r := Place(buckets, f);
    SumByNonNegative(f.packets);
    assert buckets[p] in buckets;
    forall a, b | a in r && b in r
      ensures a.total - b.total <= bound
    {
      if a != r[0] {
        PlaceOthers(buckets, f, p, a);
      }
      if b != r[0] {
        PlaceOthers(buckets, f, p, b);
      }
    }
  }

  /** After placing, every bucket but the grown one was already there, with a total no less than the least. */
  lemma PlaceOthers(buckets: seq<Bucket>, f: Flow, p: nat, b: Bucket)
    requires p < |buckets| && buckets != []
    requires forall q :: 0 <= q < |buckets| ==> buckets[p].total <= buckets[q].total
    requires multiset(Place(buckets, f)[1..]) + multiset{buckets[p]} == multiset(buckets)
    requires b in Place(buckets, f) && b != Place(buckets, f)[0]
    ensures b in buckets && buckets[p].total <= b.total
  {
    var r := Place(buckets, f);
    var k :| 0 <= k < |r| && r[k] == b;
    assert b == r[1..][k - 1];
    assert b in multiset(r[1..]);
    assert b in multiset(buckets);
    var q :| 0 <= q < |buckets| && buckets[q] == b;
  }

  lemma {:induction false} AssignIndices(buckets: seq<Bucket>, flows: seq<Flow>)
    requires buckets != [] || flows == []
    ensures multiset(Indices(Assign(buckets, flows))) == multiset(Indices(buckets))
    decreases |flows|
  {
    if flows != [] {
      PlaceIndices(buckets, flows[0]);
      AssignIndices(Place(buckets, flows[0]), flows[1..]);
    }
  }

  lemma {:induction false} AssignAssigned(buckets: seq<Bucket>, flows: seq<Flow>)
    requires buckets != [] || flows == []
    ensures multiset(Assigned(Assign(buckets, flows))) == multiset(Assigned(buckets)) + multiset(flows)
    decreases |flows|
  {
    if flows != [] {
      PlaceAssigned(buckets, flows[0]);
      AssignAssigned(Place(buckets, flows[0]), flows[1..]);
      assert flows == [flows[0]] + flows[1..];
    }
  }

  lemma {:induction false} AssignConsistent(buckets: seq<Bucket>, flows: seq<Flow>)
    requires (buckets != [] || flows == []) && Consistent(buckets)
    ensures Consistent(Assign(buckets, flows))
    decreases |flows|
  {
    if flows != [] {
      PlaceConsistent(buckets, flows[0]);
      AssignConsistent(Place(buckets, flows[0]), flows[1..]);
    }
  }

  lemma {:induction false} AssignBalanced(buckets: seq<Bucket>, flows: seq<Flow>, bound: int)
    requires (buckets != [] || flows == []) && Balanced(buckets, bound)
    requires forall i :: 0 <= i < |flows| ==> FlowSize(flows[i]) <= bound
    ensures Balanced(Assign(buckets, flows), bound)
    decreases |flows|
  {
    if flows != [] {
      PlaceBalanced(buckets, flows[0], bound);
      AssignBalanced(Place(buckets, flows[0]), flows[1..], bound);
    }
  }

  /** The size of the largest flow, 0 when there is none. */
  function Largest(flows: seq<Flow>): (m: int)
    ensures m >= 0 && forall i :: 0 <= i < |flows| ==> FlowSize(flows[i]) <= m
    ensures flows != [] ==> exists i :: 0 <= i < |flows| && FlowSize(flows[i]) == m
  {
    if flows == [] then 0
    else
      var rest := Largest(flows[1..]);
      SumByNonNegative(flows[0].packets);
      if FlowSize(flows[0]) >= rest then FlowSize(flows[0]) else rest
  }

  lemma {:induction false} SumByNonNegative(ps: seq<Packet>)
    ensures SumBy(ps, Len) >= 0
  {
    if ps != [] {
      SumByNonNegative(ps[1..]);
    }
  }

  /** The integers 0 .. n-1, in order. */
  function Range(n: nat): (r: seq<int>)
    ensures |r| == n && forall i :: 0 <= i < n ==> r[i] == i
  {
    seq(n, i requires 0 <= i < n => i)
  }

  lemma RangeMember(x: int, n: nat)
    requires x in multiset(Range(n))
    ensures 0 <= x < n
  {
    var i :| 0 <= i < n && Range(n)[i] == x;
  }

  /** The last element of an ordered rearrangement of 0 .. n-1 is n-1. */
  lemma SortedRangeLast(s: seq<int>, n: nat)
    requires n > 0 && |s| == n && multiset(s) == multiset(Range(n))
    requires forall i, j :: 0 <= i < j < n ==> s[i] <= s[j]
    ensures s[n - 1] == n - 1
  {
    assert Range(n)[n - 1] == n - 1;
    assert n - 1 in multiset(s);
    var j :| 0 <= j < n && s[j] == n - 1;
    RangeMember(s[n - 1], n);
  }

  /** An ordered rearrangement of 0 .. n-1 is 0 .. n-1 itself. */
  lemma {:induction false} SortedRange(s: seq<int>, n: nat)
    requires |s| == n && multiset(s) == multiset(Range(n))
    requires forall i, j :: 0 <= i < j < n ==> s[i] <= s[j]
    ensures forall i :: 0 <= i < n ==> s[i] == i
  {
    if n > 0 {
      var last := n - 1;
      var init := s[..last];
      SortedRangeLast(s, n);
      assert Range(n) == Range(last) + [last];
      assert s == init + [last];
      MultisetCancel(multiset(init), multiset(Range(last)), multiset{last});
      SortedRange(init, last);
      assert forall i :: 0 <= i < last ==> s[i] == init[i];
    }
  }

  /** The buckets after `buckets.sort(key=index)` are numbered 0, 1, 2, ... in list order. */
  lemma ByIndex(buckets: seq<Bucket>, n: nat)
    requires |buckets| == n && multiset(Indices(buckets)) == multiset(Range(n))
    ensures |Sorting.SortBy(buckets, IndexOf)| == n
    ensures forall i :: 0 <= i < n ==> Sorting.SortBy(buckets, IndexOf)[i].index == i
  {
    var sorted := Sorting.SortBy(buckets, IndexOf);
    Sorting.SortByPermutes(buckets, IndexOf);
    Sorting.SortBySorted(buckets, IndexOf);
    MapSeqPermutation(sorted, buckets, IndexOf);
    SortedRange(Indices(sorted), n);
  }

  /** The buckets after the whole greedy loop, for `n` buckets. */
  function Balance(flows: seq<Flow>, n: nat): (buckets: seq<Bucket>)
    requires n > 0
    ensures |buckets| == n
  {
    Assign(Initial(n), BySizeDescending(flows))
  }

  /**
   * The assignment loop as written: sort the buckets by total, grow the
   * first, once per flow in non-increasing size.
   */
  method GreedyBuckets(flows: seq<Flow>, n: nat) returns (buckets: seq<Bucket>)
    requires n > 0
    ensures buckets == Balance(flows, n)
  {
    var order := BySizeDescending(flows);
    buckets := Initial(n);
    var i := 0;
    while i < |order|
      invariant 0 <= i <= |order| && |buckets| == n
      invariant Assign(buckets, order[i..]) == Assign(Initial(n), order)
    {
      var grown := Place(buckets, order[i]);
      AssignStep(buckets, order, i);
      buckets := grown;
      i := i + 1;
    }
  }

  /** One turn of the assignment loop. */
  lemma AssignStep(buckets: seq<Bucket>, flows: seq<Flow>, i: nat)
    requires buckets != [] && i < |flows|
    ensures Assign(buckets, flows[i..]) == Assign(Place(buckets, flows[i]), flows[i + 1..])
  {
    assert flows[i..][0] == flows[i] && flows[i..][1..] == flows[i + 1..];
  }

  /** The buckets keep the batch indices 0 .. n-1, each once. */
  lemma BalanceIndices(flows: seq<Flow>, n: nat)
    requires n > 0
    ensures multiset(Indices(Balance(flows, n))) == multiset(Range(n))
  {
    var initial := Initial(n);
    assert Indices(initial) == Range(n);
    AssignIndices(initial, BySizeDescending(flows));
  }

  /** Every flow lands in exactly one bucket. */
  lemma BalanceShares(flows: seq<Flow>, n: nat)
    requires n > 0
    ensures multiset(Assigned(Balance(flows, n))) == multiset(flows)
  {
    var initial := Initial(n);
    EmptyBuckets(initial);
    AssignAssigned(initial, BySizeDescending(flows));
  }

  /** Each total is its bucket's bytes, and the totals add up to all flows' bytes. */
  lemma BalanceTotals(flows: seq<Flow>, n: nat)
    requires n > 0
    ensures Consistent(Balance(flows, n))
    ensures SumBy(Balance(flows, n), TotalOf) == SumBy(flows, FlowSize)
  {
    var initial := Initial(n);
    var buckets := Balance(flows, n);
    assert Consistent(initial);
    AssignConsistent(initial, BySizeDescending(flows));
    SumByConcatMap(buckets, FlowsOf, FlowSize, TotalOf);
    BalanceShares(flows, n);
    SumByPermutation(Assigned(buckets), flows, FlowSize);
  }

  /** No two bucket totals differ by more than the largest flow. */
  lemma BalanceSpread(flows: seq<Flow>, n: nat)
    requires n > 0
    ensures Balanced(Balance(flows, n), Largest(flows))
  {
    var order := BySizeDescending(flows);
    var initial := Initial(n);
    forall i | 0 <= i < |order|
      ensures FlowSize(order[i]) <= Largest(flows)
    {
      assert order[i] in multiset(flows);
    }
    assert Balanced(initial, Largest(flows));
    AssignBalanced(initial, order, Largest(flows));
  }

  lemma {:induction false} EmptyBuckets(buckets: seq<Bucket>)
    requires forall i :: 0 <= i < |buckets| ==> buckets[i].flows == []
    ensures Assigned(buckets) == []
  {
    if buckets != [] {
      EmptyBuckets(buckets[1..]);
    }
  }

  /* ----------------------------------------------------------------------
   * Writing the batches, and the whole split.
   * -------------------------------------------------------------------- */

  /** One generated capture: its file name and the records written to it, in order. */
  datatype BatchFile = BatchFile(name: string, packets: seq<Packet>)

  /** f"batch_{i}.pcap" */
  function BatchName(i: nat): string
  {
    "batch_" + Text.NatToString(i) + ".pcap"
  }

  /** Different batches get different file names. */
  lemma BatchNamesDistinct(i: nat, j: nat)
    requires i != j
    ensures BatchName(i) != BatchName(j)
  {
    if BatchName(i) == BatchName(j) {
      var a, b := BatchName(i), BatchName(j);
      assert a[6..|a| - 5] == Text.NatToString(i);
      assert b[6..|b| - 5] == Text.NatToString(j);
      Text.ParseUnsignedOfNatToString(i);
      Text.ParseUnsignedOfNatToString(j);
    }
  }

  /** The bucket's flows in assignment order, each flow's packets in capture order. */
  function Write(b: Bucket): BatchFile
  {
    BatchFile(BatchName(b.index), ConcatMap(b.flows, PacketsOf))
  }

  function FilePackets(f: BatchFile): seq<Packet> { f.packets }

  /** What split can raise instead of returning. */
  datatype SplitError =
    | FileNotFound   // the capture does not exist
    | NoBuckets      // IndexError from `buckets[0]` when default_chunks <= 0

  /** What split returns: `[pcap_file]` unchanged, or the generated batches in index order. */
  datatype Outcome = Unsplit | Batches(files: seq<BatchFile>)

  const MiB: nat := 1048576

  /** `getsize(...) / (1024 * 1024) < threshold_mb`, in exact arithmetic. */
  predicate BelowThreshold(size: nat, thresholdMb: int)
  {
    (size as real) / (MiB as real) < thresholdMb as real
  }

  /** The threshold in megabytes is a threshold of threshold_mb * 1048576 bytes. */
  lemma ThresholdInBytes(size: nat, thresholdMb: int)
    ensures BelowThreshold(size, thresholdMb) <==> size < thresholdMb * MiB
  {
    var m := MiB as real;
    assert (size as real) / m < thresholdMb as real <==> size as real < (thresholdMb as real) * m;
    assert (thresholdMb * MiB) as real == (thresholdMb as real) * m;
  }

  /**
   * PcapSplitter.split. `found` and `size` are what os.path reports for the
   * capture, `packets` its records as dpkt reads them.
   */
  function Split(found: bool, size: nat, packets: seq<Packet>, thresholdMb: int, defaultChunks: int): Result<Outcome, SplitError>
  {
    if !found then Err(FileNotFound)
    else if BelowThreshold(size, thresholdMb) then Ok(Unsplit)
    else
      var flows := Group(packets);
      if flows == [] then Ok(Batches([]))
      else
        var n := if defaultChunks < |flows| then defaultChunks else |flows|;
        if n <= 0 then Err(NoBuckets)
        else Ok(Batches(MapSeq(Sorting.SortBy(Balance(flows, n), IndexOf), Write)))
  }

  /** Which of the four early outcomes split takes, and when. */
  lemma SplitOutcomes(found: bool, size: nat, packets: seq<Packet>, thresholdMb: int, defaultChunks: int)
    ensures Split(found, size, packets, thresholdMb, defaultChunks) == Err(FileNotFound) <==> !found
    ensures Split(found, size, packets, thresholdMb, defaultChunks) == Ok(Unsplit) <==>
              found && size < thresholdMb * MiB
    ensures Split(found, size, packets, thresholdMb, defaultChunks) == Ok(Batches([])) <==>
              found && size >= thresholdMb * MiB && TcpPackets(packets) == []
    ensures Split(found, size, packets, thresholdMb, defaultChunks) == Err(NoBuckets) <==>
              found && size >= thresholdMb * MiB && TcpPackets(packets) != [] && defaultChunks <= 0
  {
    ThresholdInBytes(size, thresholdMb);
    GroupEmpty(packets);
  }

  /** The batches are numbered 0 .. n-1 in list order. */
  lemma BatchesNamed(flows: seq<Flow>, n: nat)
    requires n > 0
    ensures var files := MapSeq(Sorting.SortBy(Balance(flows, n), IndexOf), Write);
      |files| == n && forall i :: 0 <= i < n ==> files[i].name == BatchName(i)
  {
    BalanceIndices(flows, n);
    ByIndex(Balance(flows, n), n);
  }

  /** The batches hold the flows' packets, each exactly once. */
  lemma BatchesConserve(flows: seq<Flow>, n: nat)
    requires n > 0
    ensures multiset(ConcatMap(MapSeq(Sorting.SortBy(Balance(flows, n), IndexOf), Write), FilePackets)) ==
            multiset(ConcatMap(flows, PacketsOf))
  {
    var buckets := Sorting.SortBy(Balance(flows, n), IndexOf);
    var files := MapSeq(buckets, Write);
    Sorting.SortByPermutes(Balance(flows, n), IndexOf);
    WrittenPackets(buckets);
    ConcatMapConcatMap(buckets, FlowsOf, PacketsOf, BucketPackets);
    ConcatMapPermutation(buckets, Balance(flows, n), FlowsOf);
    BalanceShares(flows, n);
    ConcatMapPermutation(Assigned(buckets), flows, PacketsOf);
  }

  function BucketPackets(b: Bucket): seq<Packet>
  {
    ConcatMap(b.flows, PacketsOf)
  }

  lemma {:induction false} WrittenPackets(buckets: seq<Bucket>)
    ensures ConcatMap(MapSeq(buckets, Write), FilePackets) == ConcatMap(buckets, BucketPackets)
  {
    if buckets != [] {
      WrittenPackets(buckets[1..]);
      assert MapSeq(buckets, Write)[1..] == MapSeq(buckets[1..], Write);
    }
  }

  /** Each flow placed in a bucket holds exactly its own packets, in capture order. */
  lemma BucketFlowsInCaptureOrder(ps: seq<Packet>, n: nat, b: Bucket, f: Flow)
    requires n > 0 && b in Balance(Group(ps), n) && f in b.flows
    ensures f.packets == FlowPackets(ps, f.key) && f.packets != []
  {
    var flows := Group(ps);
    ConcatMapMember(Balance(flows, n), b, FlowsOf, f);
    BalanceShares(flows, n);
    assert f in multiset(flows);
    GroupFacts(ps);
    var i :| 0 <= i < |flows| && flows[i] == f;
  }

  /**
   * File `i` is batch_i.pcap and holds the flows of the bucket numbered `i`,
   * in the order they were assigned, each flow's packets in capture order.
   */
  lemma BatchFiles(ps: seq<Packet>, n: nat, i: nat) returns (b: Bucket)
    requires n > 0 && i < n
    ensures var files := MapSeq(Sorting.SortBy(Balance(Group(ps), n), IndexOf), Write);
      && |files| == n && b in Balance(Group(ps), n) && b.index == i
      && files[i] == BatchFile(BatchName(i), ConcatMap(b.flows, PacketsOf))
      && forall f :: f in b.flows ==> f.packets == FlowPackets(ps, f.key)
  {
    var buckets := Balance(Group(ps), n);
    var sorted := Sorting.SortBy(buckets, IndexOf);
    BalanceIndices(Group(ps), n);
    ByIndex(buckets, n);
    Sorting.SortByPermutes(buckets, IndexOf);
    b := sorted[i];
    assert b in multiset(buckets);
    forall f | f in b.flows
      ensures f.packets == FlowPackets(ps, f.key)
    {
      BucketFlowsInCaptureOrder(ps, n, b, f);
    }
  }

  /**
   * A split capture: min(default_chunks, #flows) files named batch_0.pcap,
   * batch_1.pcap, ... whose records, together, are exactly the TCP records
   * of the capture.
   */
  lemma SplitBatches(found: bool, size: nat, packets: seq<Packet>, thresholdMb: int, defaultChunks: int)
    requires found && size >= thresholdMb * MiB && TcpPackets(packets) != [] && defaultChunks > 0
    ensures Split(found, size, packets, thresholdMb, defaultChunks).Ok?
    ensures var outcome := Split(found, size, packets, thresholdMb, defaultChunks).value;
      && outcome.Batches?
      && |outcome.files| == (if defaultChunks < |Group(packets)| then defaultChunks else |Group(packets)|)
      && (forall i :: 0 <= i < |outcome.files| ==> outcome.files[i].name == BatchName(i))
      && multiset(ConcatMap(outcome.files, FilePackets)) == multiset(TcpPackets(packets))
  {
    ThresholdInBytes(size, thresholdMb);
    GroupEmpty(packets);
    var flows := Group(packets);
    var n := if defaultChunks < |flows| then defaultChunks else |flows|;
    BatchesNamed(flows, n);
    BatchesConserve(flows, n);
    GroupConserves(packets);
  }
}

=== FILE: text.dfy ===
/**
 * The Python text operations the record parsers depend on: str.isspace(),
 * str.split(sep) with a one-character separator, and int(s) in base 10.
 */
module Text {
  import opened Common
  import Numerals

  /** The characters for which Python's str.isspace() holds: what int() and str.strip() remove. */
  const Spaces: set<char> := {
    '\U{9}', '\U{A}', '\U{B}', '\U{C}', '\U{D}', '\U{1C}', '\U{1D}', '\U{1E}',
    '\U{1F}', '\U{20}', '\U{85}', '\U{A0}', '\U{1680}', '\U{2000}', '\U{2001}', '\U{2002}',
    '\U{2003}', '\U{2004}', '\U{2005}', '\U{2006}', '\U{2007}', '\U{2008}', '\U{2009}', '\U{200A}',
    '\U{2028}', '\U{2029}', '\U{202F}', '\U{205F}', '\U{3000}'}

  predicate IsDecimalDigit(c: char)
  {
    '0' <= c <= '9'
  }

  predicate AllDecimal(s: string)
  {
    s != [] && forall i :: 0 <= i < |s| ==> IsDecimalDigit(s[i])
  }

  /** The value of a decimal digit character (0 for any other character). */
  function DigitOf(c: char): nat
  {
    if IsDecimalDigit(c) then c as int - '0' as int else 0
  }

  function DigitChar(d: nat): char
    requires d < 10
  {
    ('0' as int + d) as char
  }

  /** A run of ASCII decimal digits, read as a natural number. */
  function ParseUnsigned(s: string): (r: Option<nat>)
    ensures r.Some? <==> AllDecimal(s)
  {
    if AllDecimal(s) then Some(Numerals.Value(seq(|s|, i requires 0 <= i < |s| => DigitOf(s[i])), 10))
    else None
  }

  /**
   * Python's int(s): surrounding white space is ignored, one optional sign
   * is allowed, and the rest must be ASCII decimal digits. `None` stands for
   * the ValueError int() raises.
   */
  function ParseInt(s: string): (r: Option<int>)
    ensures r.Some? ==> (var t := Trim(s, Spaces);
      AllDecimal(t) || (|t| >= 2 && (t[0] == '+' || t[0] == '-') && AllDecimal(t[1..])))
    ensures AllDecimal(Trim(s, Spaces)) ==> r.Some? && r.value >= 0
  {
    var t := Trim(s, Spaces);
    if t != [] && (t[0] == '+' || t[0] == '-') then
      match ParseUnsigned(t[1..])
      case None => None
      case Some(m) =>
        var v: int := m;
        Some(if t[0] == '-' then -v else v)
    else
      match ParseUnsigned(t)
      case None => None
      case Some(m) => Some(m)
  }

  /** The decimal numeral of `n`, as str(n) writes it. */
  function NatToString(n: nat): (s: string)
    ensures AllDecimal(s)
  {
    var ds := Numerals.Digits(n, 10);
    seq(|ds|, i requires 0 <= i < |ds| => DigitChar(ds[i]))
  }

  function IntToString(n: int): string
  {
    if n < 0 then "-" + NatToString(-n) else NatToString(n)
  }

  lemma IntToStringNonEmpty(n: int)
    ensures IntToString(n) != []
  {
  }

  lemma ParseUnsignedOfNatToString(n: nat)
    ensures ParseUnsigned(NatToString(n)) == Some(n)
  {
    var s := NatToString(n);
    var ds := Numerals.Digits(n, 10);
    assert seq(|s|, i requires 0 <= i < |s| => DigitOf(s[i])) == ds;
    Numerals.ValueOfDigits(n, 10);
  }

  /** Text that neither starts nor ends with white space is left alone by strip(). */
  lemma Unpadded(s: string)
    requires s != [] && s[0] !in Spaces && s[|s| - 1] !in Spaces
    ensures Trim(s, Spaces) == s
  {
    TrimPadded([], s, [], Spaces);
    assert [] + s + [] == s;
  }

  lemma DecimalNotSpace(c: char)
    requires IsDecimalDigit(c)
    ensures c !in Spaces
  {
  }

  /** int(str(n)) == n. */
  lemma ParseIntOfIntToString(n: int)
    ensures ParseInt(IntToString(n)) == Some(n)
  {
    var m: nat := if n < 0 then -n else n;
    var digits := NatToString(m);
    ParseUnsignedOfNatToString(m);
    DecimalNotSpace(digits[0]);
    DecimalNotSpace(digits[|digits| - 1]);
    if n < 0 {
      var s := "-" + digits;
      assert s[1..] == digits && s[|s| - 1] == digits[|digits| - 1];
      Unpadded(s);
    } else {
      Unpadded(digits);
    }
  }

  /** Index of the first occurrence of `c` in `s`. */
  function IndexOf(s: string, c: char): (i: nat)
    requires c in s
    ensures i < |s| && s[i] == c && c !in s[..i]
  {
    if s[0] == c then 0 else 1 + IndexOf(s[1..], c)
  }

  /** sep.join(parts) */
  function JoinWith(parts: seq<string>, sep: char): string
    requires |parts| >= 1
  {
    if |parts| == 1 then parts[0] else parts[0] + [sep] + JoinWith(parts[1..], sep)
  }

  /**
   * Python's s.split(sep): the maximal separator-free pieces of `s`, in
   * order; joining them back with `sep` gives `s`.
   */
  function Split(s: string, sep: char): (parts: seq<string>)
    ensures |parts| >= 1
    ensures forall i :: 0 <= i < |parts| ==> sep !in parts[i]
    ensures JoinWith(parts, sep) == s
    decreases |s|
  {
    if sep !in s then [s]
    else
      var i := IndexOf(s, sep);
      assert s == s[..i] + [sep] + s[i + 1..];
      [s[..i]] + Split(s[i + 1..], sep)
  }

  /** Splitting a joined list of separator-free pieces gives the pieces back. */
  lemma {:induction false} SplitJoinWith(parts: seq<string>, sep: char)
    requires |parts| >= 1
    requires forall i :: 0 <= i < |parts| ==> sep !in parts[i]
    ensures Split(JoinWith(parts, sep), sep) == parts
  {
    if |parts| > 1 {
      var s := JoinWith(parts, sep);
      var p := parts[0];
      assert s[|p|] == sep;
      assert sep in s;
      var i := IndexOf(s, sep);
      assert s[..|p|] == p;
      assert i == |p|;
      assert s[..i] == p;
      assert s[i + 1..] == JoinWith(parts[1..], sep);
      SplitJoinWith(parts[1..], sep);
    }
  }
}
